=== FILE: README.md ===
# IMT4072 numeric library in Dafny

The IMT4072 library is a small numeric toolkit written in Java. It has five parts:

- `Matrix`: a dense matrix of doubles. It holds means, variances, covariance and scatter matrices, sums, differences, products, the 2x2 inverse, transposition and cell access.
- `Statistics`: the same measures over plain value lists, plus correlation and simple linear regression.
- `Clustering`: k-means style clustering. It assigns each sample to its nearest centroid, then recomputes each centroid as the mean of its members.
- `NeuralNetwork`: a single-layer perceptron. It has random initial weights, a step activation and the perceptron weight update after each misclassified sample.
- `ExceptionClass`: the validation helpers. Each one throws when an index, a size or an order is wrong.

Each part is one Dafny module:

| module | file | models |
|---|---|---|
| `Errors` | errors.dfy | `ExceptionClass` |
| `Statistics` | statistics.dfy | `Statistics` |
| `Matrices` | matrices.dfy | `Matrix` |
| `Clustering` | clustering.dfy | `Clustering` |
| `Perceptron` | perceptron.dfy | `NeuralNetwork` |

How the model represents the Java:

- **Numbers.** Doubles are `real`.
- **Matrices.** A matrix is `Matrix(rows, cols, cells)` with a `Valid()` shape predicate. The source allows matrices with rows and no columns, so the two counts are kept apart from the cells.
- **Operations.** Every operation is a pure function that returns the new matrix or value. It does not update `this` in place.
- **Errors.** A thrown `ExceptionClass`, an `ArrayIndexOutOfBoundsException` and a list `IndexOutOfBoundsException` all become `Err(kind)`.
- **Division by zero.** In double arithmetic this does not throw. It yields NaN or an infinity, which the model reports as `Err(NonFinite)`.
- **Square root.** `Math.sqrt` is a parameter. Where a property needs its behaviour, the property requires `Statistics.IsSquareRoot`: sqrt(0) = 0 and sqrt is strictly increasing on non-negative values.
- **Randomness.** Calls to `java.util.Random` become oracle arguments: sequences of the raw draws.

## Model

| member | source | states |
|---|---|---|
| Errors.RowInRange | IMT4072_Project/src/macs/hig/imt4072_library/ExceptionClass.java:57-63 | passes exactly when 0 <= row < rowCount, otherwise fails as a row error |
| Errors.ColumnInRange | IMT4072_Project/src/macs/hig/imt4072_library/ExceptionClass.java:77-83 | passes exactly when 0 <= column < columnCount, otherwise fails as a column error |
| Errors.NotEmpty | IMT4072_Project/src/macs/hig/imt4072_library/ExceptionClass.java:93-98 | passes exactly when both counts are non-zero |
| Errors.ValueListNotEmpty | IMT4072_Project/src/macs/hig/imt4072_library/ExceptionClass.java:106-112 | passes exactly when the value list has an element |
| Errors.ParentNotEmpty | IMT4072_Project/src/macs/hig/imt4072_library/ExceptionClass.java:127-137 | the same verdict as the emptiness check, reported as an empty parent |
| Errors.EqualOrder | IMT4072_Project/src/macs/hig/imt4072_library/ExceptionClass.java:149-165 | passes exactly when both orders agree; a row mismatch is reported before a column mismatch |
| Errors.AtMostTwoByTwo | IMT4072_Project/src/macs/hig/imt4072_library/ExceptionClass.java:178-187 | rejects only counts above 2, so 1x1, 1x2 and 0xN matrices pass |
| Errors.ColumnsMatchRows | IMT4072_Project/src/macs/hig/imt4072_library/ExceptionClass.java:200-207 | passes exactly when the first operand's column count equals the second's row count |
| Errors.NewSizeNotLess | IMT4072_Project/src/macs/hig/imt4072_library/ExceptionClass.java:220-235 | fails exactly when the new count is positive and below the current one |
| Errors.ListSizesEqual | IMT4072_Project/src/macs/hig/imt4072_library/ExceptionClass.java:249-254 | passes exactly when the two lists have equal length |
| Errors.SizeNotGreater | IMT4072_Project/src/macs/hig/imt4072_library/ExceptionClass.java:271-275 | passes exactly when size <= checkValue, and fails with the caller's kind |
| Errors.SizeNotLess | IMT4072_Project/src/macs/hig/imt4072_library/ExceptionClass.java:290-294 | passes exactly when checkValue <= size, and fails with the caller's kind |
| Statistics.SumOfXTimesY | IMT4072_Project/src/macs/hig/imt4072_library/Statistics.java:346-364 | fails on lists of unequal length; otherwise gives the sum of pairwise products |
| Statistics.SumOfSquaresNonNegative | IMT4072_Project/src/macs/hig/imt4072_library/Statistics.java:371-381 | a sum of squares is never negative |
| Statistics.Mean | IMT4072_Project/src/macs/hig/imt4072_library/Statistics.java:51-62 | positive exactly when the sum is; then mean * n = sum; otherwise the raw sum is returned |
| Statistics.MeanOfInts | IMT4072_Project/src/macs/hig/imt4072_library/Statistics.java:33-43 | the same convention over an integer list |
| Statistics.SumOfConstant | IMT4072_Project/src/macs/hig/imt4072_library/Statistics.java:329-337 | n copies of v sum to n * v |
| Statistics.MeanOfConstant | IMT4072_Project/src/macs/hig/imt4072_library/Statistics.java:51-62 | a constant positive list has that constant as mean; a non-positive one yields n * v |
| Statistics.MeanOfOne | IMT4072_Project/src/macs/hig/imt4072_library/Statistics.java:51-62 | one value is its own mean, whatever its sign |
| Statistics.Variance | IMT4072_Project/src/macs/hig/imt4072_library/Statistics.java:72-90 | 0 for a non-positive mean, and 0 when the squared deviations vanish, so 0 for an empty list or a single value that succeeds; never negative; otherwise times n - 1 gives the squared deviations; division by zero exactly for one value that differs from the mean |
| Statistics.SquaredDeviationsNonNegative | IMT4072_Project/src/macs/hig/imt4072_library/Statistics.java:72-90 | the squared deviations from any centre are never negative |
| Statistics.NoDeviationFromConstant | IMT4072_Project/src/macs/hig/imt4072_library/Statistics.java:72-90 | a constant list has no deviation from its constant |
| Statistics.VarianceAtOwnMean | IMT4072_Project/src/macs/hig/imt4072_library/Statistics.java:72-90 | the variance about the list's own mean is always finite, and 0 for a constant list |
| Statistics.StdDev | IMT4072_Project/src/macs/hig/imt4072_library/Statistics.java:98-104 | 0 for a non-positive variance; with a real square root, non-negative and positive exactly for positive variance |
| Statistics.K1 | IMT4072_Project/src/macs/hig/imt4072_library/Statistics.java:153-159 | non-negative; positive exactly when both inputs are, and then K1 * variance = stddev |
| Statistics.CoVariance | IMT4072_Project/src/macs/hig/imt4072_library/Statistics.java:116-144 | fails on unequal lengths; otherwise its sign follows the cross deviations, and a positive value times n - 1 is the cross deviations |
| Statistics.CrossDeviationsSymmetric | IMT4072_Project/src/macs/hig/imt4072_library/Statistics.java:116-144 | swapping the two lists and their centres leaves the cross deviations unchanged |
| Statistics.CrossDeviationsWithItself | IMT4072_Project/src/macs/hig/imt4072_library/Statistics.java:116-144 | a list's cross deviation with itself is its squared deviation |
| Statistics.CoVarianceSymmetryAndDiagonal | IMT4072_Project/src/macs/hig/imt4072_library/Statistics.java:116-144 | covariance is symmetric, and a list's covariance with itself is its variance when the mean is positive |
| Statistics.Correlation | IMT4072_Project/src/macs/hig/imt4072_library/Statistics.java:176-206 | fails exactly on unequal lengths; when the covariance and the product of the standard deviations are both positive, the value is positive and times that product gives the covariance; in every other case it is 0, so it is never negative |
| Statistics.CorrelationQuotient | IMT4072_Project/src/macs/hig/imt4072_library/Statistics.java:198-201 | the guarded division: positive and scaled back to the covariance by the product when both are positive, 0 otherwise |
| Statistics.StdDevProduct | IMT4072_Project/src/macs/hig/imt4072_library/Statistics.java:188-194 | the product of the two standard deviations about the lists' own means: non-negative with a real square root, and 0 when either mean is not positive |
| Statistics.CorrelationOfNonPositiveMean | IMT4072_Project/src/macs/hig/imt4072_library/Statistics.java:176-206 | a first list with a non-positive mean always correlates to 0 |
| Statistics.Quotient | IMT4072_Project/src/macs/hig/imt4072_library/Statistics.java:272-303 | fails exactly for a zero denominator; otherwise quotient * denominator = numerator |
| Statistics.RegressionB | IMT4072_Project/src/macs/hig/imt4072_library/Statistics.java:272-303 | fails on unequal lengths; 0 when a mean is not positive; division by zero exactly for one pair; otherwise the slope times its denominator is its numerator |
| Statistics.SquaredDeviationsExpand | IMT4072_Project/src/macs/hig/imt4072_library/Statistics.java:371-381 | the squared deviations about c equal the sum of squares minus 2c times the sum plus n c squared |
| Statistics.CountTimesSumOfSquares | IMT4072_Project/src/macs/hig/imt4072_library/Statistics.java:371-381 | n times the sum of squares is at least the square of the sum |
| Statistics.RegressionDenominator | IMT4072_Project/src/macs/hig/imt4072_library/Statistics.java:272-303 | for a positive mean, the slope's denominator vanishes exactly for a single pair |
| Statistics.ManyPairsDenominator | IMT4072_Project/src/macs/hig/imt4072_library/Statistics.java:272-303 | with two or more pairs and a positive mean, the denominator is strictly positive |
| Statistics.RegressionSlopeOfExactLine | IMT4072_Project/src/macs/hig/imt4072_library/Statistics.java:272-303 | for the points of y = 2x + 1 the slope is 46/19, because the formula uses means where sums belong |
| Statistics.RegressionA | IMT4072_Project/src/macs/hig/imt4072_library/Statistics.java:239-259 | fails on unequal lengths; 0 unless both means are positive; then a * n = mean(y) - b * mean(x) |
| Statistics.LinearRegression | IMT4072_Project/src/macs/hig/imt4072_library/Statistics.java:221-229 | fails exactly when the slope fails, and on unequal lengths with the list error; otherwise the prediction minus slope * x, times n, is mean(y) - slope * mean(x) when both means are positive, and the prediction is slope * x otherwise |
| Statistics.Prediction | IMT4072_Project/src/macs/hig/imt4072_library/Statistics.java:225-227 | for any slope, the prediction is slope * x plus (mean(y) - slope * mean(x)) / n when both means are positive, and slope * x otherwise |
| Statistics.PredictionIsAffine | IMT4072_Project/src/macs/hig/imt4072_library/Statistics.java:221-229 | two predictions differ by the computed slope times the distance between their x values |
| Statistics.PredictionDifference | IMT4072_Project/src/macs/hig/imt4072_library/Statistics.java:225-227 | for one slope, predictions at x1 and x2 differ by slope * (x2 - x1) |
| Statistics.LinearRegressionIgnoresCoefficients | IMT4072_Project/src/macs/hig/imt4072_library/Statistics.java:221-229 | the a and b arguments have no effect on the prediction |
| Matrices.Create | IMT4072_Project/src/macs/hig/imt4072_library/Matrix.java:42-49 | a new matrix has the requested order and only zero cells |
| Matrices.Get | IMT4072_Project/src/macs/hig/imt4072_library/Matrix.java:840-857 | succeeds exactly for an index inside the matrix and gives that cell; the row is checked first |
| Matrices.Set | IMT4072_Project/src/macs/hig/imt4072_library/Matrix.java:750-765 | succeeds exactly for an index inside the matrix; writes that cell and leaves every other cell |
| Matrices.GetAfterSet | IMT4072_Project/src/macs/hig/imt4072_library/Matrix.java:750-765 | reading after a write gives the written value at that index and the old value everywhere else |
| Matrices.FillColumn | IMT4072_Project/src/macs/hig/imt4072_library/Matrix.java:699-719 | fails on an empty list, a bad column or too many values; otherwise writes the values down the column from the top and keeps every other cell |
| Matrices.Transpose | IMT4072_Project/src/macs/hig/imt4072_library/Matrix.java:592-633 | an empty matrix is kept; otherwise the order is swapped and cell (i, j) moves to (j, i) |
| Matrices.TransposeInvolutive | IMT4072_Project/src/macs/hig/imt4072_library/Matrix.java:592-633 | transposing twice gives the original matrix back |
| Matrices.Add | IMT4072_Project/src/macs/hig/imt4072_library/Matrix.java:362-380 | succeeds exactly for non-empty operands of equal order; the result is the cellwise sum |
| Matrices.Subtract | IMT4072_Project/src/macs/hig/imt4072_library/Matrix.java:393-411 | succeeds exactly for non-empty operands of equal order; the result is the cellwise difference |
| Matrices.SubtractUndoesAdd | IMT4072_Project/src/macs/hig/imt4072_library/Matrix.java:362-411 | subtracting the second operand from a sum gives the first operand back |
| Matrices.Scale | IMT4072_Project/src/macs/hig/imt4072_library/Matrix.java:419-428 | fails on an empty matrix; otherwise every cell is multiplied by the factor |
| Matrices.ScaleComposes | IMT4072_Project/src/macs/hig/imt4072_library/Matrix.java:419-428 | scaling by f then by g equals scaling once by g * f |
| Matrices.MultiplyMatrices | IMT4072_Project/src/macs/hig/imt4072_library/Matrix.java:487-508 | each result cell is the dot product of a row and a column; it fails exactly when the first operand has more columns than the second has rows |
| Matrices.Multiply | IMT4072_Project/src/macs/hig/imt4072_library/Matrix.java:449-476 | succeeds exactly for non-empty operands whose orders fit, either as given or switched when allowed; the result is the product in the order that fits |
| Matrices.SwitchedProductIsReversed | IMT4072_Project/src/macs/hig/imt4072_library/Matrix.java:449-476 | when only the switched orientation fits, the product with switching allowed is the reversed product, and without switching it fails |
| Matrices.SmallerThanTwoByTwoIsSingular | IMT4072_Project/src/macs/hig/imt4072_library/Matrix.java:538-575 | for a 1x1, 1x2 or 2x1 matrix the two corner products cancel, so the determinant is 0 |
| Matrices.Inverse2x2 | IMT4072_Project/src/macs/hig/imt4072_library/Matrix.java:538-585 | succeeds exactly for a 2x2 matrix with a non-zero determinant, and the result is a two-sided inverse |
| Matrices.InverseRoundTrip | IMT4072_Project/src/macs/hig/imt4072_library/Matrix.java:576-583 | the adjugate scaled by 1/det times the matrix is the identity, in both orders |
| Matrices.SingularTestAsWritten | IMT4072_Project/src/macs/hig/imt4072_library/Matrix.java:570-575 | for any finite determinant, the "1 / det == 0" test never rejects |
| Matrices.SingularMatrixPassesTestAsWritten | IMT4072_Project/src/macs/hig/imt4072_library/Matrix.java:570-575 | the singular matrix [[1, 2], [2, 4]] passes the test as written, while the corrected inverse rejects it |
| Matrices.Mean | IMT4072_Project/src/macs/hig/imt4072_library/Matrix.java:59-74 | fails on an empty matrix or a bad column; otherwise mean * rows = column sum |
| Matrices.MeanOfConstantColumn | IMT4072_Project/src/macs/hig/imt4072_library/Matrix.java:59-74 | a column holding one value has that value as its mean |
| Matrices.MeanMatrix | IMT4072_Project/src/macs/hig/imt4072_library/Matrix.java:86-97 | fails exactly on an empty matrix; otherwise a column vector whose i-th cell is the mean of column i |
| Matrices.CorrectedMean | IMT4072_Project/src/macs/hig/imt4072_library/Matrix.java:110-122 | fails for an index outside the matrix; otherwise adding the global mean back gives the cell |
| Matrices.SquaredDeviationsNonNegative | IMT4072_Project/src/macs/hig/imt4072_library/Matrix.java:132-158 | a column's squared deviations are never negative |
| Matrices.CrossDeviationsSymmetric | IMT4072_Project/src/macs/hig/imt4072_library/Matrix.java:169-194 | swapping the two columns leaves their cross deviations unchanged |
| Matrices.OneRowHasNoDeviation | IMT4072_Project/src/macs/hig/imt4072_library/Matrix.java:169-194 | a single row has no deviation from its own means |
| Matrices.Variance | IMT4072_Project/src/macs/hig/imt4072_library/Matrix.java:132-158 | fails on an empty matrix or a bad column; never negative; with two or more rows, variance * (rows - 1) is the column's scatter |
| Matrices.VarianceOfConstantColumn | IMT4072_Project/src/macs/hig/imt4072_library/Matrix.java:132-158 | a constant column has variance 0 |
| Matrices.CoVariance | IMT4072_Project/src/macs/hig/imt4072_library/Matrix.java:169-194 | fails for a bad column, an empty matrix or one row (division by zero); otherwise covariance * (rows - 1) is the cross scatter of the two columns |
| Matrices.CoVarianceDiagonalAndSymmetry | IMT4072_Project/src/macs/hig/imt4072_library/Matrix.java:132-194 | a column's covariance with itself is its variance, and covariance is symmetric |
| Matrices.CoVarianceMatrix | IMT4072_Project/src/macs/hig/imt4072_library/Matrix.java:205-223 | fails on an empty parent or one row; otherwise a symmetric cols x cols matrix of covariances whose diagonal holds the variances |
| Matrices.ScatterMatrixAsWritten | IMT4072_Project/src/macs/hig/imt4072_library/Matrix.java:240-273 | with an empty covariance argument: fails only for an empty parent, otherwise the 0x0 matrix; with a supplied one: fails exactly when it has fewer rows than columns, otherwise each cell is (rows - 1) times the covariance cell |
| Matrices.ScatterAsWrittenAgreesWhenSupplied | IMT4072_Project/src/macs/hig/imt4072_library/Matrix.java:240-273 | with a non-empty covariance argument, the code as written and the corrected scatter give the same result |
| Matrices.ScatterOfComputedCovarianceIsEmpty | IMT4072_Project/src/macs/hig/imt4072_library/Matrix.java:240-273 | for the parent [[1, 2], [3, 4]], the scatter as written is empty, while the corrected one is 2x2 |
| Matrices.ScatterMatrix | IMT4072_Project/src/macs/hig/imt4072_library/Matrix.java:240-273 | each covariance cell times (n - 1), on a matrix sized from the covariance actually used |
| Matrices.ComputedScatterIsCrossDeviations | IMT4072_Project/src/macs/hig/imt4072_library/Matrix.java:240-273 | a scatter built from the computed covariance holds each pair of columns' cross deviations |
| Matrices.BetweenClassScatter | IMT4072_Project/src/macs/hig/imt4072_library/Matrix.java:282-306 | the outer product of the first two mean differences; the rest of the matrix is zero, and the result is symmetric |
| Matrices.OptimalLine | IMT4072_Project/src/macs/hig/imt4072_library/Matrix.java:318-349 | succeeds exactly for non-empty operands whose orders fit; the result is invSw times (meanC1 - meanC2) |
| Matrices.OptimalLineIsProduct | IMT4072_Project/src/macs/hig/imt4072_library/Matrix.java:318-349 | the fused loop of dot products with the difference equals the product with the difference matrix |
| Clustering.DistanceSign | IMT4072_Project/src/macs/hig/imt4072_library/Clustering.java:219-224 | an attribute distance is non-negative and zero exactly for equal values |
| Clustering.SampleDistanceSign | IMT4072_Project/src/macs/hig/imt4072_library/Clustering.java:172-178 | a sample's summed distance to a centroid is non-negative and zero exactly when they agree on every attribute |
| Clustering.ArgMin | IMT4072_Project/src/macs/hig/imt4072_library/Clustering.java:183-192 | the chosen position holds a minimum, and every earlier position is strictly larger |
| Clustering.ArgMinUnique | IMT4072_Project/src/macs/hig/imt4072_library/Clustering.java:183-192 | the first minimum is the only position with that property |
| Clustering.ArgMinUnderSquareRoot | IMT4072_Project/src/macs/hig/imt4072_library/Clustering.java:180-192 | taking square roots of non-negative distances does not change the chosen position |
| Clustering.Assignments | IMT4072_Project/src/macs/hig/imt4072_library/Clustering.java:170-196 | one 1-based centroid number per sample, naming the first nearest centroid; it fails when there are samples but no centroids |
| Clustering.AssignmentsIgnoreSquareRoot | IMT4072_Project/src/macs/hig/imt4072_library/Clustering.java:170-196 | with any real square root, the assignments equal those made on squared distances |
| Clustering.ClusterCountIsMultiplicity | IMT4072_Project/src/macs/hig/imt4072_library/Clustering.java:325-333 | the cluster count is the value's multiplicity in the list |
| Clustering.CountedIffPresent | IMT4072_Project/src/macs/hig/imt4072_library/Clustering.java:325-333 | the count is positive exactly when the value occurs |
| Clustering.CountsSumToLength | IMT4072_Project/src/macs/hig/imt4072_library/Clustering.java:325-333 | over distinct values that cover the list, the counts add up to its length |
| Clustering.Members | IMT4072_Project/src/macs/hig/imt4072_library/Clustering.java:252-262 | the positions of the samples assigned to v: one per count, each holding v |
| Clustering.MembersInOrder | IMT4072_Project/src/macs/hig/imt4072_library/Clustering.java:253-261 | the member rows are collected in increasing sample position, none twice |
| Clustering.MembersComplete | IMT4072_Project/src/macs/hig/imt4072_library/Clustering.java:253-261 | every sample assigned to v is among its members |
| Clustering.MemberColumnSum | IMT4072_Project/src/macs/hig/imt4072_library/Clustering.java:252-264 | the collected member matrix's column sum is the sum of that attribute over the samples assigned to v |
| Clustering.CentroidMeanTimesCount | IMT4072_Project/src/macs/hig/imt4072_library/Clustering.java:264-267 | the new centroid attribute times the member count is the members' attribute sum |
| Clustering.UpdateCentroids | IMT4072_Project/src/macs/hig/imt4072_library/Clustering.java:239-272 | a centroid with members becomes their mean; a centroid without members is kept; it fails only when members exist but no attributes do |
| Clustering.UpdatedCentroidIsMemberMean | IMT4072_Project/src/macs/hig/imt4072_library/Clustering.java:239-272 | each updated centroid attribute times the cluster size is its members' attribute sum |
| Clustering.Round | IMT4072_Project/src/macs/hig/imt4072_library/Clustering.java:168-202 | one round fails exactly when there are samples but no centroids or no attributes; otherwise it appends that round's assignments to the history, replaces the centroids by the update from those assignments, and keeps the samples and the centroid count |
| Clustering.Rounds | IMT4072_Project/src/macs/hig/imt4072_library/Clustering.java:168-204 | n rounds in a row keep the samples and the centroid count and add n entries to the history; they fail exactly when n > 0 and the first round fails |
| Clustering.RoundsKeepHistory | IMT4072_Project/src/macs/hig/imt4072_library/Clustering.java:195-201 | n rounds keep the earlier history as a prefix, and each added round assigns every sample a centroid number in 1..K |
| Clustering.IsResultEqualToLastRound | IMT4072_Project/src/macs/hig/imt4072_library/Clustering.java:285-312 | false up to round 2; after that, true exactly when 1 plus the count of adjacent rounds with equal mean exceeds the stop parameter |
| Clustering.AdjacentEqualRoundsOfPrefix | IMT4072_Project/src/macs/hig/imt4072_library/Clustering.java:285-312 | the count of equal adjacent rounds among the first n rounds does not depend on later rounds |
| Clustering.RepeatedRoundsAllEqual | IMT4072_Project/src/macs/hig/imt4072_library/Clustering.java:285-312 | n identical rounds are counted as n equal results |
| Clustering.Run | IMT4072_Project/src/macs/hig/imt4072_library/Clustering.java:156-208 | the result is the state after the rounds actually run, at most maxIterations and at least one when allowed; an early stop means more than two rounds and that the stop test fired after the last one, and it fired after no earlier round from the third on; it fails exactly when the first round fails, with that round's error |
| Clustering.Advance | IMT4072_Project/src/macs/hig/imt4072_library/Clustering.java:168-203 | one pass of the loop keeps the loop state: the state after round + 1 rounds, the stop test recorded for the new history, and a failure only at the first round |
| Clustering.RoundStep | IMT4072_Project/src/macs/hig/imt4072_library/Clustering.java:195-203 | the next round's state is the state after round + 1 rounds, and stop tests that did not fire before still do not |
| Clustering.StopTestsKept | IMT4072_Project/src/macs/hig/imt4072_library/Clustering.java:198-203 | appending rounds to the history leaves the stop tests of earlier rounds unchanged |
| Clustering.FillMatrixWithSamples | IMT4072_Project/src/macs/hig/imt4072_library/Clustering.java:94-109 | fails on an empty list or a too-short sample; otherwise row j is the first noAttributes values of sample j |
| Clustering.Insert | IMT4072_Project/src/macs/hig/imt4072_library/Clustering.java:123-145 | inserting a new value into an increasing list keeps it increasing and adds exactly that value |
| Clustering.Sort | IMT4072_Project/src/macs/hig/imt4072_library/Clustering.java:123-145 | the result is increasing and a permutation of the input |
| Clustering.IncreasingFillsRange | IMT4072_Project/src/macs/hig/imt4072_library/Clustering.java:123-145 | an increasing list of k values below k is exactly 0 .. k-1 |
| Clustering.FullSelectionSorts | IMT4072_Project/src/macs/hig/imt4072_library/Clustering.java:123-145 | k distinct draws below k sort to 0 .. k-1, and every such value was drawn |
| Clustering.SelectCentroidIndices | IMT4072_Project/src/macs/hig/imt4072_library/Clustering.java:123-145 | rejection sampling completes exactly when every index below k is drawn, and the sorted selection is 0 .. k-1 |
| Clustering.FillCentroidMatrix | IMT4072_Project/src/macs/hig/imt4072_library/Clustering.java:123-145 | succeeds exactly when every selected index is inside the list and, when attributes are wanted, there is a selection whose samples are long enough; row i is the first noAttributes values of the i-th selected sample; an empty selection fails as an empty list, any other failure as an index error |
| Clustering.SelectedCentroidsAreFirstRows | IMT4072_Project/src/macs/hig/imt4072_library/Clustering.java:123-145 | selecting indices 0 .. k-1 gives the first k samples |
| Clustering.RescaledList | IMT4072_Project/src/macs/hig/imt4072_library/Clustering.java:342-351 | empty for a count up to 0; division by zero for 1; otherwise n values where entry i times (n - 1) is i, so strictly increasing from 0 to 1 |
| Clustering.RescaledPositionsExact | IMT4072_Project/src/macs/hig/imt4072_library/Clustering.java:346-348 | entry i of the rescaled positions times (n - 1) is i |
| Clustering.RescaledPositionsOrdered | IMT4072_Project/src/macs/hig/imt4072_library/Clustering.java:346-348 | the rescaled positions start at 0, end at 1, increase strictly and stay within [0, 1] |
| Clustering.RescaleOrder | IMT4072_Project/src/macs/hig/imt4072_library/Clustering.java:342-351 | (x - 1) / (n - 1) is monotone in x and maps 1 to 0 and n to 1 |
| Perceptron.Sign | IMT4072_Project/src/macs/hig/imt4072_library/NeuralNetwork.java:183-185 | 1 exactly for a positive output, -1 exactly otherwise |
| Perceptron.CurrentErrorSign | IMT4072_Project/src/macs/hig/imt4072_library/NeuralNetwork.java:136-145 | the error term is non-negative and zero exactly when the output is the desired one |
| Perceptron.Weight | IMT4072_Project/src/macs/hig/imt4072_library/NeuralNetwork.java:88-90 | a weight is a whole number of hundredths between 0.01 and 1.0 |
| Perceptron.WeightList | IMT4072_Project/src/macs/hig/imt4072_library/NeuralNetwork.java:82-94 | listCount weights, the i-th derived from the i-th draw |
| Perceptron.LearningRate | IMT4072_Project/src/macs/hig/imt4072_library/NeuralNetwork.java:205-214 | a whole number of tenths between 0.1 and 0.7, so positive |
| Perceptron.NewNetwork | IMT4072_Project/src/macs/hig/imt4072_library/NeuralNetwork.java:44-62 | with an empty input or desired list everything is left unset; otherwise the rate is the one `setLearningRate` draws (a whole number of tenths in 0.1 .. 0.7), the outputs are an N x 1 zero matrix, and the 1 x A weight row holds the weights from the draws; it fails only for an empty first sample |
| Perceptron.AdjustWeights | IMT4072_Project/src/macs/hig/imt4072_library/NeuralNetwork.java:153-173 | succeeds exactly when the orders fit; every weight gains rate * (desired - output) times its input |
| Perceptron.NoAdjustmentWhenCorrect | IMT4072_Project/src/macs/hig/imt4072_library/NeuralNetwork.java:153-173 | when the output equals the desired value, the weights are unchanged |
| Perceptron.UpdatedWeightedSum | IMT4072_Project/src/macs/hig/imt4072_library/NeuralNetwork.java:153-173 | after the update w + c x, the weighted sum of x grows by c times the sum of squares of x |
| Perceptron.AdjustmentMovesTowardDesired | IMT4072_Project/src/macs/hig/imt4072_library/NeuralNetwork.java:153-173 | with a positive rate, the update moves the sample's weighted sum toward the desired output, never away |
| Perceptron.InputMatrix | IMT4072_Project/src/macs/hig/imt4072_library/NeuralNetwork.java:110-111 | a sample becomes a column matrix holding its values; an empty sample fails |
| Perceptron.DotIsWeightedSum | IMT4072_Project/src/macs/hig/imt4072_library/NeuralNetwork.java:113 | the product of the weight row with the sample column is the weighted sum |
| Perceptron.Output | IMT4072_Project/src/macs/hig/imt4072_library/NeuralNetwork.java:113 | the output is the weighted sum of the sample; it fails for empty weights or an empty sample |
| Perceptron.AdjustedRow | IMT4072_Project/src/macs/hig/imt4072_library/NeuralNetwork.java:153-173 | the adjusted weight row is w + c x for the correction factor c |
| Perceptron.Step | IMT4072_Project/src/macs/hig/imt4072_library/NeuralNetwork.java:107-125 | a step records the sample's weighted sum as its output and changes no other output; it fails past the desired list or for an empty sample |
| Perceptron.StepRule | IMT4072_Project/src/macs/hig/imt4072_library/NeuralNetwork.java:116-123 | a misclassified sample updates the weights and adds its error; a correct one changes neither |
| Perceptron.EpochTrace | IMT4072_Project/src/macs/hig/imt4072_library/NeuralNetwork.java:107-126 | the states of the loop over the first n samples form a trace |
| Perceptron.TraceExtends | IMT4072_Project/src/macs/hig/imt4072_library/NeuralNetwork.java:107-126 | appending the next step's state to a trace gives a trace |
| Perceptron.TracePrefix | IMT4072_Project/src/macs/hig/imt4072_library/NeuralNetwork.java:107-126 | every non-empty prefix of a trace is a trace |
| Perceptron.OutputKept | IMT4072_Project/src/macs/hig/imt4072_library/NeuralNetwork.java:113-114 | an output written at step k is not overwritten by later steps |
| Perceptron.EpochOutputs | IMT4072_Project/src/macs/hig/imt4072_library/NeuralNetwork.java:113-114 | at the end of the epoch, output k is the weighted sum of sample k under the weights before step k |
| Perceptron.RunningErrorGrows | IMT4072_Project/src/macs/hig/imt4072_library/NeuralNetwork.java:116-119 | the running error is non-negative and never falls during an epoch |
| Perceptron.StepError | IMT4072_Project/src/macs/hig/imt4072_library/NeuralNetwork.java:116-119 | one step raises the running error exactly when it adds error, and never lowers it |
| Perceptron.RunningErrorPositive | IMT4072_Project/src/macs/hig/imt4072_library/NeuralNetwork.java:116-128 | the epoch ends with positive error exactly when some sample was misclassified with an output other than the desired one |
| Perceptron.TrainEpoch | IMT4072_Project/src/macs/hig/imt4072_library/NeuralNetwork.java:100-130 | one epoch keeps the inputs, desired outputs, rate and weight order; its weights and outputs are those of the final state of the epoch's trace; it asks for another epoch exactly when some sample added error |
| Perceptron.SignLabelsRetrainIffMisclassified | IMT4072_Project/src/macs/hig/imt4072_library/NeuralNetwork.java:116-129 | with labels of 1 and -1, another epoch follows exactly when some sample was misclassified |

## Left out

- IEEE doubles: rounding is not modelled. NaN and infinities appear only as the `NonFinite` error kind, at the divisions by zero the code performs.
- `Math.sqrt` is a parameter. The clustering properties hold for any function that is 0 at 0 and strictly increasing.
- `java.util.Random` is replaced by oracle sequences of draws. `SelectCentroidIndices` reads a finite draw list, so it can report `DrawsExhausted` where the source would keep drawing. Termination of the source's rejection loop depends on the generator and is not modelled.
- Perceptron.TrainEpoch: models one epoch. It reports whether the source would recurse into another epoch. The recursion itself may not terminate, so it is not modelled.
- Perceptron.TrainEpoch: when a sample fails partway through an epoch, the source has already written the earlier samples' outputs (NeuralNetwork.java:114) and weight updates (NeuralNetwork.java:172) into the network object before it throws. A sample can fail by reading past the desired list (NeuralNetwork.java:109) or by having a length other than the weight row's (NeuralNetwork.java:113). The model returns only the error and does not keep that partly trained network.
- The NaN clamp in the training loop, which resets the running error to 0.5, is not modelled: with real arithmetic the error is never NaN.
- Clustering.Run: `maxIterations` is a `float` in the source; the model takes a natural number of rounds.
- The `Clustering(int, int)` constructor is not modelled: it fills its matrices from lists it leaves empty (marked TODO). Its two fill operations are modelled as `FillMatrixWithSamples` and `FillCentroidMatrix`.
- `fillMatrixWithSamples` reassigns its matrix parameter, so the caller's matrix never changes. The model returns the filled matrix instead.
- The overload `transposeMatrix(int, int, double[][])`, `deleteMatrix`, `deleteTempArrayObjects`, `createMatrixArray`, the resize setters and `swapCellValueAt` are memory and array plumbing. They have no observable effect beyond the operations above.
- `getIdentityMatrix` and `NeuralNetwork.calculateWeightedSum` are not modelled. Nothing in the library calls them, and `calculateWeightedSum` transposes the weight field as a side effect.
- `NeuralNetwork.fillMatrixWithValues` is not modelled: nothing in the library calls it.
- Exception messages are not modelled. Only the kind of failure is kept.
- `ColorSpaceOperations` and the Android application classes are not part of this model.
- A matrix or list field the Java leaves `null` is modelled as an empty matrix or list.
- Perceptron.AdjustWeights: the cell-by-cell copy of the input matrix before scaling is folded into one pure function.
- Statistics.RegressionB: models the formula as written, which uses the two means where the textbook slope uses the sums. Only the slope's defining equation is stated; it is not related to a least-squares slope.
- Clustering.Run: the sample, centroid and attribute counts are taken from the orders of the sample and centroid matrices. The source reads the separate fields `_noSamples`, `_noCentroids` and `_noAttributes` (Clustering.java:163, 171, 173, 247, 255). The constructor and `setNoCentroids` (Clustering.java:57-59, 143) are meant to keep these fields in step with the matrices. States where a field disagrees with its matrix are not modelled, so an out-of-range read from such a state is not modelled either.
- Clustering.Run: on a failing round, the source has already appended that round's assignments to `_clusterGroupList` (Clustering.java:198) when `updateCentroids` throws (Clustering.java:200). The model returns only the error and does not keep that partly updated history.
- Clustering.Members: the order and completeness of the member positions are stated as the lemmas `MembersInOrder` and `MembersComplete`, not as ensures of `Members`.
- Clustering.Sort: the source sorts with `Collections.sort`. The model uses insertion into an increasing list and states only the result's order and content.

## Findings

| source | as written | input that shows it | evidently intended | confidence | as-written member | corrected member |
|---|---|---|---|---|---|---|
| IMT4072_Project/src/macs/hig/imt4072_library/Matrix.java:570-575 | rejects a singular matrix when `1 / det == 0`. For a finite determinant 1/det is never 0 (1/0 is infinite), so the test never fires on a singular matrix, and the inverse of a singular matrix is filled with infinities and NaN | [[1, 2], [2, 4]], determinant 0 | reject a zero determinant | not executed | Matrices.SingularTestAsWritten, Matrices.SingularMatrixPassesTestAsWritten | Matrices.Inverse2x2 |
| IMT4072_Project/src/macs/hig/imt4072_library/Matrix.java:240-273 | when handed an empty covariance matrix, computes it from the parent but sizes the scatter matrix from the empty argument, so any non-empty parent, including a one-row one, gives a 0x0 result; only an empty parent fails | parent [[1, 2], [3, 4]] with an empty covariance matrix | size the result from the covariance matrix actually used | not executed | Matrices.ScatterMatrixAsWritten, Matrices.ScatterOfComputedCovarianceIsEmpty | Matrices.ScatterMatrix |

=== FILE: clustering.dfy ===
/** k-means cluster analysis over a sample matrix and a centroid matrix: each
    round assigns every sample the 1-based index of its nearest centroid, moves
    every centroid that received samples to their column-wise mean, and
    appends the round's assignment to the history. Rounds stop after a maximum
    count or once enough rounds agree. */
module Clustering {
  import opened Errors
  import opened Matrices
  import Statistics

  /** The analysed samples (one per row), the current centroids (one per row)
      and the assignment of every round so far. Sample, centroid and attribute
      counts are the matrices' counts. */
  datatype ClusterState = ClusterState(samples: Matrix, centroids: Matrix, history: seq<seq<int>>) {
    predicate WellFormed() {
      samples.Valid() && centroids.Valid() && samples.cols == centroids.cols
    }
  }

  // ---------------------------------------------------------------- distance

  /** `calculateDistance`: the squared difference of one attribute. */
  function Distance(value: real, mean: real): real {
    (value - mean) * (value - mean)
  }

  /** The attribute distance is never negative and vanishes exactly when the
      two values agree. */
  lemma DistanceSign(value: real, mean: real)
    ensures Distance(value, mean) >= 0.0
    ensures Distance(value, mean) == 0.0 <==> value == mean
  {
    Statistics.SquareSign(value - mean, Distance(value, mean));
  }

  /** The squared distance of sample i from centroid j over the first n
      attributes, accumulated attribute by attribute. */
  function SampleDistance(samples: Matrix, centroids: Matrix, i: nat, j: nat, n: nat): real
    requires samples.Valid() && centroids.Valid()
    requires i < samples.rows && j < centroids.rows && n <= samples.cols && n <= centroids.cols
  {
    if n == 0 then 0.0
    else SampleDistance(samples, centroids, i, j, n - 1)
         + Distance(samples.cells[i][n - 1], centroids.cells[j][n - 1])
  }

  /** A sample's squared distance is never negative, and it is zero exactly
      when the sample and the centroid agree on every attribute counted. */
  lemma {:induction false} SampleDistanceSign(samples: Matrix, centroids: Matrix, i: nat, j: nat, n: nat)
    requires samples.Valid() && centroids.Valid()
    requires i < samples.rows && j < centroids.rows && n <= samples.cols && n <= centroids.cols
    ensures SampleDistance(samples, centroids, i, j, n) >= 0.0
    ensures SampleDistance(samples, centroids, i, j, n) == 0.0 <==>
              forall k :: 0 <= k < n ==> samples.cells[i][k] == centroids.cells[j][k]
  {
    if n > 0 {
      SampleDistanceSign(samples, centroids, i, j, n - 1);
      DistanceSign(samples.cells[i][n - 1], centroids.cells[j][n - 1]);
    }
  }

  /** The distances from sample i to every centroid, after the square root. */
  function Distances(samples: Matrix, centroids: Matrix, i: nat, sqrt: real -> real): (ds: seq<real>)
    requires samples.Valid() && centroids.Valid() && samples.cols == centroids.cols && i < samples.rows
    ensures |ds| == centroids.rows
  {
    seq(centroids.rows, j requires 0 <= j < centroids.rows =>
      sqrt(SampleDistance(samples, centroids, i, j, samples.cols)))
  }

  // ---------------------------------------------------------------- nearest centroid

  /** The position of the smallest distance, scanning left to right and
      replacing the current best only on a strictly smaller value. */
  function ArgMin(ds: seq<real>): (p: nat)
    requires |ds| > 0
    ensures p < |ds|
    ensures forall j :: 0 <= j < |ds| ==> ds[p] <= ds[j]
    ensures forall j :: 0 <= j < p ==> ds[j] > ds[p]
  {
    if |ds| == 1 then 0
    else
      var q := ArgMin(ds[..|ds| - 1]);
      if ds[|ds| - 1] < ds[q] then |ds| - 1 else q
  }

  /** The scan result is the only position that is both minimal and earlier
      than every other minimal position. */
  lemma ArgMinUnique(ds: seq<real>, p: nat)
    requires p < |ds|
    requires forall j :: 0 <= j < |ds| ==> ds[p] <= ds[j]
    requires forall j :: 0 <= j < p ==> ds[j] > ds[p]
    ensures ArgMin(ds) == p
  {
    var q := ArgMin(ds);
    assert ds[q] <= ds[p] && ds[p] <= ds[q];
  }

  /** A strictly increasing map of non-negative distances picks the same
      centroid, so taking the square root does not change the assignment. */
  lemma ArgMinUnderSquareRoot(ds: seq<real>, sqrt: real -> real)
    requires |ds| > 0 && Statistics.IsSquareRoot(sqrt)
    requires forall j :: 0 <= j < |ds| ==> ds[j] >= 0.0
    ensures ArgMin(seq(|ds|, j requires 0 <= j < |ds| => sqrt(ds[j]))) == ArgMin(ds)
  {
    var mapped := seq(|ds|, j requires 0 <= j < |ds| => sqrt(ds[j]));
    var p := ArgMin(ds);
    forall j | 0 <= j < |ds|
      ensures mapped[p] <= mapped[j]
    {
      if ds[p] < ds[j] {
        assert sqrt(ds[p]) < sqrt(ds[j]);
      }
    }
    forall j | 0 <= j < p
      ensures mapped[j] > mapped[p]
    {
      assert sqrt(ds[p]) < sqrt(ds[j]);
    }
    ArgMinUnique(mapped, p);
  }

  /** The centroid assignment of every sample in one round: the 1-based
      index of the nearest centroid, the earliest one on a tie. With samples
      but no centroid, the source reads the first entry of an empty distance
      list. */
  function Assignments(samples: Matrix, centroids: Matrix, sqrt: real -> real): (r: Result<seq<int>>)
    requires samples.Valid() && centroids.Valid() && samples.cols == centroids.cols
    ensures r.Err? <==> samples.rows > 0 && centroids.rows == 0
    ensures r.Err? ==> r.error == ValueOutOfRange
    ensures r.Ok? ==> |r.value| == samples.rows
    ensures r.Ok? ==> forall i :: 0 <= i < samples.rows ==> 1 <= r.value[i] <= centroids.rows
    ensures r.Ok? ==> forall i, j :: 0 <= i < samples.rows && 0 <= j < centroids.rows ==>
              Distances(samples, centroids, i, sqrt)[r.value[i] - 1] <= Distances(samples, centroids, i, sqrt)[j]
    ensures r.Ok? ==> forall i, j :: 0 <= i < samples.rows && 0 <= j < r.value[i] - 1 ==>
              Distances(samples, centroids, i, sqrt)[j] > Distances(samples, centroids, i, sqrt)[r.value[i] - 1]
  {
    if samples.rows > 0 && centroids.rows == 0 then Err(ValueOutOfRange)
    else Ok(seq(samples.rows, i requires 0 <= i < samples.rows =>
              1 + ArgMin(Distances(samples, centroids, i, sqrt))))
  }

  /** With a genuine square root the assignment is the same as with none:
      the nearest centroid by squared distance. */
  lemma AssignmentsIgnoreSquareRoot(samples: Matrix, centroids: Matrix, sqrt: real -> real)
    requires samples.Valid() && centroids.Valid() && samples.cols == centroids.cols
    requires Statistics.IsSquareRoot(sqrt)
    ensures Assignments(samples, centroids, sqrt) == Assignments(samples, centroids, x => x)
  {
    if !(samples.rows > 0 && centroids.rows == 0) {
      forall i | 0 <= i < samples.rows
        ensures ArgMin(Distances(samples, centroids, i, sqrt)) == ArgMin(Distances(samples, centroids, i, x => x))
      {
        var squared := Distances(samples, centroids, i, x => x);
        forall j | 0 <= j < centroids.rows
          ensures squared[j] >= 0.0
        {
          SampleDistanceSign(samples, centroids, i, j, samples.cols);
        }
        ArgMinUnderSquareRoot(squared, sqrt);
        assert Distances(samples, centroids, i, sqrt)
               == seq(|squared|, j requires 0 <= j < |squared| => sqrt(squared[j]));
      }
      assert Assignments(samples, centroids, sqrt).value == Assignments(samples, centroids, x => x).value;
    }
  }

  // ---------------------------------------------------------------- cluster membership

  /** `getClusterCount`: how often a value occurs in an assignment list,
      counted over the list left to right. */
  function ClusterCount(a: seq<int>, v: int): nat {
    if a == [] then 0
    else ClusterCount(a[..|a| - 1], v) + (if a[|a| - 1] == v then 1 else 0)
  }

  /** The count is the multiplicity of the value in the list's multiset. */
  lemma {:induction false} ClusterCountIsMultiplicity(a: seq<int>, v: int)
    ensures ClusterCount(a, v) == multiset(a)[v]
  {
    if a != [] {
      ClusterCountIsMultiplicity(a[..|a| - 1], v);
      assert a == a[..|a| - 1] + [a[|a| - 1]];
    }
  }

  /** A value is counted exactly when the list contains it. */
  lemma CountedIffPresent(a: seq<int>, v: int)
    ensures ClusterCount(a, v) > 0 <==> v in a
  {
    ClusterCountIsMultiplicity(a, v);
  }

  /** No value occurs twice. */
  predicate Distinct(s: seq<int>) {
    forall i, j :: 0 <= i < j < |s| ==> s[i] != s[j]
  }

  /** The counts of the given values, added up. */
  function CountsOver(a: seq<int>, values: seq<int>): nat {
    if values == [] then 0
    else CountsOver(a, values[..|values| - 1]) + ClusterCount(a, values[|values| - 1])
  }

  /** Appending x to the list raises the added counts by the number of times
      x occurs among the values. */
  lemma {:induction false} CountsOverAppend(a: seq<int>, x: int, values: seq<int>)
    ensures CountsOver(a + [x], values) == CountsOver(a, values) + ClusterCount(values, x)
  {
    if values != [] {
      var init, v := values[..|values| - 1], values[|values| - 1];
      CountsOverAppend(a, x, init);
      assert (a + [x])[..|a|] == a;
      assert ClusterCount(a + [x], v) == ClusterCount(a, v) + (if x == v then 1 else 0);
    }
  }

  /** A value occurs once in a list of distinct values that contains it. */
  lemma {:induction false} DistinctCountIsOne(values: seq<int>, x: int)
    requires Distinct(values) && x in values
    ensures ClusterCount(values, x) == 1
  {
    var init, v := values[..|values| - 1], values[|values| - 1];
    if v == x {
      assert x !in init;
      CountedIffPresent(init, x);
    } else {
      assert x in init by {
        var i :| 0 <= i < |values| && values[i] == x;
        assert i < |init| && init[i] == x;
      }
      DistinctCountIsOne(init, x);
    }
  }

  /** Counting every distinct value that occurs accounts for every entry. */
  lemma {:induction false} CountsSumToLength(a: seq<int>, values: seq<int>)
    requires Distinct(values)
    requires forall i :: 0 <= i < |a| ==> a[i] in values
    ensures CountsOver(a, values) == |a|
  {
    if a == [] {
      NoCountsInEmpty(values);
    } else {
      var init, x := a[..|a| - 1], a[|a| - 1];
      CountsSumToLength(init, values);
      assert a == init + [x];
      CountsOverAppend(init, x, values);
      DistinctCountIsOne(values, x);
    }
  }

  /** An empty list contributes no count for any value. */
  lemma {:induction false} NoCountsInEmpty(values: seq<int>)
    ensures CountsOver([], values) == 0
  {
    if values != [] {
      NoCountsInEmpty(values[..|values| - 1]);
    }
  }

  /** Positions (in order) whose assigned index is v. */
  function Members(a: seq<int>, v: int): (ps: seq<nat>)
    ensures |ps| == ClusterCount(a, v)
    ensures forall i :: 0 <= i < |ps| ==> ps[i] < |a| && a[ps[i]] == v
  {
    if a == [] then []
    else Members(a[..|a| - 1], v) + (if a[|a| - 1] == v then [|a| - 1] else [])
  }

  /** The members are listed in increasing position, each once. */
  lemma {:induction false} MembersInOrder(a: seq<int>, v: int)
    ensures forall i, j :: 0 <= i < j < |Members(a, v)| ==> Members(a, v)[i] < Members(a, v)[j]
  {
    if a != [] {
      MembersInOrder(a[..|a| - 1], v);
    }
  }

  /** Every position assigned to v is among its members. */
  lemma {:induction false} MembersComplete(a: seq<int>, v: int, p: nat)
    requires p < |a| && a[p] == v
    ensures p in Members(a, v)
  {
    if p < |a| - 1 {
      MembersComplete(a[..|a| - 1], v, p);
    }
  }

  /** The temporary matrix of the source: the sample rows assigned to v, in order. */
  function MemberMatrix(samples: Matrix, a: seq<int>, v: int): (m: Matrix)
    requires samples.Valid() && |a| <= samples.rows
    ensures m.Valid() && m.rows == ClusterCount(a, v) && m.cols == samples.cols
  {
    var ps := Members(a, v);
    Matrix(|ps|, samples.cols, seq(|ps|, i requires 0 <= i < |ps| => samples.cells[ps[i]]))
  }

  /** The sum of attribute k over the samples assigned to v, by position. */
  function MemberSum(samples: Matrix, a: seq<int>, v: int, k: nat): real
    requires samples.Valid() && |a| <= samples.rows && k < samples.cols
  {
    if a == [] then 0.0
    else MemberSum(samples, a[..|a| - 1], v, k)
         + (if a[|a| - 1] == v then samples.cells[|a| - 1][k] else 0.0)
  }

  /** Column sums only read the rows they cover. */
  lemma {:induction false} ColumnSumOfAgreeingRows(m1: Matrix, m2: Matrix, k: nat, n: nat)
    requires m1.Valid() && m2.Valid() && k < m1.cols && k < m2.cols && n <= m1.rows && n <= m2.rows
    requires forall i :: 0 <= i < n ==> m1.cells[i][k] == m2.cells[i][k]
    ensures ColumnSum(m1, k, n) == ColumnSum(m2, k, n)
  {
    if n > 0 {
      ColumnSumOfAgreeingRows(m1, m2, k, n - 1);
    }
  }

  /** The temporary matrix of a longer assignment list starts with the rows of
      the shorter one's, and has the new sample's row after them when that
      sample is assigned to v. */
  lemma MemberMatrixGrows(samples: Matrix, a: seq<int>, v: int)
    requires samples.Valid() && 0 < |a| <= samples.rows
    ensures var before, after := MemberMatrix(samples, a[..|a| - 1], v), MemberMatrix(samples, a, v);
            && (forall i :: 0 <= i < before.rows ==> after.cells[i] == before.cells[i])
            && (a[|a| - 1] == v ==> after.rows == before.rows + 1 && after.cells[before.rows] == samples.cells[|a| - 1])
            && (a[|a| - 1] != v ==> after.rows == before.rows)
  {
    assert Members(a, v) == Members(a[..|a| - 1], v) + (if a[|a| - 1] == v then [|a| - 1] else []);
  }

  /** The column sum of the temporary matrix is the member sum. */
  lemma {:induction false} MemberColumnSum(samples: Matrix, a: seq<int>, v: int, k: nat)
    requires samples.Valid() && |a| <= samples.rows && k < samples.cols
    ensures ColumnSum(MemberMatrix(samples, a, v), k, ClusterCount(a, v)) == MemberSum(samples, a, v, k)
  {
    if a != [] {
      MemberColumnSum(samples, a[..|a| - 1], v, k);
      MemberMatrixGrows(samples, a, v);
      ColumnSumOfAgreeingRows(MemberMatrix(samples, a[..|a| - 1], v), MemberMatrix(samples, a, v),
                              k, ClusterCount(a[..|a| - 1], v));
    }
  }

  /** The new position of a centroid that received samples: the column means
      of those samples, read out of the mean matrix. */
  function CentroidMean(samples: Matrix, a: seq<int>, v: int): (row: seq<real>)
    requires samples.Valid() && |a| <= samples.rows && samples.cols > 0 && v in a
    ensures |row| == samples.cols
  {
    CountedIffPresent(a, v);
    var means := MeanMatrix(MemberMatrix(samples, a, v)).value;
    seq(samples.cols, k requires 0 <= k < samples.cols => means.cells[k][0])
  }

  /** Each coordinate of the new centroid is the mean of the temporary
      matrix's column: times the member count it gives the column sum. */
  lemma CentroidMeanOfMembers(samples: Matrix, a: seq<int>, v: int, k: nat)
    requires samples.Valid() && |a| <= samples.rows && k < samples.cols && v in a
    ensures CentroidMean(samples, a, v)[k] * (ClusterCount(a, v) as real)
            == ColumnSum(MemberMatrix(samples, a, v), k, ClusterCount(a, v))
  {
    CountedIffPresent(a, v);
    var members := MemberMatrix(samples, a, v);
    var means := MeanMatrix(members).value;
    assert CentroidMean(samples, a, v)[k] == means.cells[k][0];
    assert Mean(members, k) == Ok(means.cells[k][0]);
  }

  /** Each coordinate of the new centroid times the member count is the
      members' sum of that attribute. */
  lemma CentroidMeanTimesCount(samples: Matrix, a: seq<int>, v: int, k: nat)
    requires samples.Valid() && |a| <= samples.rows && k < samples.cols && v in a
    ensures CentroidMean(samples, a, v)[k] * (ClusterCount(a, v) as real) == MemberSum(samples, a, v, k)
  {
    CentroidMeanOfMembers(samples, a, v, k);
    MemberColumnSum(samples, a, v, k);
  }

  /** `updateCentroids`: every centroid c whose index c + 1 occurs in the
      assignment moves to the mean of its samples; the others keep their row.
      With no attributes the mean matrix of the samples is empty, which the
      source rejects. */
  function UpdateCentroids(samples: Matrix, centroids: Matrix, a: seq<int>): (r: Result<Matrix>)
    requires samples.Valid() && centroids.Valid() && samples.cols == centroids.cols && |a| <= samples.rows
    ensures r.Err? <==> samples.cols == 0 && exists x :: x in a && 1 <= x <= centroids.rows
    ensures r.Err? ==> r.error == EmptyMatrix
    ensures r.Ok? ==> r.value.Valid() && r.value.rows == centroids.rows && r.value.cols == centroids.cols
    ensures r.Ok? ==> forall c :: 0 <= c < centroids.rows && c + 1 !in a ==>
              r.value.cells[c] == centroids.cells[c]
    ensures r.Ok? ==> forall c :: 0 <= c < centroids.rows && c + 1 in a ==>
              r.value.cells[c] == CentroidMean(samples, a, c + 1)
  {
    if samples.cols == 0 && exists x :: x in a && 1 <= x <= centroids.rows then
      Err(EmptyMatrix)
    else
      assert samples.cols > 0 || forall x :: x in a ==> !(1 <= x <= centroids.rows);
      Ok(Matrix(centroids.rows, centroids.cols,
        seq(centroids.rows, c requires 0 <= c < centroids.rows => NewCentroid(samples, centroids, a, c))))
  }

  /** Row c of the updated centroid matrix: the mean of centroid c + 1's
      samples when it has any, else the old row. */
  function NewCentroid(samples: Matrix, centroids: Matrix, a: seq<int>, c: nat): (row: seq<real>)
    requires samples.Valid() && centroids.Valid() && samples.cols == centroids.cols && |a| <= samples.rows
    requires c < centroids.rows && (c + 1 in a ==> samples.cols > 0)
    ensures |row| == centroids.cols
  {
    if c + 1 in a then CentroidMean(samples, a, c + 1) else centroids.cells[c]
  }

  /** A centroid that received samples sits at their mean: each coordinate
      times the member count is the members' sum of that attribute. */
  lemma UpdatedCentroidIsMemberMean(samples: Matrix, centroids: Matrix, a: seq<int>, c: nat, k: nat)
    requires samples.Valid() && centroids.Valid() && samples.cols == centroids.cols && |a| <= samples.rows
    requires UpdateCentroids(samples, centroids, a).Ok?
    requires c < centroids.rows && k < centroids.cols && c + 1 in a
    ensures UpdateCentroids(samples, centroids, a).value.cells[c][k] * (ClusterCount(a, c + 1) as real)
            == MemberSum(samples, a, c + 1, k)
  {
    UpdatedCentroidCell(samples, centroids, a, c, k);
    CentroidMeanTimesCount(samples, a, c + 1, k);
    var cell, mean := UpdateCentroids(samples, centroids, a).value.cells[c][k], CentroidMean(samples, a, c + 1)[k];
    Statistics.ScaleEqual(ClusterCount(a, c + 1) as real, cell, mean);
  }

  /** Cell k of an updated centroid is coordinate k of its new mean. */
  lemma UpdatedCentroidCell(samples: Matrix, centroids: Matrix, a: seq<int>, c: nat, k: nat)
    requires samples.Valid() && centroids.Valid() && samples.cols == centroids.cols && |a| <= samples.rows
    requires UpdateCentroids(samples, centroids, a).Ok?
    requires c < centroids.rows && k < centroids.cols && c + 1 in a
    ensures UpdateCentroids(samples, centroids, a).value.cells[c][k] == CentroidMean(samples, a, c + 1)[k]
  {
    assert UpdateCentroids(samples, centroids, a).value.cells[c] == CentroidMean(samples, a, c + 1);
  }

  // ---------------------------------------------------------------- rounds

  /** One round of `calculateDistanceFromCentroids`: assign, record the
      assignment, then update the centroids. */
  function Round(st: ClusterState, sqrt: real -> real): (r: Result<ClusterState>)
    requires st.WellFormed()
    ensures r.Err? <==> st.samples.rows > 0 && (st.centroids.rows == 0 || st.samples.cols == 0)
    ensures r.Err? ==> r.error == if st.centroids.rows == 0 then ValueOutOfRange else EmptyMatrix
    ensures r.Ok? ==> r.value.WellFormed() && r.value.samples == st.samples
    ensures r.Ok? ==> r.value.centroids.rows == st.centroids.rows
    ensures r.Ok? ==> r.value.history == st.history + [Assignments(st.samples, st.centroids, sqrt).value]
    ensures r.Ok? ==> Assignments(st.samples, st.centroids, sqrt).Ok?
                      && r.value.centroids
                         == UpdateCentroids(st.samples, st.centroids, Assignments(st.samples, st.centroids, sqrt).value).value
  {
    var a :- Assignments(st.samples, st.centroids, sqrt);
    assert st.samples.rows > 0 ==> 1 <= a[0] <= st.centroids.rows && a[0] in a;
    var centroids :- UpdateCentroids(st.samples, st.centroids, a);
    Ok(ClusterState(st.samples, centroids, st.history + [a]))
  }

  /** Every recorded round assigns each sample a centroid index in 1..K. */
  predicate RoundsInRange(history: seq<seq<int>>, from: nat, samples: nat, centroids: nat) {
    forall t :: from <= t < |history| ==>
      |history[t]| == samples && forall i :: 0 <= i < samples ==> 1 <= history[t][i] <= centroids
  }

  /** n rounds in a row from st, stopping at the first that fails. */
  function Rounds(st: ClusterState, n: nat, sqrt: real -> real): (r: Result<ClusterState>)
    requires st.WellFormed()
    ensures r.Ok? ==> r.value.WellFormed() && r.value.samples == st.samples
    ensures r.Ok? ==> r.value.centroids.rows == st.centroids.rows
    ensures r.Ok? ==> |r.value.history| == |st.history| + n
    ensures r.Err? <==> n > 0 && st.samples.rows > 0 && (st.centroids.rows == 0 || st.samples.cols == 0)
    ensures r.Err? ==> r.error == if st.centroids.rows == 0 then ValueOutOfRange else EmptyMatrix
  {
    if n == 0 then Ok(st)
    else
      var before :- Rounds(st, n - 1, sqrt);
      Round(before, sqrt)
  }

  /** n rounds keep the history they started from and append one assignment
      of every sample to a centroid per round. */
  lemma {:induction false} RoundsKeepHistory(st: ClusterState, n: nat, sqrt: real -> real)
    requires st.WellFormed() && Rounds(st, n, sqrt).Ok?
    ensures Rounds(st, n, sqrt).value.history[..|st.history|] == st.history
    ensures RoundsInRange(Rounds(st, n, sqrt).value.history, |st.history|, st.samples.rows, st.centroids.rows)
  {
    if n > 0 {
      RoundsKeepHistory(st, n - 1, sqrt);
      var before := Rounds(st, n - 1, sqrt).value;
      var after := Rounds(st, n, sqrt).value;
      var a := Assignments(before.samples, before.centroids, sqrt).value;
      assert after.history == before.history + [a];
      assert after.history[..|before.history|] == before.history;
    }
  }

  /** The stop test after the first n rounds of a history: one more than the
      number of adjacent rounds with equal means exceeds the stop parameter. */
  predicate StopFires(history: seq<seq<int>>, n: nat, stopParameter: int)
    requires n <= |history|
  {
    1 + AdjacentEqualRounds(history, n) > stopParameter
  }

  /** Rounds t and t + 1 have assignment lists with equal integer means, the
      source's test for an unchanged result. */
  predicate SameMean(history: seq<seq<int>>, t: nat)
    requires t + 1 < |history|
  {
    Statistics.MeanOfInts(history[t]) == Statistics.MeanOfInts(history[t + 1])
  }

  /** The number of adjacent rounds among the first n with equal means. */
  function AdjacentEqualRounds(history: seq<seq<int>>, n: nat): nat
    requires n <= |history|
  {
    if n <= 1 then 0
    else AdjacentEqualRounds(history, n - 1) + (if SameMean(history, n - 2) then 1 else 0)
  }

  /** `isResultEqualToLastRound`: from round 3 on, counts the rounds whose
      mean equals the one before, starting with the first round compared with
      itself, and reports whether the count exceeds the stop parameter. An
      empty history fails on reading its first entry. */
  method IsResultEqualToLastRound(round: int, stopParameter: int, history: seq<seq<int>>) returns (r: Result<bool>)
    ensures round <= 2 ==> r == Ok(false)
    ensures round > 2 && history == [] ==> r == Err(ValueOutOfRange)
    ensures round > 2 && history != [] ==> r == Ok(1 + AdjacentEqualRounds(history, |history|) > stopParameter)
  {
    if round <= 2 {
      return Ok(false);
    }
    if history == [] {
      return Err(ValueOutOfRange);
    }
    var previous := history[0];
    var counter := 0;
    var countEquals := 0;
    while counter < |history|
      invariant 0 <= counter <= |history|
      invariant previous == history[if counter == 0 then 0 else counter - 1]
      invariant countEquals == (if counter == 0 then 0 else 1 + AdjacentEqualRounds(history, counter))
    {
      if Statistics.MeanOfInts(previous) == Statistics.MeanOfInts(history[counter]) {
        countEquals := countEquals + 1;
      }
      previous := history[counter];
      counter := counter + 1;
    }
    return Ok(countEquals > stopParameter);
  }

  /** The count over the first n rounds ignores the rounds after them. */
  lemma {:induction false} AdjacentEqualRoundsOfPrefix(history: seq<seq<int>>, longer: seq<seq<int>>, n: nat)
    requires n <= |history| <= |longer| && longer[..|history|] == history
    ensures AdjacentEqualRounds(longer, n) == AdjacentEqualRounds(history, n)
  {
    if n > 1 {
      AdjacentEqualRoundsOfPrefix(history, longer, n - 1);
      assert longer[n - 2] == history[n - 2] && longer[n - 1] == history[n - 1];
    }
  }

  /** A history that repeats one assignment n times counts n equal rounds. */
  lemma {:induction false} RepeatedRoundsAllEqual(history: seq<seq<int>>, n: nat)
    requires 1 <= n <= |history|
    requires forall t :: 0 <= t < |history| ==> history[t] == history[0]
    ensures 1 + AdjacentEqualRounds(history, n) == n
  {
    if n > 1 {
      RepeatedRoundsAllEqual(history, n - 1);
    }
  }

  /** `calculateDistanceFromCentroids`: runs rounds until `maxIterations`
      rounds have run or the equality test fires, and returns the state after
      those rounds. The test fires for the first time at the last round run,
      and only from round 3 on; a failing round is the first one. */
  method Run(st: ClusterState, maxIterations: nat, stopParameter: int, sqrt: real -> real)
    returns (r: Result<ClusterState>)
    requires st.WellFormed()
    ensures r.Ok? ==> |st.history| <= |r.value.history| <= |st.history| + maxIterations
    ensures r.Ok? ==> Rounds(st, |r.value.history| - |st.history|, sqrt) == Ok(r.value)
    ensures r.Ok? && maxIterations > 0 ==> |r.value.history| > |st.history|
    ensures r.Ok? && |r.value.history| < |st.history| + maxIterations ==>
              |r.value.history| - |st.history| > 2
              && StopFires(r.value.history, |r.value.history|, stopParameter)
    ensures r.Ok? ==> forall n :: |st.history| + 2 < n < |r.value.history| ==>
              !StopFires(r.value.history, n, stopParameter)
    ensures r.Err? <==> maxIterations > 0 && st.samples.rows > 0
                        && (st.centroids.rows == 0 || st.samples.cols == 0)
    ensures r.Err? ==> r.error == if st.centroids.rows == 0 then ValueOutOfRange else EmptyMatrix
  {
    var current := st;
    var round := 0;
    var exitLoop := false;
    while round < maxIterations && !exitLoop
      invariant round <= maxIterations
      invariant Progress(st, current, round, exitLoop, stopParameter, sqrt)
    {
      var next;
      next, exitLoop := Advance(st, current, round, stopParameter, sqrt);
      if next.Err? {
        return Err(next.error);
      }
      current := next.value;
      round := round + 1;
    }
    return Ok(current);
  }

  /** The state of the loop of `calculateDistanceFromCentroids` after `round`
      rounds: current is what those rounds produce, none of them failed, the
      stop test fired at most at the last of them, and only from round 3 on. */
  predicate Progress(st: ClusterState, current: ClusterState, round: nat, exitLoop: bool,
                     stopParameter: int, sqrt: real -> real)
    requires st.WellFormed()
  {
    && Rounds(st, round, sqrt) == Ok(current)
    && |current.history| == |st.history| + round
    && (round > 0 ==> !(st.samples.rows > 0 && (st.centroids.rows == 0 || st.samples.cols == 0)))
    && (exitLoop ==> round > 2 && StopFires(current.history, |current.history|, stopParameter))
    && (forall n :: |st.history| + 2 < n < |current.history| ==> !StopFires(current.history, n, stopParameter))
    && (!exitLoop && 2 < round ==> !StopFires(current.history, |current.history|, stopParameter))
  }

  /** One pass of the loop of `calculateDistanceFromCentroids`: a round, then
      the stop test on the grown history. A failing round can only be the
      first. */
  method Advance(st: ClusterState, current: ClusterState, round: nat, stopParameter: int, sqrt: real -> real)
    returns (next: Result<ClusterState>, exitLoop: bool)
    requires st.WellFormed() && Progress(st, current, round, false, stopParameter, sqrt)
    ensures next.Err? <==> st.samples.rows > 0 && (st.centroids.rows == 0 || st.samples.cols == 0)
    ensures next.Err? ==> round == 0 && next.error == if st.centroids.rows == 0 then ValueOutOfRange else EmptyMatrix
    ensures next.Ok? ==> Progress(st, next.value, round + 1, exitLoop, stopParameter, sqrt)
  {
    next := Round(current, sqrt);
    if next.Err? {
      return next, false;
    }
    RoundStep(st, current, round, stopParameter, sqrt);
    var equal := IsResultEqualToLastRound(round + 1, stopParameter, next.value.history);
    exitLoop := equal.value;
  }

  /** One more round extends the run: its state is that of round + 1 rounds,
      and the stop tests that did not fire before the new round still do not. */
  lemma RoundStep(st: ClusterState, current: ClusterState, round: nat, stopParameter: int, sqrt: real -> real)
    requires st.WellFormed() && Rounds(st, round, sqrt) == Ok(current) && Round(current, sqrt).Ok?
    requires forall n :: |st.history| + 2 < n < |current.history| ==> !StopFires(current.history, n, stopParameter)
    requires 2 < round ==> !StopFires(current.history, |current.history|, stopParameter)
    ensures var next := Round(current, sqrt).value;
            Rounds(st, round + 1, sqrt) == Ok(next)
            && next.WellFormed() && |next.history| == |st.history| + round + 1
            && !(st.samples.rows > 0 && (st.centroids.rows == 0 || st.samples.cols == 0))
            && forall n :: |st.history| + 2 < n < |next.history| ==> !StopFires(next.history, n, stopParameter)
  {
    var next := Round(current, sqrt).value;
    assert forall n :: |st.history| + 2 < n <= |current.history| ==> !StopFires(current.history, n, stopParameter);
    StopTestsKept(current.history, next.history, |st.history| + 2, stopParameter);
  }

  /** Appending rounds leaves the stop tests of the earlier rounds as they were. */
  lemma StopTestsKept(history: seq<seq<int>>, longer: seq<seq<int>>, from: nat, stopParameter: int)
    requires |history| <= |longer| && longer[..|history|] == history
    requires forall n :: from < n <= |history| ==> !StopFires(history, n, stopParameter)
    ensures forall n :: from < n <= |history| ==> !StopFires(longer, n, stopParameter)
  {
    forall n | from < n <= |history|
      ensures !StopFires(longer, n, stopParameter)
    {
      assert !StopFires(history, n, stopParameter);
      AdjacentEqualRoundsOfPrefix(history, longer, n);
    }
  }

  // ---------------------------------------------------------------- filling from sample lists

  /** The first n attribute columns of `fillMatrixWithSamples`: a zero matrix
      of one row per sample, filled one column at a time with that attribute of
      every sample. */
  function FillSampleColumns(samples: seq<seq<real>>, noAttributes: nat, n: nat): (r: Result<Matrix>)
    requires n <= noAttributes
    ensures r.Ok? <==> n == 0 || (samples != [] && forall j :: 0 <= j < |samples| ==> |samples[j]| >= n)
    ensures r.Err? && samples == [] ==> r.error == EmptyValueList
    ensures r.Err? && samples != [] ==> r.error == ValueOutOfRange
    ensures r.Ok? ==> r.value.Valid() && r.value.rows == |samples| && r.value.cols == noAttributes
    ensures r.Ok? ==> forall j, k :: 0 <= j < |samples| && 0 <= k < noAttributes ==>
              r.value.cells[j][k] == if k < n then samples[j][k] else 0.0
  {
    if n == 0 then Ok(Create(|samples|, noAttributes))
    else
      var m :- FillSampleColumns(samples, noAttributes, n - 1);
      if exists j :: 0 <= j < |samples| && |samples[j]| <= n - 1 then Err(ValueOutOfRange)
      else FillColumn(m, n - 1, seq(|samples|, j requires 0 <= j < |samples| => samples[j][n - 1]))
  }

  /** `fillMatrixWithSamples`, returning the matrix it builds: sample j
      becomes row j, cut to the attribute count. An empty sample list has no
      values to place; a sample with too few attributes fails on the read. */
  function FillMatrixWithSamples(samples: seq<seq<real>>, noAttributes: nat): (r: Result<Matrix>)
    ensures r.Ok? <==> noAttributes == 0 || (samples != [] && forall j :: 0 <= j < |samples| ==> |samples[j]| >= noAttributes)
    ensures r.Err? && samples == [] ==> r.error == EmptyValueList
    ensures r.Err? && samples != [] ==> r.error == ValueOutOfRange
    ensures r.Ok? ==> r.value.Valid() && r.value.rows == |samples| && r.value.cols == noAttributes
    ensures r.Ok? ==> forall j :: 0 <= j < |samples| ==> r.value.cells[j] == samples[j][..noAttributes]
  {
    var r := FillSampleColumns(samples, noAttributes, noAttributes);
    assert r.Ok? ==> forall j :: 0 <= j < |samples| ==> r.value.cells[j] == samples[j][..noAttributes] by {
      if r.Ok? {
        forall j | 0 <= j < |samples|
          ensures r.value.cells[j] == samples[j][..noAttributes]
        {
          assert forall k :: 0 <= k < noAttributes ==> r.value.cells[j][k] == samples[j][k];
        }
      }
    }
    r
  }

  // ---------------------------------------------------------------- centroid selection

  /** The outcome of the random index selection; the draws are an oracle
      argument, which may run out before enough distinct values appear. */
  datatype Selection = Selected(indices: seq<int>) | DrawsExhausted

  /** Strictly increasing, hence sorted without duplicates. */
  predicate Increasing(s: seq<int>) {
    forall i, j :: 0 <= i < j < |s| ==> s[i] < s[j]
  }

  /** Inserts a new value into a strictly increasing list at its place. */
  function Insert(x: int, s: seq<int>): (r: seq<int>)
    requires Increasing(s) && x !in s
    ensures Increasing(r) && multiset(r) == multiset(s) + multiset{x}
    ensures |r| == |s| + 1 && r[0] == if s == [] || x < s[0] then x else s[0]
  {
    if s == [] then [x]
    else if x < s[0] then
      [x] + s
    else
      assert s == [s[0]] + s[1..];
      assert multiset(s) == multiset{s[0]} + multiset(s[1..]);
      var rest := Insert(x, s[1..]);
      assert multiset([s[0]] + rest) == multiset{s[0]} + multiset(rest);
      PrependIncreasing(s[0], rest);
      [s[0]] + rest
  }

  /** A value below the head of an increasing list can go in front of it. */
  lemma PrependIncreasing(a: int, s: seq<int>)
    requires Increasing(s) && s != [] && a < s[0]
    ensures Increasing([a] + s)
  {
    var r := [a] + s;
    forall i, j | 0 <= i < j < |r|
      ensures r[i] < r[j]
    {
      if i == 0 && j > 1 {
        assert s[0] < s[j - 1];
      }
    }
  }

  /** `Collections.sort` on a list of distinct indices. */
  function Sort(s: seq<int>): (r: seq<int>)
    requires Distinct(s)
    ensures Increasing(r) && multiset(r) == multiset(s)
  {
    if s == [] then []
    else
      var init, x := s[..|s| - 1], s[|s| - 1];
      assert s == init + [x];
      var sorted := Sort(init);
      assert x !in init;
      assert x !in multiset(sorted);
      Insert(x, sorted)
  }

  /** k distinct indices below k sort into 0 .. k-1. */
  lemma SortedSelection(s: seq<int>, k: nat)
    requires Distinct(s) && |s| == k
    requires forall i :: 0 <= i < |s| ==> 0 <= s[i] < k
    ensures Sort(s) == seq(k, i => i)
  {
    var sorted := Sort(s);
    assert forall j :: 0 <= j < |sorted| ==> sorted[j] in multiset(s);
    IncreasingFillsRange(sorted, k);
  }

  /** k distinct indices below k are all of 0 .. k-1, and sort into that
      range; so every index below k is in any list they were all drawn from. */
  lemma FullSelectionSorts(s: seq<int>, k: nat, draws: seq<int>)
    requires Distinct(s) && |s| == k
    requires forall i :: 0 <= i < |s| ==> 0 <= s[i] < k && s[i] in draws
    ensures Sort(s) == seq(k, i => i)
    ensures forall v :: 0 <= v < k ==> v in draws
  {
    SortedSelection(s, k);
    forall v | 0 <= v < k
      ensures v in draws
    {
      assert Sort(s)[v] == v;
      assert v in multiset(s);
      var j :| 0 <= j < |s| && s[j] == v;
    }
  }

  /** An increasing list of k values below k is 0 .. k-1. */
  lemma IncreasingFillsRange(s: seq<int>, k: nat)
    requires Increasing(s) && |s| == k
    requires forall i :: 0 <= i < |s| ==> 0 <= s[i] < k
    ensures s == seq(k, i => i)
  {
    forall i | 0 <= i < k
      ensures s[i] == i
    {
      AtLeastPosition(s, i);
      AtMostPosition(s, k, i);
    }
  }

  /** Each entry of a strictly increasing list of non-negatives is at least its position. */
  lemma {:induction false} AtLeastPosition(s: seq<int>, i: nat)
    requires Increasing(s) && i < |s| && forall j :: 0 <= j < |s| ==> s[j] >= 0
    ensures s[i] >= i
  {
    if i > 0 {
      AtLeastPosition(s, i - 1);
      assert s[i - 1] < s[i];
    }
  }

  /** Each entry of a strictly increasing list of k values below k is at most its position. */
  lemma {:induction false} AtMostPosition(s: seq<int>, k: nat, i: nat)
    requires Increasing(s) && |s| == k && i < k && forall j :: 0 <= j < |s| ==> s[j] < k
    ensures s[i] <= i
    decreases k - i
  {
    if i < k - 1 {
      AtMostPosition(s, k, i + 1);
      assert s[i] < s[i + 1];
    }
  }

  /** The list without any occurrence of v. */
  function RemoveAll(s: seq<int>, v: int): (r: seq<int>)
    ensures |r| <= |s| && (v in s ==> |r| < |s|)
    ensures forall w :: w != v ==> (w in r <==> w in s)
  {
    if s == [] then []
    else
      assert s == [s[0]] + s[1..];
      (if s[0] == v then [] else [s[0]]) + RemoveAll(s[1..], v)
  }

  /** A list containing every value of [0, k) has at least k entries. */
  lemma {:induction false} CoverNeedsLength(s: seq<int>, k: nat)
    requires forall w :: 0 <= w < k ==> w in s
    ensures |s| >= k
    decreases k
  {
    if k > 0 {
      CoverNeedsLength(RemoveAll(s, k - 1), k - 1);
    }
  }

  /** Fewer than k values cannot cover [0, k). */
  lemma MissingValue(s: seq<int>, k: nat) returns (v: int)
    requires |s| < k
    ensures 0 <= v < k && v !in s
  {
    if forall w :: 0 <= w < k ==> w in s {
      CoverNeedsLength(s, k);
    }
    v :| 0 <= v < k && v !in s;
  }

  /** The index selection of `fillCentroidMatrixWithSamples`: k times, draw
      until the value is new (`getClusterCount(...) > 0` rejects a repeat),
      then sort. Every draw lies in [0, k), so the sorted result is always
      0, 1, ..., k - 1. */
  method SelectCentroidIndices(k: nat, draws: seq<int>) returns (s: Selection)
    requires forall i :: 0 <= i < |draws| ==> 0 <= draws[i] < k
    ensures s.Selected? <==> forall v :: 0 <= v < k ==> v in draws
    ensures s.Selected? ==> s.indices == seq(k, i => i)
  {
    var randomIndex: seq<int> := [];
    var pos := 0;
    var i := 0;
    while i < k
      invariant 0 <= i <= k && |randomIndex| == i && pos <= |draws|
      invariant Distinct(randomIndex)
      invariant forall j :: 0 <= j < i ==> 0 <= randomIndex[j] < k
      invariant forall j :: 0 <= j < pos ==> draws[j] in randomIndex
      invariant forall j :: 0 <= j < i ==> randomIndex[j] in draws
    {
      if pos == |draws| {
        var missing := MissingValue(randomIndex, k);
        assert missing !in draws;
        return DrawsExhausted;
      }
      var randomCluster := draws[pos];
      pos := pos + 1;
      while ClusterCount(randomIndex, randomCluster) > 0
        invariant pos <= |draws| && 0 < pos && randomCluster == draws[pos - 1]
        invariant forall j :: 0 <= j < pos - 1 ==> draws[j] in randomIndex
        decreases |draws| - pos
      {
        CountedIffPresent(randomIndex, randomCluster);
        if pos == |draws| {
          var missing := MissingValue(randomIndex, k);
          assert forall j :: 0 <= j < |draws| ==> draws[j] in randomIndex;
          assert missing !in draws;
          return DrawsExhausted;
        }
        randomCluster := draws[pos];
        pos := pos + 1;
      }
      CountedIffPresent(randomIndex, randomCluster);
      randomIndex := randomIndex + [randomCluster];
      i := i + 1;
    }
    FullSelectionSorts(randomIndex, k, draws);
    return Selected(Sort(randomIndex));
  }

  /** The centroid rows picked by the selected indices, then filled as samples.
      An index beyond the centroid list fails on the read. */
  function FillCentroidMatrix(centroidList: seq<seq<real>>, indices: seq<int>, noAttributes: nat): (r: Result<Matrix>)
    ensures r.Ok? <==>
              (forall i :: 0 <= i < |indices| ==> 0 <= indices[i] < |centroidList|)
              && (noAttributes == 0
                  || (indices != [] && forall i :: 0 <= i < |indices| ==> |centroidList[indices[i]]| >= noAttributes))
    ensures r.Err? ==> r.error == if indices == [] then EmptyValueList else ValueOutOfRange
    ensures r.Ok? ==> r.value.Valid() && r.value.rows == |indices| && r.value.cols == noAttributes
    ensures r.Ok? ==> forall i :: 0 <= i < |indices| ==> r.value.cells[i] == centroidList[indices[i]][..noAttributes]
  {
    if exists i :: 0 <= i < |indices| && !(0 <= indices[i] < |centroidList|) then Err(ValueOutOfRange)
    else
      var picked := seq(|indices|, i requires 0 <= i < |indices| => centroidList[indices[i]]);
      assert forall i :: 0 <= i < |indices| ==> picked[i] == centroidList[indices[i]];
      assert picked == [] <==> indices == [];
      FillMatrixWithSamples(picked, noAttributes)
  }

  /** Whatever the draws, a completed selection makes the centroids the first
      k entries of the centroid list. */
  lemma SelectedCentroidsAreFirstRows(centroidList: seq<seq<real>>, k: nat, noAttributes: nat)
    requires k <= |centroidList|
    ensures FillCentroidMatrix(centroidList, seq(k, i => i), noAttributes)
            == FillMatrixWithSamples(centroidList[..k], noAttributes)
  {
    var indices := seq(k, i => i);
    assert seq(|indices|, i requires 0 <= i < |indices| => centroidList[indices[i]]) == centroidList[..k];
  }

  // ---------------------------------------------------------------- rescaling

  /** `getRescaledList`: the attribute positions 1..n rescaled as
      (x - 1) / (n - 1). A single attribute divides 0 by 0. */
  function RescaledList(noAttributes: int): (r: Result<seq<real>>)
    ensures noAttributes <= 0 ==> r == Ok([])
    ensures noAttributes == 1 ==> r == Err(NonFinite)
    ensures noAttributes >= 2 ==> r.Ok? && |r.value| == noAttributes
    ensures noAttributes >= 2 ==>
              forall i :: 0 <= i < noAttributes ==> r.value[i] * ((noAttributes - 1) as real) == i as real
    ensures noAttributes >= 2 ==> r.value[0] == 0.0 && r.value[noAttributes - 1] == 1.0
    ensures noAttributes >= 2 ==> forall i, j :: 0 <= i < j < noAttributes ==> r.value[i] < r.value[j]
    ensures noAttributes >= 2 ==> forall i :: 0 <= i < noAttributes ==> 0.0 <= r.value[i] <= 1.0
  {
    if noAttributes <= 0 then Ok([])
    else if noAttributes == 1 then Err(NonFinite)
    else
      RescaledPositionsExact(noAttributes);
      RescaledPositionsOrdered(noAttributes);
      Ok(RescaledPositions(noAttributes))
  }

  /** The positions 1..n, each rescaled. */
  function RescaledPositions(n: int): (v: seq<real>)
    requires n >= 2
    ensures |v| == n && forall i :: 0 <= i < n ==> v[i] == Rescale(i + 1, n)
  {
    seq(n, x requires 0 <= x < n => Rescale(x + 1, n))
  }

  /** Entry i of the rescaled positions is i / (n - 1). */
  lemma RescaledPositionsExact(n: int)
    requires n >= 2
    ensures forall i :: 0 <= i < n ==> RescaledPositions(n)[i] * ((n - 1) as real) == i as real
  {
    forall i | 0 <= i < n
      ensures RescaledPositions(n)[i] * ((n - 1) as real) == i as real
    {
      RescaleUndone(i + 1, n);
    }
  }

  /** The rescaled positions run from 0 to 1 in increasing order. */
  lemma RescaledPositionsOrdered(n: int)
    requires n >= 2
    ensures var v := RescaledPositions(n);
            v[0] == 0.0 && v[n - 1] == 1.0
            && (forall i, j :: 0 <= i < j < n ==> v[i] < v[j])
            && (forall i :: 0 <= i < n ==> 0.0 <= v[i] <= 1.0)
  {
    var v := RescaledPositions(n);
    forall i, j | 0 <= i < j < n
      ensures v[i] < v[j]
    {
      RescaleOrder(i + 1, j + 1, n);
    }
    forall i | 0 <= i < n
      ensures 0.0 <= v[i] <= 1.0
    {
      RescaleOrder(1, i + 1, n);
      RescaleOrder(i + 1, n, n);
    }
    RescaleOrder(1, n, n);
  }

  /** Position x of 1..n moved to (x - 1) / (n - 1). */
  function Rescale(x: int, n: int): real
    requires n >= 2
  {
    (x as real - 1.0) / (n - 1) as real
  }

  /** Rescaling keeps the order of positions and maps 1 to 0 and n to 1. */
  lemma RescaleOrder(x: int, y: int, n: int)
    requires n >= 2 && x <= y
    ensures Rescale(x, n) <= Rescale(y, n)
    ensures x < y ==> Rescale(x, n) < Rescale(y, n)
    ensures Rescale(1, n) == 0.0 && Rescale(n, n) == 1.0
  {
  }

  /** Multiplying back by n - 1 recovers the offset x - 1. */
  lemma RescaleUndone(x: int, n: int)
    requires n >= 2
    ensures Rescale(x, n) * ((n - 1) as real) == (x - 1) as real
  {
  }
}

=== FILE: errors.dfy ===
/** Failure kinds and the validation helpers shared by every component of the
    numeric library. The source throws one exception class carrying a message;
    the model keeps only the kind of failure. */
module Errors {

  /** One constructor per condition the library rejects. */
  datatype Error =
    | RowOutOfRange        // a row index outside [0, rowCount)
    | ColumnOutOfRange     // a column index outside [0, columnCount)
    | ValueOutOfRange      // a list position outside the list (a plain Java list access)
    | EmptyMatrix          // an operand with no rows or no columns
    | EmptyParentMatrix    // a derived matrix asked of an empty source matrix
    | RowCountMismatch     // two operands of unequal row count
    | ColumnCountMismatch  // two operands of unequal column count
    | NotTwoByTwo          // the 2x2 inverse asked of a larger matrix
    | ColumnRowMismatch    // first operand's column count differs from second's row count
    | CannotMultiply       // no orientation of the product is defined
    | SingularMatrix       // the determinant is zero
    | EmptyValueList       // a fill asked to place no values
    | TooManyValues        // more values than rows to put them in
    | ListSizeMismatch     // two parallel value lists of unequal length
    | ShrinkNotAllowed     // a resize to a smaller, non-zero count
    | NonFinite            // the source divides by zero and yields NaN or an infinity (it does not throw)

  /** A computation that either produced a value or failed with a kind. */
  datatype Result<+T> = Ok(value: T) | Err(error: Error) {
    predicate IsFailure() { Err? }
    function PropagateFailure<U>(): Result<U>
      requires Err?
    {
      Err(error)
    }
    function Extract(): T
      requires Ok?
    {
      value
    }
  }

  /** The outcome of a validation helper: it passes or names what failed. */
  datatype Outcome = Pass | Fail(error: Error) {
    predicate IsFailure() { Fail? }
    function PropagateFailure<U>(): Result<U>
      requires Fail?
    {
      Err(error)
    }
  }

  /** Row index check of every matrix accessor. */
  function RowInRange(rowNo: int, rowCount: int): (r: Outcome)
    ensures r.Pass? <==> 0 <= rowNo < rowCount
    ensures r.Fail? ==> r.error == RowOutOfRange
  {
    if rowNo >= rowCount || rowNo < 0 then Fail(RowOutOfRange) else Pass
  }

  /** Column index check of every matrix accessor. */
  function ColumnInRange(columnNo: int, columnCount: int): (r: Outcome)
    ensures r.Pass? <==> 0 <= columnNo < columnCount
    ensures r.Fail? ==> r.error == ColumnOutOfRange
  {
    if columnNo >= columnCount || columnNo < 0 then Fail(ColumnOutOfRange) else Pass
  }

  /** A matrix is empty when it has no rows or no columns. */
  function NotEmpty(rowCount: int, columnCount: int): (r: Outcome)
    ensures r.Pass? <==> rowCount != 0 && columnCount != 0
    ensures r.Fail? ==> r.error == EmptyMatrix
  {
    if rowCount == 0 || columnCount == 0 then Fail(EmptyMatrix) else Pass
  }

  /** The same test as NotEmpty, reported as an empty source of a derived matrix. */
  function ParentNotEmpty(rowCount: int, columnCount: int): (r: Outcome)
    ensures r.Pass? <==> NotEmpty(rowCount, columnCount).Pass?
    ensures r.Fail? ==> r.error == EmptyParentMatrix
  {
    if rowCount == 0 || columnCount == 0 then Fail(EmptyParentMatrix) else Pass
  }

  /** A fill needs at least one value. */
  function ValueListNotEmpty<T>(values: seq<T>): (r: Outcome)
    ensures r.Pass? <==> values != []
    ensures r.Fail? ==> r.error == EmptyValueList
  {
    if |values| == 0 then Fail(EmptyValueList) else Pass
  }

  /** Both counts must agree; a row mismatch is reported before a column mismatch. */
  function EqualOrder(rows1: int, cols1: int, rows2: int, cols2: int): (r: Outcome)
    ensures r.Pass? <==> rows1 == rows2 && cols1 == cols2
    ensures r.Fail? && rows1 != rows2 ==> r.error == RowCountMismatch
    ensures r.Fail? && rows1 == rows2 ==> r.error == ColumnCountMismatch
  {
    if rows1 != rows2 then Fail(RowCountMismatch)
    else if cols1 != cols2 then Fail(ColumnCountMismatch)
    else Pass
  }

  /** Fails with `e` when `size > checkValue`; the source passes the message to raise. */
  function SizeNotGreater(size: int, checkValue: int, e: Error): (r: Outcome)
    ensures r.Pass? <==> size <= checkValue
    ensures r.Fail? ==> r.error == e
  {
    if size > checkValue then Fail(e) else Pass
  }

  /** Fails with `e` when `size < checkValue`. */
  function SizeNotLess(size: int, checkValue: int, e: Error): (r: Outcome)
    ensures r.Pass? <==> checkValue <= size
    ensures r.Fail? ==> r.error == e
  {
    if size < checkValue then Fail(e) else Pass
  }

  /** The 2x2 guard of the inverse: built from two "not greater than 2" checks,
      so it rejects only counts above 2 and lets 1x1, 1x2, 2x1 and 0xN through. */
  function AtMostTwoByTwo(rowCount: int, columnCount: int): (r: Outcome)
    ensures r.Pass? <==> rowCount <= 2 && columnCount <= 2
    ensures r.Fail? ==> r.error == NotTwoByTwo
  {
    var rowCheck := SizeNotGreater(rowCount, 2, NotTwoByTwo);
    if rowCheck.Fail? then rowCheck else SizeNotGreater(columnCount, 2, NotTwoByTwo)
  }

  /** Product guard: the first operand's columns must match the second's rows. */
  function ColumnsMatchRows(columnCount1: int, rowCount2: int): (r: Outcome)
    ensures r.Pass? <==> columnCount1 == rowCount2
    ensures r.Fail? ==> r.error == ColumnRowMismatch
  {
    if columnCount1 != rowCount2 then Fail(ColumnRowMismatch) else Pass
  }

  /** Resize guard: a new count of zero means "unset" and always passes. The
      source's row/column flag only changes the message, so it is not modelled. */
  function NewSizeNotLess(currentCount: int, newCount: int): (r: Outcome)
    ensures r.Fail? <==> 0 < newCount < currentCount
    ensures r.Fail? ==> r.error == ShrinkNotAllowed
  {
    if newCount > 0 && currentCount > newCount then Fail(ShrinkNotAllowed) else Pass
  }

  /** Parallel value lists (x/y pairs) must have the same length. */
  function ListSizesEqual<T>(xs: seq<T>, ys: seq<T>): (r: Outcome)
    ensures r.Pass? <==> |xs| == |ys|
    ensures r.Fail? ==> r.error == ListSizeMismatch
  {
    if |xs| != |ys| then Fail(ListSizeMismatch) else Pass
  }
}

=== FILE: matrices.dfy ===
/** The dense matrix of the library: explicit row and column counts, bounds-checked
    access, element-wise arithmetic, the product (with its tolerated operand swap),
    the 2x2 inverse, transpose, and the column statistics and scatter matrices built
    on them. Operations that the source performs in place return the new matrix. */
module Matrices {
  import opened Errors

  /** A rows x cols matrix of reals, row-major. The counts are kept beside the
      cells because a matrix may have rows but no columns, or the reverse. */
  datatype Matrix = Matrix(rows: nat, cols: nat, cells: seq<seq<real>>) {
    predicate Valid() {
      |cells| == rows && forall i :: 0 <= i < |cells| ==> |cells[i]| == cols
    }

    predicate IsEmpty() {
      rows == 0 || cols == 0
    }
  }

  /** The rows x cols block of zeros every new matrix starts from. */
  function ZeroCells(rows: nat, cols: nat): (c: seq<seq<real>>)
    ensures |c| == rows
    ensures forall i :: 0 <= i < rows ==> c[i] == seq(cols, _ => 0.0)
  {
    seq(rows, _ => seq(cols, _ => 0.0))
  }

  /** `new Matrix(rows, cols)`: a zero-filled matrix of the requested order. */
  function Create(rows: nat, cols: nat): (m: Matrix)
    ensures m.Valid() && m.rows == rows && m.cols == cols
    ensures forall i, j :: 0 <= i < rows && 0 <= j < cols ==> m.cells[i][j] == 0.0
  {
    Matrix(rows, cols, ZeroCells(rows, cols))
  }

  /** The library's own 2x2 identity, used to state the inverse round trip. */
  function Identity2(): Matrix {
    Matrix(2, 2, [[1.0, 0.0], [0.0, 1.0]])
  }

  // ---------------------------------------------------------------- access

  /** `getCellValueAt`: the row is checked before the column. */
  function Get(m: Matrix, rowNo: int, columnNo: int): (r: Result<real>)
    requires m.Valid()
    ensures r.Ok? <==> 0 <= rowNo < m.rows && 0 <= columnNo < m.cols
    ensures r.Ok? ==> r.value == m.cells[rowNo][columnNo]
    ensures !(0 <= rowNo < m.rows) ==> r == Err(RowOutOfRange)
    ensures 0 <= rowNo < m.rows && !(0 <= columnNo < m.cols) ==> r == Err(ColumnOutOfRange)
  {
    (:- RowInRange(rowNo, m.rows);
    :- ColumnInRange(columnNo, m.cols);
    Ok(m.cells[rowNo][columnNo]))
  }

  /** `changeCellValueAt`: writes one cell and keeps every other one. */
  function Set(m: Matrix, rowNo: int, columnNo: int, value: real): (r: Result<Matrix>)
    requires m.Valid()
    ensures r.Ok? <==> 0 <= rowNo < m.rows && 0 <= columnNo < m.cols
    ensures !(0 <= rowNo < m.rows) ==> r == Err(RowOutOfRange)
    ensures 0 <= rowNo < m.rows && !(0 <= columnNo < m.cols) ==> r == Err(ColumnOutOfRange)
    ensures r.Ok? ==> r.value.Valid() && r.value.rows == m.rows && r.value.cols == m.cols
    ensures r.Ok? ==> r.value.cells[rowNo][columnNo] == value
    ensures r.Ok? ==> forall i, j :: 0 <= i < m.rows && 0 <= j < m.cols && (i != rowNo || j != columnNo)
                        ==> r.value.cells[i][j] == m.cells[i][j]
  {
    (:- RowInRange(rowNo, m.rows);
    :- ColumnInRange(columnNo, m.cols);
    Ok(Matrix(m.rows, m.cols, m.cells[rowNo := m.cells[rowNo][columnNo := value]])))
  }

  /** Reading back a cell after a successful write: the written cell yields the
      new value and every other position answers exactly as before. */
  lemma GetAfterSet(m: Matrix, rowNo: int, columnNo: int, value: real, i: int, j: int)
    requires m.Valid() && Set(m, rowNo, columnNo, value).Ok?
    ensures Get(Set(m, rowNo, columnNo, value).value, i, j)
            == if i == rowNo && j == columnNo then Ok(value) else Get(m, i, j)
  {
  }

  /** `fillMatrixWithValues`: puts `values[i]` at `(i, columnNo)` for every i below
      the list length. Checks, in order: a non-empty list, the column, and a list
      no longer than the row count. */
  function FillColumn(m: Matrix, columnNo: int, values: seq<real>): (r: Result<Matrix>)
    requires m.Valid()
    ensures r.Ok? <==> values != [] && 0 <= columnNo < m.cols && |values| <= m.rows
    ensures values == [] ==> r == Err(EmptyValueList)
    ensures values != [] && !(0 <= columnNo < m.cols) ==> r == Err(ColumnOutOfRange)
    ensures values != [] && 0 <= columnNo < m.cols && |values| > m.rows ==> r == Err(TooManyValues)
    ensures r.Ok? ==> r.value.Valid() && r.value.rows == m.rows && r.value.cols == m.cols
    ensures r.Ok? ==> forall i, j :: 0 <= i < m.rows && 0 <= j < m.cols ==>
                        r.value.cells[i][j] == (if j == columnNo && i < |values| then values[i] else m.cells[i][j])
  {
    (:- ValueListNotEmpty(values);
    :- ColumnInRange(columnNo, m.cols);
    :- SizeNotGreater(|values|, m.rows, TooManyValues);
    Ok(Matrix(m.rows, m.cols,
      seq(m.rows, i requires 0 <= i < m.rows =>
        if i < |values| then m.cells[i][columnNo := values[i]] else m.cells[i]))))
  }

  // ---------------------------------------------------------------- transpose

  /** `transposeMatrix()`: an empty matrix is left as it is; otherwise the
      counts swap and the cell at (i, j) moves to (j, i). */
  function Transpose(m: Matrix): (r: Matrix)
    requires m.Valid()
    ensures r.Valid()
    ensures m.IsEmpty() ==> r == m
    ensures !m.IsEmpty() ==> r.rows == m.cols && r.cols == m.rows
    ensures !m.IsEmpty() ==> forall i, j :: 0 <= i < m.rows && 0 <= j < m.cols ==> r.cells[j][i] == m.cells[i][j]
  {
    if m.rows > 0 && m.cols > 0 then
      Matrix(m.cols, m.rows, seq(m.cols, j requires 0 <= j < m.cols =>
        seq(m.rows, i requires 0 <= i < m.rows => m.cells[i][j])))
    else
      m
  }

  /** Transposing twice gives back the original matrix, counts and cells. */
  lemma TransposeInvolutive(m: Matrix)
    requires m.Valid()
    ensures Transpose(Transpose(m)) == m
  {
    if !m.IsEmpty() {
      var t := Transpose(Transpose(m));
      forall i | 0 <= i < m.rows
        ensures t.cells[i] == m.cells[i]
      {
      }
      assert t.cells == m.cells;
    }
  }

  // ---------------------------------------------------------------- element-wise arithmetic

  /** `matrixAddition`: both operands non-empty and of equal order. */
  function Add(m1: Matrix, m2: Matrix): (r: Result<Matrix>)
    requires m1.Valid() && m2.Valid()
    ensures r.Ok? <==> !m1.IsEmpty() && !m2.IsEmpty() && m1.rows == m2.rows && m1.cols == m2.cols
    ensures m1.IsEmpty() ==> r == Err(EmptyMatrix)
    ensures !m1.IsEmpty() && m2.IsEmpty() ==> r == Err(EmptyMatrix)
    ensures !m1.IsEmpty() && !m2.IsEmpty() && m1.rows != m2.rows ==> r == Err(RowCountMismatch)
    ensures r.Ok? ==> r.value.Valid() && r.value.rows == m1.rows && r.value.cols == m1.cols
    ensures r.Ok? ==> forall i, j :: 0 <= i < m1.rows && 0 <= j < m1.cols ==>
                        r.value.cells[i][j] == m1.cells[i][j] + m2.cells[i][j]
  {
    (:- NotEmpty(m1.rows, m1.cols);
    :- NotEmpty(m2.rows, m2.cols);
    :- EqualOrder(m1.rows, m1.cols, m2.rows, m2.cols);
    Ok(Matrix(m1.rows, m1.cols, seq(m1.rows, i requires 0 <= i < m1.rows =>
      seq(m1.cols, j requires 0 <= j < m1.cols => m1.cells[i][j] + m2.cells[i][j])))))
  }

  /** `matrixSubstraction`: the same checks as Add, cell-wise difference. */
  function Subtract(m1: Matrix, m2: Matrix): (r: Result<Matrix>)
    requires m1.Valid() && m2.Valid()
    ensures r.Ok? <==> !m1.IsEmpty() && !m2.IsEmpty() && m1.rows == m2.rows && m1.cols == m2.cols
    ensures m1.IsEmpty() ==> r == Err(EmptyMatrix)
    ensures !m1.IsEmpty() && m2.IsEmpty() ==> r == Err(EmptyMatrix)
    ensures !m1.IsEmpty() && !m2.IsEmpty() && m1.rows != m2.rows ==> r == Err(RowCountMismatch)
    ensures r.Ok? ==> r.value.Valid() && r.value.rows == m1.rows && r.value.cols == m1.cols
    ensures r.Ok? ==> forall i, j :: 0 <= i < m1.rows && 0 <= j < m1.cols ==>
                        r.value.cells[i][j] == m1.cells[i][j] - m2.cells[i][j]
  {
    (:- NotEmpty(m1.rows, m1.cols);
    :- NotEmpty(m2.rows, m2.cols);
    :- EqualOrder(m1.rows, m1.cols, m2.rows, m2.cols);
    Ok(Matrix(m1.rows, m1.cols, seq(m1.rows, i requires 0 <= i < m1.rows =>
      seq(m1.cols, j requires 0 <= j < m1.cols => m1.cells[i][j] - m2.cells[i][j])))))
  }

  /** Subtraction undoes addition: (m1 + m2) - m2 gives back m1. */
  lemma SubtractUndoesAdd(m1: Matrix, m2: Matrix)
    requires m1.Valid() && m2.Valid() && Add(m1, m2).Ok?
    ensures Subtract(Add(m1, m2).value, m2) == Ok(m1)
  {
    var s := Subtract(Add(m1, m2).value, m2).value;
    forall i | 0 <= i < m1.rows
      ensures s.cells[i] == m1.cells[i]
    {
    }
    assert s.cells == m1.cells;
  }

  /** `multiplyCellsWithValue`: every cell scaled; an empty matrix is rejected. */
  function Scale(m: Matrix, factor: real): (r: Result<Matrix>)
    requires m.Valid()
    ensures r.Ok? <==> !m.IsEmpty()
    ensures r.Err? ==> r.error == EmptyMatrix
    ensures r.Ok? ==> r.value.Valid() && r.value.rows == m.rows && r.value.cols == m.cols
    ensures r.Ok? ==> forall i, j :: 0 <= i < m.rows && 0 <= j < m.cols ==>
                        r.value.cells[i][j] == factor * m.cells[i][j]
  {
    (:- NotEmpty(m.rows, m.cols);
    Ok(Matrix(m.rows, m.cols, seq(m.rows, i requires 0 <= i < m.rows =>
      seq(m.cols, j requires 0 <= j < m.cols => factor * m.cells[i][j])))))
  }

  /** Two scalings compose into one by the product of the factors. */
  lemma ScaleComposes(m: Matrix, f: real, g: real)
    requires m.Valid() && !m.IsEmpty()
    ensures Scale(Scale(m, f).value, g) == Scale(m, g * f)
  {
    var a := Scale(Scale(m, f).value, g).value;
    var b := Scale(m, g * f).value;
    forall i | 0 <= i < m.rows
      ensures a.cells[i] == b.cells[i]
    {
      forall j | 0 <= j < m.cols
        ensures a.cells[i][j] == b.cells[i][j]
      {
        assert a.cells[i][j] == g * (f * m.cells[i][j]);
      }
    }
    assert a.cells == b.cells;
  }

  // ---------------------------------------------------------------- product

  /** Sum of `a[i][k] * b[k][j]` for k below n, accumulated left to right. */
  function Dot(a: Matrix, b: Matrix, i: nat, j: nat, n: nat): real
    requires a.Valid() && b.Valid()
    requires i < a.rows && j < b.cols && n <= a.cols && n <= b.rows
  {
    if n == 0 then 0.0 else Dot(a, b, i, j, n - 1) + a.cells[i][n - 1] * b.cells[n - 1][j]
  }

  /** `multiplyMatrices`: a rows-of-m1 x columns-of-m2 matrix of dot products over
      the first operand's columns. The source does not check the orders here; if
      the first operand has more columns than the second has rows, the first read
      past the second's last row fails. */
  function MultiplyMatrices(m1: Matrix, m2: Matrix): (r: Result<Matrix>)
    requires m1.Valid() && m2.Valid()
    ensures r.Err? <==> m1.rows > 0 && m2.cols > 0 && m1.cols > m2.rows
    ensures r.Err? ==> r.error == RowOutOfRange
    ensures r.Ok? ==> r.value.Valid() && r.value.rows == m1.rows && r.value.cols == m2.cols
    ensures r.Ok? ==> forall i, j :: 0 <= i < m1.rows && 0 <= j < m2.cols ==>
                        r.value.cells[i][j] == Dot(m1, m2, i, j, m1.cols)
  {
    if m1.rows > 0 && m2.cols > 0 && m1.cols > m2.rows then
      Err(RowOutOfRange)
    else
      Ok(Matrix(m1.rows, m2.cols, seq(m1.rows, i requires 0 <= i < m1.rows =>
        seq(m2.cols, j requires 0 <= j < m2.cols => Dot(m1, m2, i, j, m1.cols)))))
  }

  /** `matrixMultiplication`: both operands non-empty; m1 * m2 when m1's columns
      match m2's rows; otherwise, when the swap is allowed and m1's rows match m2's
      columns, m2 * m1; otherwise the product is refused. */
  function Multiply(m1: Matrix, m2: Matrix, allowSwitch: bool): (r: Result<Matrix>)
    requires m1.Valid() && m2.Valid()
    ensures r.Ok? <==> !m1.IsEmpty() && !m2.IsEmpty()
                       && (m1.cols == m2.rows || (allowSwitch && m1.rows == m2.cols))
    ensures m1.IsEmpty() || m2.IsEmpty() ==> r == Err(EmptyMatrix)
    ensures !m1.IsEmpty() && !m2.IsEmpty() && m1.cols != m2.rows && !(allowSwitch && m1.rows == m2.cols)
            ==> r == Err(CannotMultiply)
    ensures r.Ok? && m1.cols == m2.rows ==>
              r.value.Valid() && r.value.rows == m1.rows && r.value.cols == m2.cols
              && forall i, j :: 0 <= i < m1.rows && 0 <= j < m2.cols ==>
                   r.value.cells[i][j] == Dot(m1, m2, i, j, m1.cols)
    ensures r.Ok? && m1.cols != m2.rows ==>
              r.value.Valid() && r.value.rows == m2.rows && r.value.cols == m1.cols
              && forall i, j :: 0 <= i < m2.rows && 0 <= j < m1.cols ==>
                   r.value.cells[i][j] == Dot(m2, m1, i, j, m2.cols)
  {
    (:- NotEmpty(m1.rows, m1.cols);
    :- NotEmpty(m2.rows, m2.cols);
    if m1.cols == m2.rows then MultiplyMatrices(m1, m2)
    else if allowSwitch && m1.rows == m2.cols then MultiplyMatrices(m2, m1)
    else Err(CannotMultiply))
  }

  /** The tolerated swap is exactly the product in the other order: when only the
      reversed orientation fits, multiplying with the swap allowed is m2 * m1. */
  lemma SwitchedProductIsReversed(m1: Matrix, m2: Matrix)
    requires m1.Valid() && m2.Valid() && !m1.IsEmpty() && !m2.IsEmpty()
    requires m1.cols != m2.rows && m1.rows == m2.cols
    ensures Multiply(m1, m2, true) == Multiply(m2, m1, false)
    ensures Multiply(m1, m2, false) == Err(CannotMultiply)
  {
  }

  // ---------------------------------------------------------------- 2x2 inverse

  /** The determinant as the inverse computes it: top-left times bottom-right
      minus top-right times bottom-left, "bottom" and "right" being the last
      row and column of whatever order the matrix has. */
  function Determinant(m: Matrix): real
    requires m.Valid() && !m.IsEmpty()
  {
    m.cells[0][0] * m.cells[m.rows - 1][m.cols - 1] - m.cells[0][m.cols - 1] * m.cells[m.rows - 1][0]
  }

  /** Because the 2x2 guard only rejects counts above 2, the inverse also runs on
      1x1, 1x2 and 2x1 matrices; for those the determinant is always zero. */
  lemma SmallerThanTwoByTwoIsSingular(m: Matrix)
    requires m.Valid() && !m.IsEmpty() && m.rows <= 2 && m.cols <= 2
    requires m.rows < 2 || m.cols < 2
    ensures Determinant(m) == 0.0
  {
    if m.rows == 1 {
      assert m.cells[0][m.cols - 1] * m.cells[0][0] == m.cells[0][0] * m.cells[0][m.cols - 1];
    } else {
      assert m.cells[m.rows - 1][0] * m.cells[0][0] == m.cells[0][0] * m.cells[m.rows - 1][0];
    }
  }

  /** `inverse2DMatrix`, with the documented singular test: a matrix larger than
      2x2 is refused, an empty one fails on its first cell read, a zero
      determinant is refused, and otherwise the result is the adjugate
      [[d, -b], [-c, a]] scaled by 1 / det. */
  function Inverse2x2(m: Matrix): (r: Result<Matrix>)
    requires m.Valid()
    ensures r.Ok? <==> m.rows == 2 && m.cols == 2 && Determinant(m) != 0.0
    ensures m.rows > 2 || m.cols > 2 ==> r == Err(NotTwoByTwo)
    ensures m.rows <= 2 && m.cols <= 2 && m.rows == 0 ==> r == Err(RowOutOfRange)
    ensures m.rows <= 2 && m.cols <= 2 && m.rows > 0 && m.cols == 0 ==> r == Err(ColumnOutOfRange)
    ensures m.rows <= 2 && m.cols <= 2 && !m.IsEmpty() && Determinant(m) == 0.0 ==> r == Err(SingularMatrix)
    ensures r.Ok? ==> r.value.Valid() && r.value.rows == 2 && r.value.cols == 2
    ensures r.Ok? ==> Multiply(m, r.value, false) == Ok(Identity2())
    ensures r.Ok? ==> Multiply(r.value, m, false) == Ok(Identity2())
  {
    (:- AtMostTwoByTwo(m.rows, m.cols);
    if m.rows == 0 then Err(RowOutOfRange)
    else if m.cols == 0 then Err(ColumnOutOfRange)
    else if Determinant(m) == 0.0 then Err(SingularMatrix)
    else
      assert m.rows == 2 && m.cols == 2 by {
        if m.rows < 2 || m.cols < 2 { SmallerThanTwoByTwoIsSingular(m); }
      }
      var inv := InverseCells(m);
      InverseRoundTrip(m);
      Ok(inv))
  }

  /** The closed-form inverse of a 2x2 matrix of non-zero determinant. */
  function InverseCells(m: Matrix): (r: Matrix)
    requires m.Valid() && m.rows == 2 && m.cols == 2 && Determinant(m) != 0.0
    ensures r.Valid() && r.rows == 2 && r.cols == 2
  {
    var k := 1.0 / Determinant(m);
    Matrix(2, 2, [[k * m.cells[1][1], -k * m.cells[0][1]], [-k * m.cells[1][0], k * m.cells[0][0]]])
  }

  /** A dot product of length two, written out. */
  lemma DotOfTwo(a: Matrix, b: Matrix, i: nat, j: nat)
    requires a.Valid() && b.Valid() && i < a.rows && j < b.cols && 2 <= a.cols && 2 <= b.rows
    ensures Dot(a, b, i, j, 2) == a.cells[i][0] * b.cells[0][j] + a.cells[i][1] * b.cells[1][j]
  {
    assert Dot(a, b, i, j, 1) == a.cells[i][0] * b.cells[0][j];
  }

  /** A 2x2 product whose four written-out dot products are those of the
      identity is the identity. */
  lemma ProductIsIdentity(x: Matrix, y: Matrix)
    requires x.Valid() && y.Valid() && x.rows == 2 && x.cols == 2 && y.rows == 2 && y.cols == 2
    requires x.cells[0][0] * y.cells[0][0] + x.cells[0][1] * y.cells[1][0] == 1.0
    requires x.cells[0][0] * y.cells[0][1] + x.cells[0][1] * y.cells[1][1] == 0.0
    requires x.cells[1][0] * y.cells[0][0] + x.cells[1][1] * y.cells[1][0] == 0.0
    requires x.cells[1][0] * y.cells[0][1] + x.cells[1][1] * y.cells[1][1] == 1.0
    ensures Multiply(x, y, false) == Ok(Identity2())
  {
    assert Dot(x, y, 0, 0, 2) == 1.0 by { DotOfTwo(x, y, 0, 0); }
    assert Dot(x, y, 0, 1, 2) == 0.0 by { DotOfTwo(x, y, 0, 1); }
    assert Dot(x, y, 1, 0, 2) == 0.0 by { DotOfTwo(x, y, 1, 0); }
    assert Dot(x, y, 1, 1, 2) == 1.0 by { DotOfTwo(x, y, 1, 1); }
    var r := Multiply(x, y, false);
    assert r.Ok?;
    var p := r.value;
    assert p.Valid() && p.rows == 2 && p.cols == 2;
    assert p.cells[0][0] == Dot(x, y, 0, 0, 2) && p.cells[0][1] == Dot(x, y, 0, 1, 2);
    assert p.cells[1][0] == Dot(x, y, 1, 0, 2) && p.cells[1][1] == Dot(x, y, 1, 1, 2);
    assert p.cells[0] == [1.0, 0.0];
    assert p.cells[1] == [0.0, 1.0];
    assert p.cells == Identity2().cells;
  }

  /** The ring identities behind the closed-form inverse, for k (ad - bc) = 1. */
  lemma InverseAlgebra(a: real, b: real, c: real, d: real, k: real)
    requires k * (a * d - b * c) == 1.0
    ensures a * (k * d) + b * (-k * c) == 1.0 && c * (-k * b) + d * (k * a) == 1.0
    ensures a * (-k * b) + b * (k * a) == 0.0 && c * (k * d) + d * (-k * c) == 0.0
    ensures (k * d) * a + (-k * b) * c == 1.0 && (-k * c) * b + (k * a) * d == 1.0
    ensures (k * d) * b + (-k * b) * d == 0.0 && (-k * c) * a + (k * a) * c == 0.0
  {
    assert a * (k * d) + b * (-k * c) == k * (a * d - b * c);
    assert c * (-k * b) + d * (k * a) == k * (a * d - b * c);
    assert (k * d) * a + (-k * b) * c == k * (a * d - b * c);
    assert (-k * c) * b + (k * a) * d == k * (a * d - b * c);
  }

  /** The closed form is a two-sided inverse: M * inv(M) = inv(M) * M = I. */
  lemma InverseRoundTrip(m: Matrix)
    requires m.Valid() && m.rows == 2 && m.cols == 2 && Determinant(m) != 0.0
    ensures Multiply(m, InverseCells(m), false) == Ok(Identity2())
    ensures Multiply(InverseCells(m), m, false) == Ok(Identity2())
  {
    var a, b, c, d := m.cells[0][0], m.cells[0][1], m.cells[1][0], m.cells[1][1];
    var det := Determinant(m);
    assert det == a * d - b * c;
    var k := 1.0 / det;
    assert k * det == 1.0;
    var inv := InverseCells(m);
    assert inv.cells[0][0] == k * d && inv.cells[0][1] == -k * b;
    assert inv.cells[1][0] == -k * c && inv.cells[1][1] == k * a;
    InverseAlgebra(a, b, c, d, k);
    ProductIsIdentity(m, inv);
    ProductIsIdentity(inv, m);
  }

  /** A double-precision value: a finite real or one of the IEEE special values. */
  datatype Double = Finite(value: real) | PositiveInfinity | NotANumber

  /** IEEE division of 1 by a finite value. A determinant computed as `x - y` with
      x == y is +0.0 under round-to-nearest, so a zero divisor yields +Infinity. */
  function Reciprocal(x: real): Double {
    if x == 0.0 then PositiveInfinity else Finite(1.0 / x)
  }

  /** The singular test as the inverse writes it: compute `1 / det` and reject
      when that quotient equals zero. For a finite determinant it never rejects: a
      non-zero determinant has a non-zero reciprocal, and a zero one has an
      infinite reciprocal. (Only a determinant that overflowed to infinity, which
      real arithmetic cannot express, would give a zero quotient.) */
  function SingularTestAsWritten(det: real): (rejects: bool)
    ensures !rejects
  {
    Reciprocal(det) == Finite(0.0)
  }

  /** The singular matrix [[1, 2], [2, 4]] passes the test as written, whereas
      the documented behaviour refuses it. */
  lemma SingularMatrixPassesTestAsWritten()
    ensures var m := Matrix(2, 2, [[1.0, 2.0], [2.0, 4.0]]);
            m.Valid() && Determinant(m) == 0.0
            && !SingularTestAsWritten(Determinant(m))
            && Inverse2x2(m) == Err(SingularMatrix)
  {
    var m := Matrix(2, 2, [[1.0, 2.0], [2.0, 4.0]]);
    assert Determinant(m) == 1.0 * 4.0 - 2.0 * 2.0;
  }

  // ---------------------------------------------------------------- column statistics

  /** Sum of the first n entries of one column, accumulated top to bottom. */
  function ColumnSum(m: Matrix, columnNo: nat, n: nat): real
    requires m.Valid() && columnNo < m.cols && n <= m.rows
  {
    if n == 0 then 0.0 else ColumnSum(m, columnNo, n - 1) + m.cells[n - 1][columnNo]
  }

  /** The mean of one column of a matrix with at least one row. */
  function ColumnMean(m: Matrix, columnNo: nat): real
    requires m.Valid() && columnNo < m.cols && m.rows > 0
  {
    ColumnSum(m, columnNo, m.rows) / (m.rows as real)
  }

  /** `calculateMean`: rejects an empty matrix, then a bad column; otherwise the
      column sum divided by the row count. */
  function Mean(m: Matrix, columnNo: int): (r: Result<real>)
    requires m.Valid()
    ensures r.Ok? <==> !m.IsEmpty() && 0 <= columnNo < m.cols
    ensures m.IsEmpty() ==> r == Err(EmptyMatrix)
    ensures !m.IsEmpty() && !(0 <= columnNo < m.cols) ==> r == Err(ColumnOutOfRange)
    ensures r.Ok? ==> r.value * (m.rows as real) == ColumnSum(m, columnNo, m.rows)
  {
    (:- NotEmpty(m.rows, m.cols);
    :- ColumnInRange(columnNo, m.cols);
    Ok(ColumnMean(m, columnNo)))
  }

  /** A column holding v in its first n rows sums to n * v. */
  lemma {:induction false} ConstantColumnSum(m: Matrix, columnNo: nat, v: real, n: nat)
    requires m.Valid() && columnNo < m.cols && n <= m.rows
    requires forall i :: 0 <= i < m.rows ==> m.cells[i][columnNo] == v
    ensures ColumnSum(m, columnNo, n) == (n as real) * v
  {
    if n > 0 {
      ConstantColumnSum(m, columnNo, v, n - 1);
    }
  }

  /** The mean of a constant column is that constant. */
  lemma MeanOfConstantColumn(m: Matrix, columnNo: nat, v: real)
    requires m.Valid() && m.rows > 0 && columnNo < m.cols
    requires forall i :: 0 <= i < m.rows ==> m.cells[i][columnNo] == v
    ensures Mean(m, columnNo) == Ok(v)
  {
    ConstantColumnSum(m, columnNo, v, m.rows);
    var n := m.rows as real;
    assert (n * v) / n == v;
    assert ColumnMean(m, columnNo) == v;
  }

  /** `createMeanMatrix`: a cols x 1 matrix (built as one row, then transposed)
      whose i-th entry is the mean of column i. */
  function MeanMatrix(m: Matrix): (r: Result<Matrix>)
    requires m.Valid()
    ensures r.Ok? <==> !m.IsEmpty()
    ensures r.Err? ==> r.error == EmptyMatrix
    ensures r.Ok? ==> r.value.Valid() && r.value.rows == m.cols && r.value.cols == 1
    ensures r.Ok? ==> forall i :: 0 <= i < m.cols ==> Mean(m, i) == Ok(r.value.cells[i][0])
  {
    (:- NotEmpty(m.rows, m.cols);
    var meanRow := Matrix(1, m.cols, [seq(m.cols, i requires 0 <= i < m.cols => ColumnMean(m, i))]);
    Ok(Transpose(meanRow)))
  }

  /** `calculateCorrectedMean`: the cell minus a given global mean. */
  function CorrectedMean(m: Matrix, rowNo: int, columnNo: int, globalMean: real): (r: Result<real>)
    requires m.Valid()
    ensures r.Ok? <==> 0 <= rowNo < m.rows && 0 <= columnNo < m.cols
    ensures !(0 <= rowNo < m.rows) ==> r == Err(RowOutOfRange)
    ensures 0 <= rowNo < m.rows && !(0 <= columnNo < m.cols) ==> r == Err(ColumnOutOfRange)
    ensures r.Ok? ==> r.value + globalMean == m.cells[rowNo][columnNo]
  {
    (:- RowInRange(rowNo, m.rows);
    :- ColumnInRange(columnNo, m.cols);
    Ok(m.cells[rowNo][columnNo] - globalMean))
  }

  /** Sum over the first n rows of (x - meanX) * (y - meanY) for two columns. */
  function CrossDeviations(m: Matrix, cx: nat, cy: nat, meanX: real, meanY: real, n: nat): real
    requires m.Valid() && cx < m.cols && cy < m.cols && n <= m.rows
  {
    if n == 0 then 0.0
    else CrossDeviations(m, cx, cy, meanX, meanY, n - 1)
         + (m.cells[n - 1][cx] - meanX) * (m.cells[n - 1][cy] - meanY)
  }

  /** The scatter of columns cx and cy: their cross-deviation sum over all
      rows, each column taken about its own mean. */
  function ColumnScatter(m: Matrix, cx: nat, cy: nat): real
    requires m.Valid() && cx < m.cols && cy < m.cols && m.rows > 0
  {
    CrossDeviations(m, cx, cy, ColumnMean(m, cx), ColumnMean(m, cy), m.rows)
  }

  /** A sum of squared deviations is never negative. */
  lemma {:induction false} SquaredDeviationsNonNegative(m: Matrix, c: nat, mean: real, n: nat)
    requires m.Valid() && c < m.cols && n <= m.rows
    ensures CrossDeviations(m, c, c, mean, mean, n) >= 0.0
  {
    if n > 0 {
      SquaredDeviationsNonNegative(m, c, mean, n - 1);
      var d := m.cells[n - 1][c] - mean;
      assert d * d >= 0.0;
    }
  }

  /** Cross deviations are symmetric in the two columns. */
  lemma {:induction false} CrossDeviationsSymmetric(m: Matrix, cx: nat, cy: nat, meanX: real, meanY: real, n: nat)
    requires m.Valid() && cx < m.cols && cy < m.cols && n <= m.rows
    ensures CrossDeviations(m, cx, cy, meanX, meanY, n) == CrossDeviations(m, cy, cx, meanY, meanX, n)
  {
    if n > 0 {
      CrossDeviationsSymmetric(m, cx, cy, meanX, meanY, n - 1);
    }
  }

  /** In a one-row matrix every value is its column's mean, so no deviation is left. */
  lemma OneRowHasNoDeviation(m: Matrix, cx: nat, cy: nat)
    requires m.Valid() && m.rows == 1 && cx < m.cols && cy < m.cols
    ensures CrossDeviations(m, cx, cy, ColumnMean(m, cx), ColumnMean(m, cy), 1) == 0.0
  {
    assert ColumnSum(m, cx, 1) == m.cells[0][cx];
    assert ColumnSum(m, cy, 1) == m.cells[0][cy];
  }

  /** A column whose entries all equal v has no deviation from v. */
  lemma {:induction false} ConstantColumnNoDeviation(m: Matrix, c: nat, v: real, n: nat)
    requires m.Valid() && c < m.cols && n <= m.rows
    requires forall i :: 0 <= i < m.rows ==> m.cells[i][c] == v
    ensures CrossDeviations(m, c, c, v, v, n) == 0.0
  {
    if n > 0 {
      ConstantColumnNoDeviation(m, c, v, n - 1);
    }
  }

  /** `calculateVariance(column)`: rejects an empty matrix, then a bad column;
      the sum of squared deviations from the column mean is divided by rows - 1
      when it is positive, and the variance is 0 otherwise. */
  function Variance(m: Matrix, columnNo: int): (r: Result<real>)
    requires m.Valid()
    ensures r.Ok? <==> !m.IsEmpty() && 0 <= columnNo < m.cols
    ensures m.IsEmpty() ==> r == Err(EmptyMatrix)
    ensures !m.IsEmpty() && !(0 <= columnNo < m.cols) ==> r == Err(ColumnOutOfRange)
    ensures r.Ok? ==> r.value >= 0.0
    ensures r.Ok? && m.rows >= 2 ==>
              r.value * ((m.rows - 1) as real) == ColumnScatter(m, columnNo, columnNo)
  {
    (:- NotEmpty(m.rows, m.cols);
    :- ColumnInRange(columnNo, m.cols);
    var mean := ColumnMean(m, columnNo);
    var s := CrossDeviations(m, columnNo, columnNo, mean, mean, m.rows);
    SquaredDeviationsNonNegative(m, columnNo, mean, m.rows);
    if s > 0.0 then
      assert m.rows != 1 by {
        if m.rows == 1 { OneRowHasNoDeviation(m, columnNo, columnNo); }
      }
      Ok(s / ((m.rows - 1) as real))
    else
      Ok(0.0))
  }

  /** A constant column has zero variance. */
  lemma VarianceOfConstantColumn(m: Matrix, columnNo: nat, v: real)
    requires m.Valid() && m.rows > 0 && columnNo < m.cols
    requires forall i :: 0 <= i < m.rows ==> m.cells[i][columnNo] == v
    ensures Variance(m, columnNo) == Ok(0.0)
  {
    MeanOfConstantColumn(m, columnNo, v);
    ConstantColumnNoDeviation(m, columnNo, v, m.rows);
  }

  /** The covariance value of two columns of a matrix with at least two rows. */
  function CoVarianceValue(m: Matrix, cx: nat, cy: nat): real
    requires m.Valid() && cx < m.cols && cy < m.cols && m.rows >= 2
  {
    ColumnScatter(m, cx, cy) / ((m.rows - 1) as real)
  }

  /** `calculateCoVariance(columnX, columnY)`: both columns are checked, then the
      column means (which reject a matrix without rows); the cross-deviation sum
      is divided by rows - 1 unconditionally, which for a single row is 0 / 0. */
  function CoVariance(m: Matrix, cx: int, cy: int): (r: Result<real>)
    requires m.Valid()
    ensures r.Ok? <==> 0 <= cx < m.cols && 0 <= cy < m.cols && m.rows >= 2
    ensures !(0 <= cx < m.cols) ==> r == Err(ColumnOutOfRange)
    ensures 0 <= cx < m.cols && !(0 <= cy < m.cols) ==> r == Err(ColumnOutOfRange)
    ensures 0 <= cx < m.cols && 0 <= cy < m.cols && m.rows == 0 ==> r == Err(EmptyMatrix)
    ensures 0 <= cx < m.cols && 0 <= cy < m.cols && m.rows == 1 ==> r == Err(NonFinite)
    ensures r.Ok? ==> r.value * ((m.rows - 1) as real) == ColumnScatter(m, cx, cy)
  {
    (:- ColumnInRange(cx, m.cols);
    :- ColumnInRange(cy, m.cols);
    :- NotEmpty(m.rows, m.cols);
    if m.rows == 1 then Err(NonFinite) else Ok(CoVarianceValue(m, cx, cy)))
  }

  /** The covariance of a column with itself is its variance, and the covariance
      is symmetric in its two columns. */
  lemma CoVarianceDiagonalAndSymmetry(m: Matrix, cx: nat, cy: nat)
    requires m.Valid() && m.rows >= 2 && cx < m.cols && cy < m.cols
    ensures CoVariance(m, cx, cx) == Variance(m, cx)
    ensures CoVariance(m, cx, cy) == CoVariance(m, cy, cx)
  {
    var mean := ColumnMean(m, cx);
    SquaredDeviationsNonNegative(m, cx, mean, m.rows);
    CrossDeviationsSymmetric(m, cx, cy, ColumnMean(m, cx), ColumnMean(m, cy), m.rows);
  }

  /** `createCoVarianceMatrix(parent)`: an empty parent is refused; otherwise the
      cols x cols matrix of pairwise column covariances. */
  function CoVarianceMatrix(parent: Matrix): (r: Result<Matrix>)
    requires parent.Valid()
    ensures r.Ok? <==> !parent.IsEmpty() && parent.rows >= 2
    ensures parent.IsEmpty() ==> r == Err(EmptyParentMatrix)
    ensures !parent.IsEmpty() && parent.rows == 1 ==> r == Err(NonFinite)
    ensures r.Ok? ==> r.value.Valid() && r.value.rows == parent.cols && r.value.cols == parent.cols
    ensures r.Ok? ==> forall i, j :: 0 <= i < parent.cols && 0 <= j < parent.cols ==>
                        CoVariance(parent, i, j) == Ok(r.value.cells[i][j])
    ensures r.Ok? ==> forall i, j :: 0 <= i < parent.cols && 0 <= j < parent.cols ==>
                        r.value.cells[i][j] == r.value.cells[j][i]
    ensures r.Ok? ==> forall i :: 0 <= i < parent.cols ==> Variance(parent, i) == Ok(r.value.cells[i][i])
  {
    (:- ParentNotEmpty(parent.rows, parent.cols);
    if parent.rows == 1 then
      Err(NonFinite)
    else
      var n := parent.cols;
      var c := Matrix(n, n, seq(n, i requires 0 <= i < n =>
        seq(n, j requires 0 <= j < n => CoVarianceValue(parent, i, j))));
      assert forall i, j :: 0 <= i < n && 0 <= j < n ==> c.cells[i][j] == c.cells[j][i] by {
        forall i, j | 0 <= i < n && 0 <= j < n
          ensures c.cells[i][j] == c.cells[j][i]
        {
          CoVarianceDiagonalAndSymmetry(parent, i, j);
        }
      }
      assert forall i :: 0 <= i < n ==> Variance(parent, i) == Ok(c.cells[i][i]) by {
        forall i | 0 <= i < n
          ensures Variance(parent, i) == Ok(c.cells[i][i])
        {
          CoVarianceDiagonalAndSymmetry(parent, i, i);
        }
      }
      Ok(c))
  }

  /** The scatter cells: `factor * cov[i][j]` over the leading n x n block. */
  function ScaledBlock(cov: Matrix, factor: real, n: nat): (r: Matrix)
    requires cov.Valid() && n <= cov.rows && n <= cov.cols
    ensures r.Valid() && r.rows == n && r.cols == n
    ensures forall i, j :: 0 <= i < n && 0 <= j < n ==> r.cells[i][j] == factor * cov.cells[i][j]
  {
    Matrix(n, n, seq(n, i requires 0 <= i < n => seq(n, j requires 0 <= j < n => factor * cov.cells[i][j])))
  }

  /** `createScatterMatrix` as written: the size of the result is read from the
      covariance argument BEFORE an empty one is replaced by the parent's
      covariance matrix, so in that case the result has no cells at all. The
      replacement is still computed, and it fails only for an empty parent (a
      one-row parent gives NaN cells there, which are never read). A supplied
      covariance matrix with fewer rows than columns fails on its first missing
      row. */
  function ScatterMatrixAsWritten(parent: Matrix, cov: Matrix): (r: Result<Matrix>)
    requires parent.Valid() && cov.Valid()
    ensures cov.cols == 0 ==> (r.Ok? <==> !parent.IsEmpty())
    ensures cov.cols == 0 && r.Err? ==> r.error == EmptyParentMatrix
    ensures cov.cols == 0 && r.Ok? ==> r.value == Create(0, 0)
    ensures cov.cols != 0 ==> (r.Ok? <==> cov.rows >= cov.cols)
    ensures cov.cols != 0 && r.Err? ==> r.error == RowOutOfRange
    ensures cov.cols != 0 && r.Ok? ==>
              r.value.Valid() && r.value.rows == cov.cols && r.value.cols == cov.cols
              && forall i, j :: 0 <= i < cov.cols && 0 <= j < cov.cols ==>
                   r.value.cells[i][j] == ((parent.rows - 1) as real) * cov.cells[i][j]
  {
    var numElements := cov.cols;
    if numElements == 0 then
      (:- ParentNotEmpty(parent.rows, parent.cols);
      Ok(Create(0, 0)))
    else if cov.rows < numElements then Err(RowOutOfRange)
    else Ok(ScaledBlock(cov, (parent.rows - 1) as real, numElements))
  }

  /** `createScatterMatrix` as documented: the covariance matrix scaled by
      (parent rows - 1), computed from the parent when the argument is empty. */
  function ScatterMatrix(parent: Matrix, cov: Matrix): (r: Result<Matrix>)
    requires parent.Valid() && cov.Valid()
    ensures cov.cols != 0 ==> (r.Ok? <==> cov.rows >= cov.cols)
    ensures r.Ok? ==> r.value.Valid()
    ensures cov.cols != 0 && r.Ok? ==>
              r.value.rows == cov.cols && r.value.cols == cov.cols
              && forall i, j :: 0 <= i < cov.cols && 0 <= j < cov.cols ==>
                   r.value.cells[i][j] == ((parent.rows - 1) as real) * cov.cells[i][j]
    ensures cov.cols == 0 ==> (r.Ok? <==> !parent.IsEmpty() && parent.rows >= 2)
    ensures cov.cols == 0 && r.Ok? ==> r.value.rows == parent.cols && r.value.cols == parent.cols
  {
    var c :- if cov.cols == 0 then CoVarianceMatrix(parent) else Ok(cov);
    if c.rows < c.cols then Err(RowOutOfRange)
    else Ok(ScaledBlock(c, (parent.rows - 1) as real, c.cols))
  }

  /** Computed from the parent, cell (i, j) of the scatter matrix is the sum of
      the products of the deviations of columns i and j from their means. */
  lemma ComputedScatterIsCrossDeviations(parent: Matrix, cov: Matrix, i: nat, j: nat)
    requires parent.Valid() && cov.Valid() && cov.cols == 0
    requires ScatterMatrix(parent, cov).Ok? && i < parent.cols && j < parent.cols
    ensures ScatterMatrix(parent, cov).value.cells[i][j] == ColumnScatter(parent, i, j)
  {
    var c := CoVarianceMatrix(parent).value;
    var factor := (parent.rows - 1) as real;
    assert CoVariance(parent, i, j) == Ok(c.cells[i][j]);
    assert ScatterMatrix(parent, cov).value.cells[i][j] == factor * c.cells[i][j];
    assert c.cells[i][j] * factor == factor * c.cells[i][j];
  }

  /** With a supplied (non-empty) covariance matrix the code as written and as
      documented agree; they differ only when the argument is empty. */
  lemma ScatterAsWrittenAgreesWhenSupplied(parent: Matrix, cov: Matrix)
    requires parent.Valid() && cov.Valid() && cov.cols != 0
    ensures ScatterMatrixAsWritten(parent, cov) == ScatterMatrix(parent, cov)
  {
  }

  /** With an empty covariance argument, the parent [[1, 2], [3, 4]] yields a 0x0
      scatter matrix as written, and a 2x2 one as documented. */
  lemma ScatterOfComputedCovarianceIsEmpty()
    ensures var parent := Matrix(2, 2, [[1.0, 2.0], [3.0, 4.0]]);
            parent.Valid()
            && ScatterMatrixAsWritten(parent, Create(0, 0)) == Ok(Create(0, 0))
            && ScatterMatrix(parent, Create(0, 0)).Ok?
            && ScatterMatrix(parent, Create(0, 0)).value.rows == 2
  {
  }

  /** `getBetweenClassScatterMatrix` for two class-mean column vectors: both
      non-empty and of equal order; with d = mean1 - mean2 over the first two
      rows, the result is rows x rows with d * d^T in its top-left 2x2 block and
      zeros elsewhere. Fewer than two rows fail when the second row is read. */
  function BetweenClassScatter(mean1: Matrix, mean2: Matrix): (r: Result<Matrix>)
    requires mean1.Valid() && mean2.Valid()
    ensures r.Ok? <==> !mean1.IsEmpty() && !mean2.IsEmpty() && mean1.rows == mean2.rows
                       && mean1.cols == mean2.cols && mean1.rows >= 2
    ensures mean1.IsEmpty() || mean2.IsEmpty() ==> r == Err(EmptyMatrix)
    ensures r.Ok? ==> r.value.Valid() && r.value.rows == mean1.rows && r.value.cols == mean1.rows
    ensures r.Ok? ==> forall i, j :: 0 <= i < 2 && 0 <= j < 2 ==>
                        r.value.cells[i][j] == (mean1.cells[i][0] - mean2.cells[i][0]) * (mean1.cells[j][0] - mean2.cells[j][0])
    ensures r.Ok? ==> forall i, j :: 0 <= i < mean1.rows && 0 <= j < mean1.rows && (i >= 2 || j >= 2) ==>
                        r.value.cells[i][j] == 0.0
    ensures r.Ok? ==> forall i, j :: 0 <= i < mean1.rows && 0 <= j < mean1.rows ==>
                        r.value.cells[i][j] == r.value.cells[j][i]
  {
    (:- NotEmpty(mean1.rows, mean1.cols);
    :- NotEmpty(mean2.rows, mean2.cols);
    :- EqualOrder(mean1.rows, mean1.cols, mean2.rows, mean2.cols);
    var n := mean1.rows;
    if n < 2 then
      Err(RowOutOfRange)
    else
      var d1 := mean1.cells[0][0] - mean2.cells[0][0];
      var d2 := mean1.cells[1][0] - mean2.cells[1][0];
      var d := [d1, d2];
      Ok(Matrix(n, n, seq(n, i requires 0 <= i < n => seq(n, j requires 0 <= j < n =>
        if i < 2 && j < 2 then d[i] * d[j] else 0.0)))))
  }

  /** Sum over k below n of invSw[i][k] * (meanC1[k][j] - meanC2[k][j]). */
  function DirectionDot(invSw: Matrix, meanC1: Matrix, meanC2: Matrix, i: nat, j: nat, n: nat): real
    requires invSw.Valid() && meanC1.Valid() && meanC2.Valid()
    requires meanC1.rows == meanC2.rows && meanC1.cols == meanC2.cols
    requires i < invSw.rows && j < meanC1.cols && n <= invSw.cols && n <= meanC1.rows
  {
    if n == 0 then 0.0
    else DirectionDot(invSw, meanC1, meanC2, i, j, n - 1)
         + invSw.cells[i][n - 1] * (meanC1.cells[n - 1][j] - meanC2.cells[n - 1][j])
  }

  /** `getOptimalLineMatrix`: all three operands non-empty, the mean matrices of
      equal order, and the inverse's columns matching the means' rows; the result
      is invSw x (meanC1 - meanC2), the Fisher discriminant direction. */
  function OptimalLine(invSw: Matrix, meanC1: Matrix, meanC2: Matrix): (r: Result<Matrix>)
    requires invSw.Valid() && meanC1.Valid() && meanC2.Valid()
    ensures r.Ok? <==> !invSw.IsEmpty() && !meanC1.IsEmpty() && !meanC2.IsEmpty()
                       && meanC1.rows == meanC2.rows && meanC1.cols == meanC2.cols
                       && invSw.cols == meanC1.rows
    ensures invSw.IsEmpty() || meanC1.IsEmpty() || meanC2.IsEmpty() ==> r == Err(EmptyMatrix)
    ensures r.Ok? ==> r.value.Valid() && r.value.rows == invSw.rows && r.value.cols == meanC1.cols
    ensures r.Ok? ==> Subtract(meanC1, meanC2).Ok?
                      && Multiply(invSw, Subtract(meanC1, meanC2).value, false) == r
  {
    (:- NotEmpty(invSw.rows, invSw.cols);
    :- NotEmpty(meanC1.rows, meanC1.cols);
    :- NotEmpty(meanC2.rows, meanC2.cols);
    :- EqualOrder(meanC1.rows, meanC1.cols, meanC2.rows, meanC2.cols);
    :- ColumnsMatchRows(invSw.cols, meanC1.rows);
    var line := Matrix(invSw.rows, meanC1.cols, seq(invSw.rows, i requires 0 <= i < invSw.rows =>
      seq(meanC1.cols, j requires 0 <= j < meanC1.cols => DirectionDot(invSw, meanC1, meanC2, i, j, invSw.cols))));
    OptimalLineIsProduct(invSw, meanC1, meanC2, line);
    Ok(line))
  }

  /** The direction computed in one pass equals the product of the inverse with
      the difference of the means. */
  lemma OptimalLineIsProduct(invSw: Matrix, meanC1: Matrix, meanC2: Matrix, line: Matrix)
    requires invSw.Valid() && meanC1.Valid() && meanC2.Valid()
    requires !invSw.IsEmpty() && !meanC1.IsEmpty() && !meanC2.IsEmpty()
    requires meanC1.rows == meanC2.rows && meanC1.cols == meanC2.cols && invSw.cols == meanC1.rows
    requires line.Valid() && line.rows == invSw.rows && line.cols == meanC1.cols
    requires forall i, j :: 0 <= i < invSw.rows && 0 <= j < meanC1.cols ==>
               line.cells[i][j] == DirectionDot(invSw, meanC1, meanC2, i, j, invSw.cols)
    ensures Subtract(meanC1, meanC2).Ok?
    ensures Multiply(invSw, Subtract(meanC1, meanC2).value, false) == Ok(line)
  {
    var diff := Subtract(meanC1, meanC2).value;
    var p := Multiply(invSw, diff, false).value;
    forall i | 0 <= i < invSw.rows
      ensures p.cells[i] == line.cells[i]
    {
      forall j | 0 <= j < meanC1.cols
        ensures p.cells[i][j] == line.cells[i][j]
      {
        DirectionDotIsDot(invSw, meanC1, meanC2, diff, i, j, invSw.cols);
      }
    }
    assert p.cells == line.cells;
  }

  lemma {:induction false} DirectionDotIsDot(invSw: Matrix, meanC1: Matrix, meanC2: Matrix, diff: Matrix,
                                             i: nat, j: nat, n: nat)
    requires invSw.Valid() && meanC1.Valid() && meanC2.Valid() && diff.Valid()
    requires meanC1.rows == meanC2.rows && meanC1.cols == meanC2.cols
    requires diff.rows == meanC1.rows && diff.cols == meanC1.cols
    requires forall a, b :: 0 <= a < diff.rows && 0 <= b < diff.cols ==>
               diff.cells[a][b] == meanC1.cells[a][b] - meanC2.cells[a][b]
    requires i < invSw.rows && j < meanC1.cols && n <= invSw.cols && n <= meanC1.rows
    ensures DirectionDot(invSw, meanC1, meanC2, i, j, n) == Dot(invSw, diff, i, j, n)
  {
    if n > 0 {
      DirectionDotIsDot(invSw, meanC1, meanC2, diff, i, j, n - 1);
    }
  }
}

=== FILE: perceptron.dfy ===
/** A single-layer perceptron: a 1 x A weight row, one output per input
    sample, and a training epoch that walks the samples in order, computes
    each output from the current weights and corrects the weights after every
    misclassified sample. The random draws of the source are oracle
    arguments. */
module Perceptron {
  import opened Errors
  import opened Matrices
  import Statistics

  /** The network state: weights (1 x A once built), the outputs of the last
      epoch (N x 1), the learning rate, the input samples and the desired
      outputs. */
  datatype Network = Network(weights: Matrix, outputs: Matrix, learningRate: real,
                             inputs: seq<seq<real>>, desired: seq<real>)
  {
    predicate WellFormed() {
      weights.Valid() && outputs.Valid()
    }
  }

  /** The empty matrix standing for a matrix field the constructor leaves unset. */
  function Unset(): Matrix {
    Matrix(0, 0, [])
  }

  // ---------------------------------------------------------------- scalar rules

  /** `checkCalculatedPerceptrpn`: the step activation, 1 for a positive output
      and -1 otherwise. */
  function Sign(output: real): (r: real)
    ensures r == 1.0 <==> output > 0.0
    ensures r == -1.0 <==> output <= 0.0
  {
    if output > 0.0 then 1.0 else -1.0
  }

  /** `calculateCurrentError`: half the squared difference of desired and
      computed output. */
  function CurrentError(desOutput: real, output: real): real {
    0.5 * ((desOutput - output) * (desOutput - output))
  }

  /** The error term is never negative and vanishes exactly when the output
      is the desired one. */
  lemma CurrentErrorSign(desOutput: real, output: real)
    ensures CurrentError(desOutput, output) >= 0.0
    ensures CurrentError(desOutput, output) == 0.0 <==> desOutput == output
  {
    Statistics.SquareSign(desOutput - output, (desOutput - output) * (desOutput - output));
  }

  // ---------------------------------------------------------------- random initial values

  /** One initial weight: (1 + d) / 100 for a draw d of `nextInt(100)`, a
      whole number of hundredths between 0.01 and 1. */
  function Weight(draw: int): (r: real)
    requires 0 <= draw < 100
    ensures 0.01 <= r <= 1.0
    ensures 1 <= (r * 100.0).Floor <= 100 && (r * 100.0).Floor as real == r * 100.0
  {
    (1 + draw) as real / 100.0
  }

  /** `fillWeightList`: listCount weights, the i-th drawn from draws[i]. */
  function WeightList(listCount: nat, draws: seq<int>): (r: seq<real>)
    requires listCount <= |draws|
    requires forall i :: 0 <= i < |draws| ==> 0 <= draws[i] < 100
    ensures |r| == listCount
    ensures forall i :: 0 <= i < listCount ==> r[i] == Weight(draws[i])
  {
    seq(listCount, i requires 0 <= i < listCount => Weight(draws[i]))
  }

  /** `setLearningRate`: (1 + d) / 10 for a draw d of `nextInt(7)`. The
      retry loop of the source never repeats, as the value is always
      positive. */
  function LearningRate(draw: int): (r: real)
    requires 0 <= draw < 7
    ensures 0.0 < r && 0.1 <= r <= 0.7
    ensures 1 <= (r * 10.0).Floor <= 7 && (r * 10.0).Floor as real == r * 10.0
  {
    (1 + draw) as real / 10.0
  }

  /** The constructor: with samples and desired outputs, an N x 1 zero output
      matrix and an A x 1 weight column (A the length of the first sample)
      filled from the draws and transposed into a 1 x A row. A first sample
      without values leaves nothing to fill. With either list empty the
      fields stay unset. */
  function NewNetwork(inputs: seq<seq<real>>, desired: seq<real>, rateDraw: int, weightDraws: seq<int>): (r: Result<Network>)
    requires 0 <= rateDraw < 7
    requires forall i :: 0 <= i < |weightDraws| ==> 0 <= weightDraws[i] < 100
    requires inputs != [] ==> |inputs[0]| <= |weightDraws|
    ensures inputs == [] || desired == [] ==> r == Ok(Network(Unset(), Unset(), 0.0, [], []))
    ensures inputs != [] && desired != [] ==> (r.Ok? <==> |inputs[0]| > 0)
    ensures r.Err? ==> r.error == EmptyValueList
    ensures r.Ok? ==> r.value.WellFormed()
    ensures r.Ok? && inputs != [] && desired != [] ==>
              && r.value.weights.rows == 1 && r.value.weights.cols == |inputs[0]|
              && r.value.outputs.rows == |inputs| && r.value.outputs.cols == 1
              && r.value.inputs == inputs && r.value.desired == desired
              && r.value.learningRate > 0.0
              && r.value.learningRate == LearningRate(rateDraw)
              && r.value.outputs == Create(|inputs|, 1)
              && (forall k :: 0 <= k < |inputs[0]| ==>
                    0.01 <= r.value.weights.cells[0][k] <= 1.0
                    && r.value.weights.cells[0][k] == WeightList(|inputs[0]|, weightDraws)[k])
  {
    if inputs == [] || desired == [] then
      Ok(Network(Unset(), Unset(), 0.0, [], []))
    else
      var learningRate := LearningRate(rateDraw);
      var outputs := Create(|inputs|, 1);
      var column :- FillColumn(Create(|inputs[0]|, 1), 0, WeightList(|inputs[0]|, weightDraws));
      Ok(Network(Transpose(column), outputs, learningRate, inputs, desired))
  }

  // ---------------------------------------------------------------- weight update

  /** The correction factor of `adjustWeights`: rate * (desired - output). */
  function Correction(learningRate: real, desOutput: real, output: real): real {
    learningRate * (desOutput - output)
  }

  /** The weight row after the perceptron rule with factor c: w + c * x. */
  function Updated(w: seq<real>, x: seq<real>, c: real): (r: seq<real>)
    requires |w| == |x|
    ensures |r| == |w|
  {
    seq(|w|, k requires 0 <= k < |w| => w[k] + c * x[k])
  }

  /** `adjustWeights`: copies the input column, scales it by
      rate * (desired - output), transposes it and adds it to the weights.
      An empty operand or a weight matrix not of the transposed input's order
      is refused by the scaling or the addition. */
  function AdjustWeights(weights: Matrix, inputMatrix: Matrix, learningRate: real, desOutput: real, output: real): (r: Result<Matrix>)
    requires weights.Valid() && inputMatrix.Valid()
    ensures r.Ok? <==> !weights.IsEmpty() && !inputMatrix.IsEmpty()
                       && weights.rows == inputMatrix.cols && weights.cols == inputMatrix.rows
    ensures weights.IsEmpty() || inputMatrix.IsEmpty() ==> r == Err(EmptyMatrix)
    ensures r.Ok? ==> r.value.Valid() && r.value.rows == weights.rows && r.value.cols == weights.cols
    ensures r.Ok? ==> forall i, j :: 0 <= i < weights.rows && 0 <= j < weights.cols ==>
              r.value.cells[i][j] == weights.cells[i][j] + Correction(learningRate, desOutput, output) * inputMatrix.cells[j][i]
  {
    var nTimesOutput := Correction(learningRate, desOutput, output);
    var tempMatrix := inputMatrix;
    var scaled :- Scale(tempMatrix, nTimesOutput);
    Add(weights, Transpose(scaled))
  }

  /** A correct output leaves the weights as they are. */
  lemma NoAdjustmentWhenCorrect(weights: Matrix, inputMatrix: Matrix, learningRate: real, output: real)
    requires weights.Valid() && inputMatrix.Valid()
    requires AdjustWeights(weights, inputMatrix, learningRate, output, output).Ok?
    ensures AdjustWeights(weights, inputMatrix, learningRate, output, output).value == weights
  {
    var r := AdjustWeights(weights, inputMatrix, learningRate, output, output).value;
    forall i | 0 <= i < weights.rows
      ensures r.cells[i] == weights.cells[i]
    {
      assert forall j :: 0 <= j < weights.cols ==> r.cells[i][j] == weights.cells[i][j];
    }
  }

  /** The arithmetic of one more sample in the weighted sum: if the updated
      sum so far is the old one shifted by c times the squares so far, adding
      the updated last term keeps that relation for the extended sums. */
  lemma UpdateStep(pu: real, pw: real, before: real, wl: real, xl: real, c: real,
                   puAll: real, pwAll: real, squaresAll: real)
    requires pu == pw + c * before
    requires puAll == pu + (wl + c * xl) * xl
    requires pwAll == pw + wl * xl && squaresAll == before + xl * xl
    ensures puAll == pwAll + c * squaresAll
  {
    calc {
      puAll;
      == pw + c * before + (wl * xl + (c * xl) * xl);
      == { assert (c * xl) * xl == c * (xl * xl); }
         pw + wl * xl + (c * before + c * (xl * xl));
      == { assert c * before + c * (xl * xl) == c * (before + xl * xl); }
         (pw + wl * xl) + c * (before + xl * xl);
    }
  }

  /** Updating a row and dropping its last weight commute. */
  lemma UpdatedPrefix(w: seq<real>, x: seq<real>, c: real)
    requires |w| == |x| && w != []
    ensures Updated(w, x, c)[..|w| - 1] == Updated(w[..|w| - 1], x[..|x| - 1], c)
  {
    forall i | 0 <= i < |w| - 1
      ensures Updated(w, x, c)[i] == Updated(w[..|w| - 1], x[..|x| - 1], c)[i]
    {
    }
  }

  /** The weighted sum of an updated row, split at its last term. */
  lemma UpdatedLastTerm(w: seq<real>, x: seq<real>, c: real)
    requires |w| == |x| && w != []
    ensures Statistics.ProductSum(Updated(w, x, c), x)
            == Statistics.ProductSum(Updated(w[..|w| - 1], x[..|x| - 1], c), x[..|x| - 1])
               + (w[|w| - 1] + c * x[|x| - 1]) * x[|x| - 1]
  {
    UpdatedPrefix(w, x, c);
  }

  /** One sample more: the shift relation for a row follows from the one for
      the row without its last weight. */
  lemma UpdatedWeightedSumStep(w: seq<real>, x: seq<real>, c: real)
    requires |w| == |x| && w != []
    requires Statistics.ProductSum(Updated(w[..|w| - 1], x[..|x| - 1], c), x[..|x| - 1])
             == Statistics.ProductSum(w[..|w| - 1], x[..|x| - 1]) + c * Statistics.SumOfSquares(x[..|x| - 1])
    ensures Statistics.ProductSum(Updated(w, x, c), x)
            == Statistics.ProductSum(w, x) + c * Statistics.SumOfSquares(x)
  {
    UpdatedLastTerm(w, x, c);
    UpdateStep(Statistics.ProductSum(Updated(w[..|w| - 1], x[..|x| - 1], c), x[..|x| - 1]),
               Statistics.ProductSum(w[..|w| - 1], x[..|x| - 1]), Statistics.SumOfSquares(x[..|x| - 1]),
               w[|w| - 1], x[|x| - 1], c,
               Statistics.ProductSum(Updated(w, x, c), x), Statistics.ProductSum(w, x), Statistics.SumOfSquares(x));
  }

  /** The perceptron rule shifts the weighted sum by c times the input's
      squared length. */
  lemma {:induction false} UpdatedWeightedSum(w: seq<real>, x: seq<real>, c: real)
    requires |w| == |x|
    ensures Statistics.ProductSum(Updated(w, x, c), x)
            == Statistics.ProductSum(w, x) + c * Statistics.SumOfSquares(x)
  {
    if w != [] {
      UpdatedWeightedSum(w[..|w| - 1], x[..|x| - 1], c);
      UpdatedWeightedSumStep(w, x, c);
    } else {
      assert Updated(w, x, c) == [];
      assert Statistics.SumOfSquares(x) == 0.0;
      assert c * 0.0 == 0.0;
    }
  }

  /** The rule's shift has the sign of desired - output: a positive rate never
      moves the output away from the desired value. */
  lemma {:induction false} AdjustmentMovesTowardDesired(w: seq<real>, x: seq<real>, learningRate: real, desOutput: real, output: real)
    requires |w| == |x| && learningRate > 0.0
    ensures (Statistics.ProductSum(Updated(w, x, Correction(learningRate, desOutput, output)), x)
             - Statistics.ProductSum(w, x)) * (desOutput - output) >= 0.0
  {
    var e := desOutput - output;
    var squares := Statistics.SumOfSquares(x);
    var c := Correction(learningRate, desOutput, output);
    UpdatedWeightedSum(w, x, c);
    assert Statistics.ProductSum(Updated(w, x, c), x) - Statistics.ProductSum(w, x) == c * squares;
    assert c == learningRate * e;
    Statistics.SumOfSquaresNonNegative(x);
    ShiftSign(learningRate, e, squares);
  }

  /** (r e s) e >= 0 for non-negative r and s. */
  lemma ShiftSign(r: real, e: real, s: real)
    requires r >= 0.0 && s >= 0.0
    ensures (r * e * s) * e >= 0.0
  {
    Statistics.SquareSign(e, e * e);
    calc {
      (r * e * s) * e;
      == r * ((e * s) * e);
      == r * (s * (e * e));
    }
    NonNegativeProduct(s, e * e);
    NonNegativeProduct(r, s * (e * e));
  }

  /** The product of two non-negative reals is non-negative. */
  lemma NonNegativeProduct(a: real, b: real)
    requires a >= 0.0 && b >= 0.0
    ensures a * b >= 0.0
  {
  }

  // ---------------------------------------------------------------- one epoch

  /** The weights, the outputs so far and the running error of an epoch. */
  datatype EpochState = EpochState(weights: Matrix, outputs: Matrix, runningError: real)

  /** The weight row as a plain list: row 0 of the weight matrix. */
  function WeightRow(weights: Matrix): seq<real>
    requires weights.Valid() && weights.rows > 0
  {
    weights.cells[0]
  }

  /** A sample column from a list of values; an empty list cannot be filled. */
  function InputMatrix(values: seq<real>): (r: Result<Matrix>)
    ensures r.Ok? <==> values != []
    ensures r.Err? ==> r.error == EmptyValueList
    ensures r.Ok? ==> r.value.Valid() && r.value.rows == |values| && r.value.cols == 1
    ensures r.Ok? ==> forall i :: 0 <= i < |values| ==> r.value.cells[i][0] == values[i]
  {
    FillColumn(Create(|values|, 1), 0, values)
  }

  /** The product's single cell is the weighted sum of the sample. */
  lemma {:induction false} DotIsWeightedSum(weights: Matrix, inputMatrix: Matrix, x: seq<real>, n: nat)
    requires weights.Valid() && inputMatrix.Valid() && weights.rows > 0 && inputMatrix.cols > 0
    requires n <= weights.cols && n <= inputMatrix.rows && n <= |x|
    requires forall i :: 0 <= i < n ==> inputMatrix.cells[i][0] == x[i]
    ensures Dot(weights, inputMatrix, 0, 0, n) == Statistics.ProductSum(weights.cells[0][..n], x[..n])
  {
    if n > 0 {
      DotIsWeightedSum(weights, inputMatrix, x, n - 1);
      assert weights.cells[0][..n][..n - 1] == weights.cells[0][..n - 1];
      assert x[..n][..n - 1] == x[..n - 1];
    }
  }

  /** The desired output differs from the sign of the output. */
  predicate Misclassified(desOutput: real, output: real) {
    desOutput != Sign(output)
  }

  /** The perceptron output for one sample: the single cell of the weight
      row times the sample column, which is the weighted sum of the sample. */
  function Output(weights: Matrix, inputMatrix: Matrix, x: seq<real>): (r: Result<real>)
    requires weights.Valid() && inputMatrix.Valid() && inputMatrix.cols == 1 && inputMatrix.rows == |x|
    requires forall i :: 0 <= i < |x| ==> inputMatrix.cells[i][0] == x[i]
    ensures r.Ok? <==> !weights.IsEmpty() && x != [] && weights.cols == |x|
    ensures weights.IsEmpty() || x == [] ==> r == Err(EmptyMatrix)
    ensures r.Ok? ==> r.value == Statistics.ProductSum(WeightRow(weights), x)
  {
    var product :- Multiply(weights, inputMatrix, false);
    DotIsWeightedSum(weights, inputMatrix, x, |x|);
    assert weights.cells[0][..|x|] == weights.cells[0];
    assert x[..|x|] == x;
    Get(product, 0, 0)
  }

  /** The weight row after `adjustWeights` on a 1 x A weight matrix is the
      perceptron rule w + rate * (desired - output) * x. */
  lemma AdjustedRow(weights: Matrix, inputMatrix: Matrix, x: seq<real>, learningRate: real, desOutput: real, output: real)
    requires weights.Valid() && inputMatrix.Valid() && inputMatrix.cols == 1 && inputMatrix.rows == |x|
    requires forall i :: 0 <= i < |x| ==> inputMatrix.cells[i][0] == x[i]
    requires AdjustWeights(weights, inputMatrix, learningRate, desOutput, output).Ok?
    ensures WeightRow(AdjustWeights(weights, inputMatrix, learningRate, desOutput, output).value)
            == Updated(WeightRow(weights), x, Correction(learningRate, desOutput, output))
  {
    var adjusted := AdjustWeights(weights, inputMatrix, learningRate, desOutput, output).value;
    var c := Correction(learningRate, desOutput, output);
    forall j | 0 <= j < |x|
      ensures WeightRow(adjusted)[j] == Updated(WeightRow(weights), x, c)[j]
    {
      assert adjusted.cells[0][j] == weights.cells[0][j] + c * inputMatrix.cells[j][0];
      Statistics.ScaleEqual(c, inputMatrix.cells[j][0], x[j]);
    }
  }

  /** One pass of the training loop for sample k: read the desired output,
      multiply the weights by the sample column, record the output in row k,
      and on a misclassification adjust the weights and add the error. */
  function Step(net: Network, st: EpochState, k: nat): (r: Result<EpochState>)
    requires st.weights.Valid() && st.outputs.Valid() && k < |net.inputs|
    ensures k >= |net.desired| ==> r == Err(ValueOutOfRange)
    ensures k < |net.desired| && net.inputs[k] == [] ==> r == Err(EmptyValueList)
    ensures (k < |net.desired| && net.inputs[k] != [] && st.weights.rows == 1 && st.weights.cols == |net.inputs[k]|
             && k < st.outputs.rows && st.outputs.cols > 0) ==> r.Ok?
    ensures r.Ok? ==> k < |net.desired| && st.weights.rows > 0 && st.weights.cols == |net.inputs[k]|
    ensures r.Ok? ==> r.value.weights.Valid() && r.value.outputs.Valid()
    ensures r.Ok? ==> r.value.weights.rows == st.weights.rows && r.value.weights.cols == st.weights.cols
    ensures r.Ok? ==> r.value.outputs.rows == st.outputs.rows && r.value.outputs.cols == st.outputs.cols
    ensures r.Ok? ==> k < st.outputs.rows && st.outputs.cols > 0
                      && r.value.outputs.cells[k][0] == Statistics.ProductSum(WeightRow(st.weights), net.inputs[k])
    ensures r.Ok? ==> forall i, j :: 0 <= i < st.outputs.rows && 0 <= j < st.outputs.cols && (i != k || j != 0) ==>
              r.value.outputs.cells[i][j] == st.outputs.cells[i][j]
  {
    var desOutput :- if k < |net.desired| then Ok(net.desired[k]) else Err(ValueOutOfRange);
    var inputMatrix :- InputMatrix(net.inputs[k]);
    var output :- Output(st.weights, inputMatrix, net.inputs[k]);
    var outputs :- Set(st.outputs, k, 0, output);
    if Misclassified(desOutput, output) then
      var weights :- AdjustWeights(st.weights, inputMatrix, net.learningRate, desOutput, output);
      Ok(EpochState(weights, outputs, st.runningError + CurrentError(desOutput, output)))
    else
      Ok(EpochState(st.weights, outputs, st.runningError))
  }

  /** A successful step changes the weights by the perceptron rule and adds
      the error exactly when it misclassifies its sample. */
  lemma StepRule(net: Network, st: EpochState, k: nat)
    requires st.weights.Valid() && st.outputs.Valid() && k < |net.inputs|
    requires Step(net, st, k).Ok?
    ensures StepEffect(net, st, k, Step(net, st, k).value)
  {
    var x := net.inputs[k];
    var inputMatrix := InputMatrix(x).value;
    var output := Output(st.weights, inputMatrix, x).value;
    var next := Step(net, st, k).value;
    assert next.outputs.cells[k][0] == output;
    if Misclassified(net.desired[k], output) {
      AdjustedRow(st.weights, inputMatrix, x, net.learningRate, net.desired[k], output);
      assert next.weights == AdjustWeights(st.weights, inputMatrix, net.learningRate, net.desired[k], output).value;
    }
  }

  /** What a successful step does to the weights and the running error, with
      o the output it recorded for sample k: unchanged when sample k is
      classified correctly, else the perceptron rule and the added error. */
  predicate StepEffect(net: Network, st: EpochState, k: nat, next: EpochState)
    requires st.weights.Valid() && next.weights.Valid() && next.outputs.Valid()
    requires k < |net.inputs| && k < |net.desired| && k < next.outputs.rows && next.outputs.cols > 0
    requires st.weights.rows > 0 && next.weights.rows > 0 && st.weights.cols == |net.inputs[k]|
  {
    var o := next.outputs.cells[k][0];
    if Misclassified(net.desired[k], o) then
      && WeightRow(next.weights) == Updated(WeightRow(st.weights), net.inputs[k], Correction(net.learningRate, net.desired[k], o))
      && next.runningError == st.runningError + CurrentError(net.desired[k], o)
    else
      next.weights == st.weights && next.runningError == st.runningError
  }

  /** The state an epoch starts from: the network's weights and outputs, no error. */
  function Start(net: Network): EpochState {
    EpochState(net.weights, net.outputs, 0.0)
  }

  /** A run of the training loop over the first |trace| - 1 samples: it starts
      from the network's state, and each state is the step from the one
      before. */
  predicate IsTrace(net: Network, trace: seq<EpochState>) {
    && net.WellFormed()
    && 1 <= |trace| <= |net.inputs| + 1
    && |trace| - 1 <= |net.desired| && |trace| - 1 <= net.outputs.rows
    && (|trace| > 1 ==> net.outputs.cols > 0 && net.weights.rows > 0)
    && trace[0] == Start(net)
    && (forall k :: 0 <= k < |trace| ==> Shaped(net, trace[k]))
    && (forall k :: 0 <= k < |trace| - 1 ==> |net.inputs[k]| == net.weights.cols)
    && (forall k :: 0 <= k < |trace| - 1 ==> Step(net, trace[k], k) == Ok(trace[k + 1]))
  }

  /** A state whose matrices have the order of the network's. */
  predicate Shaped(net: Network, st: EpochState) {
    && st.weights.Valid() && st.outputs.Valid()
    && st.weights.rows == net.weights.rows && st.weights.cols == net.weights.cols
    && st.outputs.rows == net.outputs.rows && st.outputs.cols == net.outputs.cols
  }

  /** The training loop over the first n samples, keeping every intermediate
      state; a failing step ends the epoch with its error. */
  function EpochTrace(net: Network, n: nat): (r: Result<seq<EpochState>>)
    requires net.WellFormed() && n <= |net.inputs|
    ensures r.Ok? ==> |r.value| == n + 1 && IsTrace(net, r.value)
  {
    if n == 0 then Ok([Start(net)])
    else
      var trace :- EpochTrace(net, n - 1);
      var next :- Step(net, trace[n - 1], n - 1);
      TraceExtends(net, trace, next);
      Ok(trace + [next])
  }

  /** A run extended by the step from its last state is a run. */
  lemma TraceExtends(net: Network, trace: seq<EpochState>, next: EpochState)
    requires IsTrace(net, trace) && |trace| <= |net.inputs|
    requires Step(net, trace[|trace| - 1], |trace| - 1) == Ok(next)
    ensures IsTrace(net, trace + [next])
  {
    var extended := trace + [next];
    assert forall k :: 0 <= k < |trace| ==> extended[k] == trace[k];
    assert extended[|trace|] == next;
  }

  /** Dropping the last state of a run leaves a run. */
  lemma TracePrefix(net: Network, trace: seq<EpochState>, m: nat)
    requires IsTrace(net, trace) && 1 <= m <= |trace|
    ensures IsTrace(net, trace[..m])
  {
  }

  /** Once sample k's step has run, later steps keep output k. */
  lemma {:induction false} OutputKept(net: Network, trace: seq<EpochState>, k: nat, j: nat)
    requires IsTrace(net, trace) && k < j < |trace|
    ensures trace[j].outputs.cells[k][0] == trace[k + 1].outputs.cells[k][0]
  {
    if j > k + 1 {
      OutputKept(net, trace, k, j - 1);
      assert Step(net, trace[j - 1], j - 1) == Ok(trace[j]);
    }
  }

  /** At the end of a run, output k is the weighted sum of sample k with the
      weights as they stood when sample k was reached: after the corrections
      made for the samples before it. */
  lemma EpochOutputs(net: Network, trace: seq<EpochState>, k: nat)
    requires IsTrace(net, trace) && k < |trace| - 1
    ensures trace[|trace| - 1].outputs.cells[k][0]
            == Statistics.ProductSum(WeightRow(trace[k].weights), net.inputs[k])
  {
    OutputKept(net, trace, k, |trace| - 1);
    assert Step(net, trace[k], k) == Ok(trace[k + 1]);
  }

  /** The running error never decreases along a run and is never negative. */
  lemma {:induction false} RunningErrorGrows(net: Network, trace: seq<EpochState>, i: nat, j: nat)
    requires IsTrace(net, trace) && i <= j < |trace|
    ensures 0.0 <= trace[i].runningError <= trace[j].runningError
    decreases j
  {
    if j > 0 {
      RunningErrorGrows(net, trace, if i < j then i else j - 1, j - 1);
      StepError(net, trace, j);
    }
  }

  /** Step j of a run never lowers the running error, and raises it exactly
      when it added error. */
  lemma StepError(net: Network, trace: seq<EpochState>, j: nat)
    requires IsTrace(net, trace) && 0 < j < |trace|
    ensures trace[j - 1].runningError <= trace[j].runningError
    ensures trace[j - 1].runningError < trace[j].runningError <==> AddedError(net, trace, j - 1)
  {
    assert Step(net, trace[j - 1], j - 1) == Ok(trace[j]);
    StepRule(net, trace[j - 1], j - 1);
    CurrentErrorSign(net.desired[j - 1], trace[j].outputs.cells[j - 1][0]);
  }

  /** Sample k was misclassified and its output was not the desired value, so
      its correction added a positive error. */
  predicate AddedError(net: Network, trace: seq<EpochState>, k: nat)
    requires IsTrace(net, trace) && k < |trace| - 1
  {
    var out := trace[k + 1].outputs.cells[k][0];
    Misclassified(net.desired[k], out) && net.desired[k] != out
  }

  /** The running error at the end of a run is positive exactly when some
      sample added error. */
  lemma {:induction false} RunningErrorPositive(net: Network, trace: seq<EpochState>)
    requires IsTrace(net, trace)
    ensures trace[|trace| - 1].runningError > 0.0 <==> exists k :: 0 <= k < |trace| - 1 && AddedError(net, trace, k)
  {
    var n := |trace| - 1;
    if n > 0 {
      var before := trace[..n];
      TracePrefix(net, trace, n);
      RunningErrorPositive(net, before);
      RunningErrorGrows(net, trace, n - 1, n - 1);
      StepError(net, trace, n);
      assert trace[n].runningError > 0.0 <==> trace[n - 1].runningError > 0.0 || AddedError(net, trace, n - 1);
      assert forall k :: 0 <= k < n - 1 ==> AddedError(net, before, k) == AddedError(net, trace, k);
      if AddedError(net, trace, n - 1) {
        assert 0 <= n - 1 < n && AddedError(net, trace, n - 1);
      } else {
        assert (exists k :: 0 <= k < n && AddedError(net, trace, k))
               <==> (exists k :: 0 <= k < n - 1 && AddedError(net, trace, k));
      }
    }
  }

  /** `trainSingularPerceptron`, one epoch: the network with the new weights
      and outputs, and whether the source starts another epoch (a positive
      running error). */
  function TrainEpoch(net: Network): (r: Result<(Network, bool)>)
    requires net.WellFormed()
    ensures r.Ok? <==> EpochTrace(net, |net.inputs|).Ok?
    ensures r.Ok? ==> r.value.0.WellFormed() && r.value.0.inputs == net.inputs && r.value.0.desired == net.desired
    ensures r.Ok? ==> r.value.0.learningRate == net.learningRate
    ensures r.Ok? ==> r.value.0.weights.rows == net.weights.rows && r.value.0.weights.cols == net.weights.cols
    ensures r.Ok? ==> var last := EpochTrace(net, |net.inputs|).value[|net.inputs|];
                      r.value.0.weights == last.weights && r.value.0.outputs == last.outputs
    ensures r.Ok? ==> (r.value.1 <==> exists k :: 0 <= k < |net.inputs|
                                          && AddedError(net, EpochTrace(net, |net.inputs|).value, k))
  {
    var trace :- EpochTrace(net, |net.inputs|);
    var last := trace[|net.inputs|];
    RunningErrorPositive(net, trace);
    Ok((Network(last.weights, last.outputs, net.learningRate, net.inputs, net.desired), last.runningError > 0.0))
  }

  /** With desired outputs of 1 and -1, a misclassified output is never the
      desired value, so another epoch follows exactly when some sample was
      misclassified. */
  lemma SignLabelsRetrainIffMisclassified(net: Network)
    requires net.WellFormed() && TrainEpoch(net).Ok?
    requires forall k :: 0 <= k < |net.desired| ==> net.desired[k] == 1.0 || net.desired[k] == -1.0
    ensures TrainEpoch(net).value.1 <==>
              exists k :: 0 <= k < |net.inputs|
                          && Misclassified(net.desired[k], EpochTrace(net, |net.inputs|).value[k + 1].outputs.cells[k][0])
  {
    var trace := EpochTrace(net, |net.inputs|).value;
    forall k | 0 <= k < |net.inputs|
      ensures AddedError(net, trace, k) == Misclassified(net.desired[k], trace[k + 1].outputs.cells[k][0])
    {
    }
  }
}

=== FILE: statistics.dfy ===
/** Scalar statistics over flat value lists: mean, variance, standard deviation,
    covariance, the correlation coefficient and a simple linear regression.
    Every function guards its divisions with the source's own "only if > 0"
    tests and falls back to 0 (or to the undivided sum) when they fail. */
module Statistics {
  import opened Errors

  /** What the library needs of `Math.sqrt`: zero at zero and strictly
      increasing on the non-negative reals. */
  ghost predicate IsSquareRoot(sqrt: real -> real) {
    && sqrt(0.0) == 0.0
    && forall x: real, y: real :: 0.0 <= x < y ==> sqrt(x) < sqrt(y)
  }

  // ---------------------------------------------------------------- sums

  // Each sum is a recursive accumulator under a closed (non-recursive) name;
  // the closed name is what contracts mention, so a product of two sums is the
  // same term wherever it occurs.

  /** The accumulator loop of `sumOfListDouble`. */
  function Accumulated(xs: seq<real>): real {
    if xs == [] then 0.0 else Accumulated(xs[..|xs| - 1]) + xs[|xs| - 1]
  }

  /** `sumOfListDouble`: the values added left to right. */
  function Sum(xs: seq<real>): real {
    Accumulated(xs)
  }

  /** `sumOfListInteger`: integer values added into a double accumulator. */
  function SumOfInts(xs: seq<int>): real {
    if xs == [] then 0.0 else SumOfInts(xs[..|xs| - 1]) + (xs[|xs| - 1] as real)
  }

  /** The accumulator loop of `sumOfXtimesY`. */
  function AccumulatedProducts(xs: seq<real>, ys: seq<real>): real
    requires |xs| == |ys|
  {
    if xs == [] then 0.0
    else AccumulatedProducts(xs[..|xs| - 1], ys[..|xs| - 1]) + xs[|xs| - 1] * ys[|xs| - 1]
  }

  /** `sumOfXtimesY` without its size check: the products of paired values, summed. */
  function ProductSum(xs: seq<real>, ys: seq<real>): real
    requires |xs| == |ys|
  {
    AccumulatedProducts(xs, ys)
  }

  /** `sumOfXtimesY`: lists of unequal length are refused. */
  function SumOfXTimesY(xs: seq<real>, ys: seq<real>): (r: Result<real>)
    ensures r.Ok? <==> |xs| == |ys|
    ensures r.Err? ==> r.error == ListSizeMismatch
    ensures r.Ok? ==> r.value == ProductSum(xs, ys)
  {
    (:- ListSizesEqual(xs, ys);
    Ok(ProductSum(xs, ys)))
  }

  /** The accumulator loop of `sumOfVariableToPowerOf2`. */
  function AccumulatedSquares(xs: seq<real>): real
  {
    if xs == [] then 0.0
    else AccumulatedSquares(xs[..|xs| - 1]) + xs[|xs| - 1] * xs[|xs| - 1]
  }

  /** `sumOfVariableToPowerOf2`: the squares of the values, summed. */
  function SumOfSquares(xs: seq<real>): real
  {
    AccumulatedSquares(xs)
  }

  /** A square is never negative and is zero only at zero. */
  lemma SquareSign(d: real, s: real)
    requires s == d * d
    ensures s >= 0.0
    ensures s == 0.0 <==> d == 0.0
  {
    if d != 0.0 {
      calc {
        s;
        == d * d;
        > 0.0;
      }
    } else {
      calc {
        s;
        == d * d;
        == 0.0 * 0.0;
        == 0.0;
      }
    }
  }

  /** Squared deviations from a given centre, summed left to right. */
  function SquaredDeviations(xs: seq<real>, centre: real): real
  {
    if xs == [] then 0.0
    else
      var d := xs[|xs| - 1] - centre;
      SquaredDeviations(xs[..|xs| - 1], centre) + d * d
  }

  /** Squared deviations are never negative. */
  lemma {:induction false} SquaredDeviationsNonNegative(xs: seq<real>, centre: real)
    ensures SquaredDeviations(xs, centre) >= 0.0
  {
    if xs != [] {
      var init := xs[..|xs| - 1];
      var d := xs[|xs| - 1] - centre;
      SquaredDeviationsNonNegative(init, centre);
      SquareSign(d, d * d);
    }
  }

  /** A sum of squares is never negative. */
  lemma {:induction false} SumOfSquaresNonNegative(xs: seq<real>)
    ensures SumOfSquares(xs) >= 0.0
  {
    if xs != [] {
      var x := xs[|xs| - 1];
      SumOfSquaresNonNegative(xs[..|xs| - 1]);
      SquareSign(x, x * x);
    }
  }

  /** Products of paired deviations from two centres, summed left to right. */
  function CrossDeviations(xs: seq<real>, ys: seq<real>, cx: real, cy: real): real
    requires |xs| == |ys|
  {
    if xs == [] then 0.0
    else CrossDeviations(xs[..|xs| - 1], ys[..|ys| - 1], cx, cy)
         + (xs[|xs| - 1] - cx) * (ys[|ys| - 1] - cy)
  }

  /** Paired with itself, a list's cross deviations are its squared deviations. */
  lemma {:induction false} CrossDeviationsWithItself(xs: seq<real>, c: real)
    ensures CrossDeviations(xs, xs, c, c) == SquaredDeviations(xs, c)
  {
    if xs != [] {
      CrossDeviationsWithItself(xs[..|xs| - 1], c);
    }
  }

  /** Cross deviations do not depend on which list comes first. */
  lemma {:induction false} CrossDeviationsSymmetric(xs: seq<real>, ys: seq<real>, cx: real, cy: real)
    requires |xs| == |ys|
    ensures CrossDeviations(xs, ys, cx, cy) == CrossDeviations(ys, xs, cy, cx)
  {
    if xs != [] {
      CrossDeviationsSymmetric(xs[..|xs| - 1], ys[..|ys| - 1], cx, cy);
    }
  }

  // ---------------------------------------------------------------- mean

  /** `calculateMeanDouble`: the sum divided by the count, but only when the sum
      is positive; otherwise the raw sum itself (0 for an empty list, the
      negative sum for a list that sums below zero). */
  function Mean(xs: seq<real>): (r: real)
    ensures r > 0.0 <==> Sum(xs) > 0.0
    ensures Sum(xs) > 0.0 ==> |xs| > 0 && r * (|xs| as real) == Sum(xs)
    ensures Sum(xs) <= 0.0 ==> r == Sum(xs)
  {
    var s := Sum(xs);
    if s > 0.0 then
      assert xs != [];
      s / (|xs| as real)
    else
      s
  }

  /** `calculateMeanInteger`: the same convention over an integer list. */
  function MeanOfInts(xs: seq<int>): (r: real)
    ensures r > 0.0 <==> SumOfInts(xs) > 0.0
    ensures SumOfInts(xs) > 0.0 ==> |xs| > 0 && r * (|xs| as real) == SumOfInts(xs)
    ensures SumOfInts(xs) <= 0.0 ==> r == SumOfInts(xs)
  {
    var s := SumOfInts(xs);
    if s > 0.0 then
      assert xs != [];
      s / (|xs| as real)
    else
      s
  }

  /** A list holding v n times sums to n * v. */
  lemma {:induction false} SumOfConstant(xs: seq<real>, v: real)
    requires forall i :: 0 <= i < |xs| ==> xs[i] == v
    ensures Sum(xs) == (|xs| as real) * v
  {
    if xs != [] {
      SumOfConstant(xs[..|xs| - 1], v);
    }
  }

  /** The mean of a constant positive list is the constant; a constant
      non-positive list yields its raw sum, n * v, not v. */
  lemma MeanOfConstant(xs: seq<real>, v: real)
    requires xs != [] && forall i :: 0 <= i < |xs| ==> xs[i] == v
    ensures v > 0.0 ==> Mean(xs) == v
    ensures v <= 0.0 ==> Mean(xs) == (|xs| as real) * v
  {
    SumOfConstant(xs, v);
    var n := |xs| as real;
    assert n >= 1.0;
    if v > 0.0 {
      assert n * v > 0.0;
      assert Mean(xs) * n == n * v;
      CancelFactor(Mean(xs), v, n);
    } else {
      assert n * v <= 0.0;
    }
  }

  /** Two values with the same non-zero multiple are equal. */
  lemma CancelFactor(a: real, b: real, n: real)
    requires n != 0.0 && a * n == b * n
    ensures a == b
  {
    assert (a - b) * n == 0.0;
  }

  /** The mean of a single value is that value, whatever its sign. */
  lemma MeanOfOne(x: real)
    ensures Mean([x]) == x
  {
    assert [x][..0] == [];
    assert Accumulated([x]) == x;
  }

  // ---------------------------------------------------------------- variance and deviation

  /** `calculateVariance(values, mean)`: 0 unless the given mean is positive;
      then the squared deviations from that mean, divided by n - 1 when their
      sum is positive. For a single value that division is by zero, which the
      source turns into +Infinity. */
  function Variance(xs: seq<real>, mean: real): (r: Result<real>)
    ensures r.Err? <==> mean > 0.0 && |xs| == 1 && xs[0] != mean
    ensures r.Err? ==> r.error == NonFinite
    ensures r.Ok? ==> r.value >= 0.0
    ensures mean <= 0.0 ==> r == Ok(0.0)
    ensures r.Ok? && mean > 0.0 && |xs| >= 2 ==>
              r.value * ((|xs| - 1) as real) == SquaredDeviations(xs, mean)
    ensures mean > 0.0 && SquaredDeviations(xs, mean) == 0.0 ==> r == Ok(0.0)
    ensures r.Ok? && |xs| <= 1 ==> r.value == 0.0
  {
    if mean > 0.0 then
      var s := SquaredDeviations(xs, mean);
      SquaredDeviationsNonNegative(xs, mean);
      if s > 0.0 then
        if |xs| == 1 then
          assert xs[0] != mean by {
            SquaredDeviationsOfOne(xs, mean);
          }
          Err(NonFinite)
        else
          assert xs != [];
          Ok(s / ((|xs| - 1) as real))
      else
        assert |xs| == 1 ==> xs[0] == mean by {
          if |xs| == 1 {
            SquaredDeviationsOfOne(xs, mean);
          }
        }
        Ok(s)
    else
      Ok(0.0)
  }

  /** A single value deviates from c exactly when it differs from c. */
  lemma SquaredDeviationsOfOne(xs: seq<real>, c: real)
    requires |xs| == 1
    ensures SquaredDeviations(xs, c) == (xs[0] - c) * (xs[0] - c)
    ensures SquaredDeviations(xs, c) == 0.0 <==> xs[0] == c
  {
    var d := xs[0] - c;
    calc {
      SquaredDeviations(xs, c);
      == SquaredDeviations(xs[..0], c) + d * d;
      == { assert xs[..0] == []; }
      d * d;
    }
    SquareSign(d, SquaredDeviations(xs, c));
  }

  /** Every list has no squared deviation from a value it consists of. */
  lemma {:induction false} NoDeviationFromConstant(xs: seq<real>, v: real)
    requires forall i :: 0 <= i < |xs| ==> xs[i] == v
    ensures SquaredDeviations(xs, v) == 0.0
  {
    if xs != [] {
      NoDeviationFromConstant(xs[..|xs| - 1], v);
    }
  }

  /** Measured from its own mean, a list's variance is always finite, and a
      constant list has variance 0. */
  lemma VarianceAtOwnMean(xs: seq<real>)
    ensures Variance(xs, Mean(xs)).Ok?
    ensures (forall i :: 0 <= i < |xs| ==> xs[i] == xs[0]) ==> Variance(xs, Mean(xs)) == Ok(0.0)
  {
    if |xs| == 1 {
      MeanOfOne(xs[0]);
      assert xs == [xs[0]];
    }
    if xs != [] && forall i :: 0 <= i < |xs| ==> xs[i] == xs[0] {
      MeanOfConstant(xs, xs[0]);
      if xs[0] > 0.0 {
        NoDeviationFromConstant(xs, xs[0]);
      }
    }
  }

  /** `calculateStdDev`: the square root of a positive variance, else 0. */
  function StdDev(variance: real, sqrt: real -> real): (r: real)
    ensures variance <= 0.0 ==> r == 0.0
    ensures IsSquareRoot(sqrt) ==> r >= 0.0 && (r > 0.0 <==> variance > 0.0)
  {
    if variance > 0.0 then sqrt(variance) else 0.0
  }

  /** `calculateK1`: the standard deviation over the variance when both are
      positive, else 0. */
  function K1(totVariance: real, totStdDev: real): (r: real)
    ensures r >= 0.0
    ensures r > 0.0 <==> totVariance > 0.0 && totStdDev > 0.0
    ensures r > 0.0 ==> r * totVariance == totStdDev
  {
    if totVariance > 0.0 && totStdDev > 0.0 then totStdDev / totVariance else 0.0
  }

  // ---------------------------------------------------------------- covariance and correlation

  /** A single pair has no cross deviation from its own means. */
  lemma OnePairHasNoCrossDeviation(xs: seq<real>, ys: seq<real>)
    requires |xs| == |ys| == 1
    ensures CrossDeviations(xs, ys, Mean(xs), Mean(ys)) == 0.0
  {
    assert xs == [xs[0]] && ys == [ys[0]];
    MeanOfOne(xs[0]);
    MeanOfOne(ys[0]);
    assert xs[..0] == [] && ys[..0] == [];
  }

  /** `calculateCoVariance`: unequal lists are refused; the cross deviations
      from the two means are divided by n - 1 only when their sum is positive,
      and a non-positive sum is returned undivided. */
  function CoVariance(xs: seq<real>, ys: seq<real>): (r: Result<real>)
    ensures r.Ok? <==> |xs| == |ys|
    ensures r.Err? ==> r.error == ListSizeMismatch
    ensures r.Ok? ==> (r.value > 0.0 <==> CrossDeviations(xs, ys, Mean(xs), Mean(ys)) > 0.0)
    ensures r.Ok? && r.value > 0.0 ==>
              |xs| >= 2 && r.value * ((|xs| - 1) as real) == CrossDeviations(xs, ys, Mean(xs), Mean(ys))
    ensures r.Ok? && r.value <= 0.0 ==> r.value == CrossDeviations(xs, ys, Mean(xs), Mean(ys))
  {
    (:- ListSizesEqual(xs, ys);
    var s := CrossDeviations(xs, ys, Mean(xs), Mean(ys));
    if s > 0.0 then
      assert |xs| >= 2 by {
        if |xs| == 1 { OnePairHasNoCrossDeviation(xs, ys); }
      }
      Ok(s / ((|xs| - 1) as real))
    else
      Ok(s))
  }

  /** Covariance is symmetric, and a list's covariance with itself is its
      variance whenever its mean is positive (otherwise the variance is forced
      to 0 while the covariance keeps the undivided sum). */
  lemma CoVarianceSymmetryAndDiagonal(xs: seq<real>, ys: seq<real>)
    requires |xs| == |ys|
    ensures CoVariance(xs, ys) == CoVariance(ys, xs)
    ensures Mean(xs) > 0.0 ==> CoVariance(xs, xs) == Variance(xs, Mean(xs))
  {
    CrossDeviationsSymmetric(xs, ys, Mean(xs), Mean(ys));
    CrossDeviationsWithItself(xs, Mean(xs));
    VarianceAtOwnMean(xs);
  }

  /** The product of the standard deviations of two lists, each about its own
      mean: the denominator of the correlation coefficient. */
  function StdDevProduct(xs: seq<real>, ys: seq<real>, sqrt: real -> real): (p: real)
    ensures IsSquareRoot(sqrt) ==> p >= 0.0
    ensures Mean(xs) <= 0.0 || Mean(ys) <= 0.0 ==> p == 0.0
  {
    VarianceAtOwnMean(xs);
    VarianceAtOwnMean(ys);
    StdDev(Variance(xs, Mean(xs)).value, sqrt) * StdDev(Variance(ys, Mean(ys)).value, sqrt)
  }

  /** v is the correlation for covariance cov and standard deviation product
      multi: a positive value that multi scales back to cov when both are
      positive, and 0 otherwise. */
  predicate IsCorrelation(cov: real, multi: real, v: real) {
    && (cov > 0.0 && multi > 0.0 ==> v > 0.0 && v * multi == cov)
    && (!(cov > 0.0 && multi > 0.0) ==> v == 0.0)
  }

  /** The guarded division of `calculateCorrelationCoefficient`. */
  function CorrelationQuotient(cov: real, multi: real): (v: real)
    ensures IsCorrelation(cov, multi, v)
    ensures v >= 0.0
  {
    if cov > 0.0 && multi > 0.0 then
      PositiveQuotient(cov, multi);
      cov / multi
    else
      0.0
  }

  /** `calculateCorrelationCoefficient`: unequal lists are refused; the
      covariance over the product of the two standard deviations when both are
      positive, else 0. */
  function Correlation(xs: seq<real>, ys: seq<real>, sqrt: real -> real): (r: Result<real>)
    ensures r.Ok? <==> |xs| == |ys|
    ensures r.Err? ==> r.error == ListSizeMismatch
    ensures r.Ok? ==> CoVariance(xs, ys).Ok?
    ensures r.Ok? ==> IsCorrelation(CoVariance(xs, ys).value, StdDevProduct(xs, ys, sqrt), r.value)
    ensures r.Ok? ==> r.value >= 0.0
  {
    (:- ListSizesEqual(xs, ys);
    Ok(CorrelationQuotient(CoVariance(xs, ys).value, StdDevProduct(xs, ys, sqrt))))
  }

  /** The quotient of two positive values is positive and undone by the divisor. */
  lemma PositiveQuotient(a: real, b: real)
    requires a > 0.0 && b > 0.0
    ensures a / b > 0.0 && (a / b) * b == a
  {
  }

  /** A list whose mean is not positive has variance 0, hence standard
      deviation 0, so its correlation with anything is 0. */
  lemma CorrelationOfNonPositiveMean(xs: seq<real>, ys: seq<real>, sqrt: real -> real)
    requires |xs| == |ys| && Mean(xs) <= 0.0
    ensures Correlation(xs, ys, sqrt) == Ok(0.0)
  {
  }

  // ---------------------------------------------------------------- regression

  /** `calculateRegressionB`: unequal lists are refused; 0 unless the mean of x,
      the mean of y, the sum of x*y and the sum of x^2 are all positive; then
      (n * sum(xy) - meanX * meanY) / (n * sum(x^2) - meanX^2). The variables the
      source names "sum of x" and "sum of y" hold the means. The denominator is
      zero exactly for a single pair, where the source computes 0 / 0. */
  function RegressionB(xs: seq<real>, ys: seq<real>): (r: Result<real>)
    ensures |xs| != |ys| ==> r == Err(ListSizeMismatch)
    ensures |xs| == |ys| && !RegressionGuard(xs, ys) ==> r == Ok(0.0)
    ensures |xs| == |ys| && RegressionGuard(xs, ys) ==> (r.Err? <==> |xs| == 1)
    ensures r.Err? && |xs| == |ys| ==> r.error == NonFinite
    ensures r.Ok? && RegressionGuard(xs, ys) ==>
              var n := |xs| as real;
              r.value * (n * SumOfSquares(xs) - Mean(xs) * Mean(xs)) == n * ProductSum(xs, ys) - Mean(xs) * Mean(ys)
  {
    (:- ListSizesEqual(xs, ys);
    var n := |xs| as real;
    if RegressionGuard(xs, ys) then
      RegressionDenominator(xs);
      Quotient(n * ProductSum(xs, ys) - Mean(xs) * Mean(ys), n * SumOfSquares(xs) - Mean(xs) * Mean(xs))
    else
      Ok(0.0))
  }

  /** A Java double division whose divisor may be zero: 0 / 0 and x / 0 are
      not finite. */
  function Quotient(numerator: real, denominator: real): (r: Result<real>)
    ensures r.Err? <==> denominator == 0.0
    ensures r.Err? ==> r.error == NonFinite
    ensures r.Ok? ==> r.value * denominator == numerator
  {
    if denominator == 0.0 then Err(NonFinite)
    else
      DivideThenMultiply(numerator, denominator);
      Ok(numerator / denominator)
  }

  /** The four positivity tests that RegressionB applies before dividing. */
  predicate RegressionGuard(xs: seq<real>, ys: seq<real>)
    requires |xs| == |ys|
  {
    Mean(xs) > 0.0 && Mean(ys) > 0.0 && ProductSum(xs, ys) > 0.0 && SumOfSquares(xs) > 0.0
  }

  /** Division by a non-zero value is undone by multiplying by it. */
  lemma DivideThenMultiply(a: real, b: real)
    requires b != 0.0
    ensures (a / b) * b == a
  {
  }

  /** One step of SquaredDeviationsExpand: appending x to a list with count m,
      square sum q, sum t and deviation sum dev. */
  lemma ExpandStep(m: real, q: real, t: real, dev: real, x: real, c: real,
                   m2: real, q2: real, t2: real, dev2: real)
    requires dev == q - 2.0 * c * t + m * c * c
    requires m2 == m + 1.0 && q2 == q + x * x && t2 == t + x && dev2 == dev + (x - c) * (x - c)
    ensures dev2 == q2 - 2.0 * c * t2 + m2 * c * c
  {
  }

  /** One step of CountTimesSumOfSquares: appending a to a list with count m,
      square sum q and sum t that already satisfies the inequality. */
  lemma CauchySchwarzStep(m: real, q: real, t: real, a: real,
                          m2: real, q2: real, t2: real)
    requires m * q >= t * t
    requires q - 2.0 * a * t + m * a * a >= 0.0
    requires m2 == m + 1.0 && q2 == q + a * a && t2 == t + a
    ensures m2 * q2 >= t2 * t2
  {
    assert m2 * q2 - t2 * t2 == (m * q - t * t) + (q - 2.0 * a * t + m * a * a);
  }

  /** The squared deviations from c expand to sum(x^2) - 2c sum(x) + n c^2. */
  lemma {:induction false} SquaredDeviationsExpand(xs: seq<real>, c: real)
    ensures SquaredDeviations(xs, c) == SumOfSquares(xs) - 2.0 * c * Sum(xs) + (|xs| as real) * c * c
  {
    if xs != [] {
      var init, x := xs[..|xs| - 1], xs[|xs| - 1];
      SquaredDeviationsExpand(init, c);
      ExpandStep(|init| as real, SumOfSquares(init), Sum(init), SquaredDeviations(init, c), x, c,
                 |xs| as real, SumOfSquares(xs), Sum(xs), SquaredDeviations(xs, c));
    }
  }

  /** The expanded form of the squared deviations is never negative. */
  lemma ExpansionNonNegative(xs: seq<real>, c: real)
    ensures SumOfSquares(xs) - 2.0 * c * Sum(xs) + (|xs| as real) * c * c >= 0.0
  {
    SquaredDeviationsExpand(xs, c);
    SquaredDeviationsNonNegative(xs, c);
  }

  /** Cauchy-Schwarz for one list: n * sum(x^2) >= sum(x)^2. */
  lemma {:induction false} CountTimesSumOfSquares(xs: seq<real>)
    ensures (|xs| as real) * SumOfSquares(xs) >= Sum(xs) * Sum(xs)
  {
    if xs != [] {
      var init, a := xs[..|xs| - 1], xs[|xs| - 1];
      CountTimesSumOfSquares(init);
      ExpansionNonNegative(init, a);
      assert SumOfSquares(xs) == SumOfSquares(init) + a * a;
      assert Sum(xs) == Sum(init) + a;
      assert |xs| as real == |init| as real + 1.0;
      CauchySchwarzStep(|init| as real, SumOfSquares(init), Sum(init), a,
                        |xs| as real, SumOfSquares(xs), Sum(xs));
    } else {
      assert Sum(xs) == 0.0;
      assert (|xs| as real) * SumOfSquares(xs) == 0.0;
    }
  }

  /** Under the positivity tests, n * sum(x^2) - meanX^2 is zero for a single
      pair and positive for two or more. */
  lemma RegressionDenominator(xs: seq<real>)
    requires Mean(xs) > 0.0
    ensures var n := |xs| as real;
            |xs| == 1 <==> n * SumOfSquares(xs) - Mean(xs) * Mean(xs) == 0.0
  {
    if |xs| == 1 {
      OnePairDenominator(xs);
    } else {
      ManyPairsDenominator(xs);
    }
  }

  /** A single value x has n * sum(x^2) - mean^2 = x^2 - x^2 = 0. */
  lemma OnePairDenominator(xs: seq<real>)
    requires |xs| == 1
    ensures (|xs| as real) * SumOfSquares(xs) - Mean(xs) * Mean(xs) == 0.0
  {
    var x := xs[0];
    MeanOfOne(x);
    assert xs == [x];
    assert xs[..0] == [];
    assert AccumulatedSquares(xs) == x * x;
  }

  /** Two or more values of positive mean leave n * sum(x^2) above mean^2. */
  lemma ManyPairsDenominator(xs: seq<real>)
    requires |xs| >= 2 && Mean(xs) > 0.0
    ensures (|xs| as real) * SumOfSquares(xs) - Mean(xs) * Mean(xs) > 0.0
  {
    CountTimesSumOfSquares(xs);
    var n, squares, total, mean := |xs| as real, SumOfSquares(xs), Sum(xs), Mean(xs);
    assert total == mean * n;
    MultiplyStrict(n, 1.0, mean);
    MultiplyStrict(total, mean, total);
    MultiplyStrict(total, mean, mean);
    assert n * squares >= total * total;
  }

  /** Equal values scaled by the same factor stay equal. */
  lemma ScaleEqual(c: real, a: real, b: real)
    requires a == b
    ensures c * a == c * b
  {
  }

  /** Multiplying a strict inequality by a positive factor keeps it strict. */
  lemma MultiplyStrict(a: real, b: real, c: real)
    requires a > b && c > 0.0
    ensures a * c > b * c
  {
  }

  /** For the points (1, 3), (2, 5), (3, 7), which lie on y = 2x + 1, the slope
      comes out as 46/19 rather than 2, because the means stand in for the sums. */
  lemma RegressionSlopeOfExactLine()
    ensures RegressionB([1.0, 2.0, 3.0], [3.0, 5.0, 7.0]) == Ok(46.0 / 19.0)
  {
    var xs, ys := [1.0, 2.0, 3.0], [3.0, 5.0, 7.0];
    assert xs[..2] == [1.0, 2.0] && xs[..2][..1] == [1.0] && [1.0][..0] == [];
    assert ys[..2] == [3.0, 5.0] && ys[..2][..1] == [3.0] && [3.0][..0] == [];
    assert Accumulated([1.0]) == 1.0 && Accumulated([1.0, 2.0]) == 3.0 && Accumulated(xs) == 6.0;
    assert Accumulated([3.0]) == 3.0 && Accumulated([3.0, 5.0]) == 8.0 && Accumulated(ys) == 15.0;
    assert Mean(xs) == 2.0 && Mean(ys) == 5.0;
    assert AccumulatedProducts([1.0], [3.0]) == 3.0 && AccumulatedProducts([1.0, 2.0], [3.0, 5.0]) == 13.0;
    assert ProductSum(xs, ys) == 34.0;
    assert AccumulatedSquares([1.0]) == 1.0 && AccumulatedSquares([1.0, 2.0]) == 5.0;
    assert SumOfSquares(xs) == 14.0;
  }

  /** `calculateRegressionA`: unequal lists are refused; (meanY - b * meanX) / n
      when both means are positive, else 0. */
  function RegressionA(xs: seq<real>, ys: seq<real>, b: real): (r: Result<real>)
    ensures r.Ok? <==> |xs| == |ys|
    ensures r.Err? ==> r.error == ListSizeMismatch
    ensures r.Ok? && !(Mean(xs) > 0.0 && Mean(ys) > 0.0) ==> r.value == 0.0
    ensures r.Ok? && Mean(xs) > 0.0 && Mean(ys) > 0.0 ==>
              |xs| > 0 && r.value * (|xs| as real) == Mean(ys) - b * Mean(xs)
  {
    (:- ListSizesEqual(xs, ys);
    var meanX := Mean(xs);
    var meanY := Mean(ys);
    if meanX > 0.0 && meanY > 0.0 then Ok((meanY - b * meanX) / (|xs| as real)) else Ok(0.0))
  }

  /** p is the regression prediction at x for the given slope: slope * x,
      lifted by (meanY - slope * meanX) / n when both means are positive. */
  predicate OnRegressionLine(xs: seq<real>, ys: seq<real>, slope: real, x: real, p: real) {
    && (!(Mean(xs) > 0.0 && Mean(ys) > 0.0) ==> p == slope * x)
    && (Mean(xs) > 0.0 && Mean(ys) > 0.0 ==>
          |xs| > 0 && (p - slope * x) * (|xs| as real) == Mean(ys) - slope * Mean(xs))
  }

  /** `calculateLinearRegression`: a + b * x with a and b recomputed from the
      lists; the a and b arguments are overwritten before use. */
  function LinearRegression(xs: seq<real>, ys: seq<real>, x: real, a: real, b: real): (r: Result<real>)
    ensures r.Ok? <==> RegressionB(xs, ys).Ok?
    ensures |xs| != |ys| ==> r == Err(ListSizeMismatch)
    ensures r.Ok? ==> OnRegressionLine(xs, ys, RegressionB(xs, ys).value, x, r.value)
  {
    var slope :- RegressionB(xs, ys);
    Ok(Prediction(xs, ys, slope, x))
  }

  /** The intercept for the given slope plus the slope times x. */
  function Prediction(xs: seq<real>, ys: seq<real>, slope: real, x: real): (p: real)
    requires |xs| == |ys|
    ensures OnRegressionLine(xs, ys, slope, x, p)
  {
    var intercept := RegressionA(xs, ys, slope).value;
    assert (intercept + slope * x) - slope * x == intercept;
    intercept + slope * x
  }

  /** The prediction is affine in x: moving x moves it by the slope times the
      distance. */
  lemma PredictionIsAffine(xs: seq<real>, ys: seq<real>, x1: real, x2: real, a: real, b: real)
    requires RegressionB(xs, ys).Ok?
    ensures LinearRegression(xs, ys, x2, a, b).Ok? && LinearRegression(xs, ys, x1, a, b).Ok?
    ensures LinearRegression(xs, ys, x2, a, b).value - LinearRegression(xs, ys, x1, a, b).value
            == RegressionB(xs, ys).value * (x2 - x1)
  {
    var slope := RegressionB(xs, ys).value;
    PredictionAt(xs, ys, x1, a, b);
    PredictionAt(xs, ys, x2, a, b);
    PredictionDifference(xs, ys, slope, x1, x2);
  }

  /** The prediction at x is the Prediction for the slope the lists give. */
  lemma PredictionAt(xs: seq<real>, ys: seq<real>, x: real, a: real, b: real)
    requires RegressionB(xs, ys).Ok?
    ensures LinearRegression(xs, ys, x, a, b) == Ok(Prediction(xs, ys, RegressionB(xs, ys).value, x))
  {
  }

  /** Predictions for one slope differ by the slope times the distance. */
  lemma PredictionDifference(xs: seq<real>, ys: seq<real>, slope: real, x1: real, x2: real)
    requires |xs| == |ys|
    ensures Prediction(xs, ys, slope, x2) - Prediction(xs, ys, slope, x1) == slope * (x2 - x1)
  {
    var intercept := RegressionA(xs, ys, slope).value;
    ShiftedLine(intercept, slope, x1, x2);
  }

  /** Two points of one line differ by the slope times their distance. */
  lemma ShiftedLine(intercept: real, slope: real, x1: real, x2: real)
    ensures (intercept + slope * x2) - (intercept + slope * x1) == slope * (x2 - x1)
  {
  }

  /** The a and b arguments of LinearRegression have no effect on its result. */
  lemma LinearRegressionIgnoresCoefficients(xs: seq<real>, ys: seq<real>, x: real, a1: real, b1: real, a2: real, b2: real)
    ensures LinearRegression(xs, ys, x, a1, b1) == LinearRegression(xs, ys, x, a2, b2)
  {
  }
}
